=== FILE: README.md ===
# Studio-tour RAG assistant: a Dafny model of its retrieval core

This project models the deterministic core of a retrieval-augmented chat
assistant for a film-studio tour. A question goes through these steps:

- The query enhancer rewrites abbreviations and appends one expansion per
  matching domain term.
- Candidate chunks come from dense (vector) retrieval and from a BM25 keyword
  index.
- Both lists are merged by weighted reciprocal rank fusion (RRF).
- A similarity threshold is applied.
- An optional cross-encoder reranks the survivors.
- The top results are formatted as a context block for the language model.

Around that pipeline sit the other modelled parts:

- The conversation memory: a sliding window of user and assistant messages.
- The document chunkers: fixed windows with overlap, and the hybrid merge of
  semantic pieces under size limits.
- The metadata extractor: document type, entities, locations, production
  terms, dialogue flag.
- The post-processing of the language model's suggested follow-up questions.
- The dotted-path configuration lookup.

Everything is pure functions over immutable values.

**Values.** Python's dictionaries become the `Value` datatype (`Values`), and
a chunk or metadata record is a `map<string, Value>`. Scores are `real`.

**Inputs instead of calls.** Anything the program delegates to a library or a
service becomes an input of the model:

- the embedding model and vector store, represented by their hits;
- BM25 scoring, as a scorer function plus the order `np.argsort` returns;
- the cross-encoder, as a predictor function;
- the language model, as a reply function;
- the semantic chunker, represented by its pieces;
- the iteration order of a Python `set`.

**Modules:**

| module | file |
|---|---|
| `Wrappers` | `wrappers.dfy` |
| `Seqs` | `seqs.dfy` |
| `Text` | `text.dfy` |
| `Values` | `values.dfy` |
| `Config` | `config.dfy` |
| `Candidates` | `candidates.dfy` |
| `Fusion` | `fusion.dfy` |
| `SparseIndex` | `sparse_index.dfy` |
| `Retriever` | `retriever.dfy` |
| `QueryEnhancer` | `query_enhancer.dfy` |
| `Memory` | `memory.dfy` |
| `Chunker` | `chunker.dfy` |
| `MetadataExtractor` and `MetadataFields` | `metadata_extractor.dfy` |
| `SuggestedQuestions` | `suggested_questions.dfy` |

**Python builtins.** `Seqs` and `Text` hold the models of the Python builtins
the code relies on:

- slicing with negative bounds;
- `str.lower`, `split`, `join`, `strip`, `lstrip`;
- `\b` word matching;
- `sorted(set(...))`;
- the stable `sort(reverse=True)`.

Their meaning is stated in contracts or in lemmas beside them:

- slicing: `PySliceNonNegative`, `PyTakeNonNegative`, `PyDropNegated`;
- `split` on a character: no part holds the separator, and `JoinSplitOn` and
  `SplitOnJoin` make it the inverse of `join`;
- whitespace `split`: `SplitJoinTokens`;
- `strip`: the result is the text between a whitespace prefix and a whitespace
  suffix, with non-whitespace ends;
- `\b` matching and `re.sub`: `ReplaceWordFirst`, `ReplaceWordOnce`,
  `ReplaceWordNoMatch`;
- `sorted(set(...))`: `StrictlySortedUnique`;
- the stable descending sort: `SortDescCorrect` and `SortDescTies`.

## Model

| member | source | states |
|---|---|---|
| Config.Walk | backend/config.py:44-51 | the walk's answer is the value the path reaches, or the default when that is `None` (a missing key, a stored `None`, a non-mapping met mid-path); it returns `None` only when `default` is `None` |
| Config.Get | backend/config.py:42-51 | `get` returns the default or a non-`None` value |
| Config.GetTopLevel | backend/config.py:42-51 | a dot-free key reads the stored value, or the default when the key is missing or `None` |
| Config.WalkPut | backend/config.py:44-51 | a value stored along a path is found again by walking that path |
| Config.GetPut | backend/config.py:42-51 | a dotted key reads back the non-`None` value stored along its dot-free parts |
| Config.GetPutOther | backend/config.py:42-51 | storing under one top-level key leaves every other top-level key's reading unchanged |
| Config.WalkReachesStuck | backend/config.py:46-50 | once a prefix of the path leads to a non-mapping, the whole path reaches `None` |
| Config.WalkStops | backend/config.py:46-50 | once the walk meets a non-mapping (including `None` from a missing key) before the end of the path, the result is the default, however much path is left |
| Config.WalkMissing | backend/config.py:46-50 | a key missing at any step of the path, the last included, gives the default |
| Candidates.FromHit | src/retrieval/retriever.py:117-126 | a dense hit becomes a `dense` candidate with similarity `1 - distance` and no other scores |
| Candidates.FromHits | src/retrieval/retriever.py:116-126 | one candidate per vector-store hit, in order |
| Candidates.DenseRetrieve | src/retrieval/retriever.py:99-131 | keeps exactly the hits whose similarity reaches the threshold, in their original order (an order-preserving sub-sequence) |
| Candidates.DenseRetrieveCount | src/retrieval/retriever.py:116-131 | duplicates are kept as they come: a candidate occurs in the result exactly as often as among the hits when it clears the threshold, and not at all otherwise |
| Candidates.DenseRetrieveKeepsAll | src/retrieval/retriever.py:128-129 | when every hit clears the threshold, nothing is dropped |
| Fusion.FusionKey | src/retrieval/retriever.py:219 | the fusion key is the text's first 100 characters: the whole text when it is shorter |
| Fusion.Entries | src/retrieval/retriever.py:218-246 | the two loops visit dense results by rank, then sparse results by rank |
| Fusion.AccumulateKeys | src/retrieval/retriever.py:214-246 | the dictionary's keys are the distinct keys in order of first appearance, each once |
| Fusion.AccumulateScore | src/retrieval/retriever.py:218-246 | each key's accumulated score is the sum of its weighted `1/(60 + rank + 1)` terms over both lists |
| Fusion.TotalEntries | src/retrieval/retriever.py:218-246 | that sum is `alpha` times the dense reciprocal-rank sum plus `1 - alpha` times the sparse one |
| Fusion.AccumulateSimilarity | src/retrieval/retriever.py:227-232 | a key seen in the dense list keeps its best dense similarity |
| Fusion.AccumulateBm25 | src/retrieval/retriever.py:244-246 | a key seen in the sparse list keeps the BM25 score of its last sparse occurrence |
| Fusion.FuseLength | src/retrieval/retriever.py:248-254 | fusion returns one record per distinct key |
| Fusion.FuseKeys | src/retrieval/retriever.py:214-257 | every input key appears in the output, every output key comes from an input, and no key appears twice |
| Fusion.FuseRecord | src/retrieval/retriever.py:214-257 | each fused record is the first candidate of its key, re-tagged `hybrid`, with fusion score equal to the weighted RRF sum |
| Fusion.FuseTagged | src/retrieval/retriever.py:251-253 | every fused record is tagged `hybrid` and carries a fusion score |
| Fusion.FuseSimilarity | src/retrieval/retriever.py:227-232 | a fused record's similarity is the best dense similarity of its key, or the first occurrence's when the key is sparse-only |
| Fusion.FuseBm25 | src/retrieval/retriever.py:244-246 | a fused record's BM25 score is the one from the last sparse candidate of its key |
| Fusion.FuseOrder | src/retrieval/retriever.py:256-257 | the output is sorted by fusion score, descending; ties stay in first-appearance order, as the stable sort leaves them |
| SparseIndex.Empty | src/retrieval/bm25_index.py:16-32 | a fresh index has no model and no documents, and its parallel lists agree |
| SparseIndex.Tokenize | src/retrieval/bm25_index.py:51 | tokens are non-empty, whitespace-free and lower case |
| SparseIndex.TokenizeJoin | src/retrieval/bm25_index.py:51 | re-tokenising the stored `' '.join(tokens)` gives the same tokens back |
| SparseIndex.Build | src/retrieval/bm25_index.py:34-61 | building succeeds exactly when some chunk has at least one token (the BM25 library divides by the corpus size and by the vocabulary size); either way the lists hold one token list, id `str(i)` and metadata without `text` per chunk; on failure the old model is kept |
| SparseIndex.BuildEmpty | src/retrieval/bm25_index.py:44-58 | building from no chunks fails and leaves the three lists empty |
| SparseIndex.Clear | src/retrieval/bm25_index.py:168-173 | clearing drops the model and empties all three lists |
| SparseIndex.Positive | src/retrieval/bm25_index.py:90 | keeps exactly the ranked indices with a positive score, in rank order |
| SparseIndex.Search | src/retrieval/bm25_index.py:65-92 | an unbuilt index returns nothing, and no more hits than the order lists |
| SparseIndex.PositiveOrdered | src/retrieval/bm25_index.py:87-90 | the positive hits are in non-increasing score order |
| SparseIndex.PrefixHits | src/retrieval/bm25_index.py:87-90 | every positive-scoring index among the first `top_k` of the order is returned |
| SparseIndex.PositiveTop | src/retrieval/bm25_index.py:87-90 | a positive-scoring document left out scores no higher than any returned hit |
| SparseIndex.SearchCorrect | src/retrieval/bm25_index.py:76-92 | the search returns at most `top_k` hits, and they are top hits by score |
| SparseIndex.SearchInRange | src/retrieval/bm25_index.py:84-90 | every returned index is a valid document position, paired with that document's score |
| SparseIndex.InRange | src/retrieval/bm25_index.py:106-107 | keeps exactly the indices inside the document list, in order |
| SparseIndex.GetDocumentsByIndices | src/retrieval/bm25_index.py:94-116 | out-of-range indices are skipped; each in-range one yields the document rebuilt from tokens, id and metadata |
| SparseIndex.GetDocumentsOrder | src/retrieval/bm25_index.py:104-116 | documents come back in the order of their indices |
| SparseIndex.GetDocumentsCons | src/retrieval/bm25_index.py:104-116 | index by index: an in-range index yields its document in front of the rest, an out-of-range one yields nothing, so a repeated index gives its document again |
| SparseIndex.GetDocumentsAllInRange | src/retrieval/bm25_index.py:104-116 | with every index valid, the result has one document per index, position by position |
| SparseIndex.DocumentFields | src/retrieval/bm25_index.py:108-114 | a fetched document has the joined tokens under `text`, every stored metadata field, and the id under `doc_id` unless the metadata has its own |
| SparseIndex.BuildThenFetch | src/retrieval/bm25_index.py:44-116 | when some chunk has a token, fetching chunk `i` after a build returns a text that tokenises like the chunk's, all its other fields, and id `str(i)` unless the chunk had its own `doc_id` |
| Retriever.SparseCandidate | src/retrieval/retriever.py:167-176 | a BM25 document becomes a `sparse` candidate with its text and BM25 score, and metadata that is the document minus `text` and `doc_id` |
| Retriever.SparseCandidates | src/retrieval/retriever.py:167-176 | pairs hits with documents as `zip` does, stopping at the shorter list |
| Retriever.BuildWellformed | src/retrieval/bm25_index.py:48-55 | a successful build stores parallel lists and keeps `text` out of every stored metadata record |
| Retriever.DocumentsHaveText | src/retrieval/bm25_index.py:104-114 | documents fetched from a well-formed index have a `text` string |
| Retriever.SparseLeg | src/retrieval/retriever.py:158-176 | the sparse leg yields `sparse` candidates with a BM25 score and no similarity |
| Retriever.SparseLegAligned | src/retrieval/retriever.py:159-176 | on a consistent index, the sparse leg has one candidate per search hit, carrying the hit's BM25 score and the stored tokens joined by spaces |
| Retriever.PostFusionFilterAsWritten | src/retrieval/retriever.py:186-190 | the threshold filter as written: a record stays if its similarity, defaulting to 0, reaches the threshold, or if it is tagged `sparse` |
| Retriever.AsWrittenNeedsSimilarity | src/retrieval/retriever.py:179-190 | after fusion, the written filter keeps only records whose similarity reaches the threshold |
| Retriever.AsWrittenDropsSparseOnly | src/retrieval/retriever.py:179-190 | a document found only by BM25 is always dropped by the written filter, for any positive threshold |
| Retriever.PostFusionFilter | src/retrieval/retriever.py:183-190 | the intended filter: records without a similarity are exempt; the rest must reach the threshold |
| Retriever.IntendedFilterExact | src/retrieval/retriever.py:183-190 | a record survives the intended filter if and only if it has no similarity or its similarity reaches the threshold |
| Retriever.FusedIndexOf | src/retrieval/retriever.py:248-254 | every input key has a fused record |
| Retriever.IntendedKeepsSparseOnly | src/retrieval/retriever.py:183-190 | every sparse-only document survives fusion and the intended filter |
| Retriever.Pairs | src/retrieval/retriever.py:276 | one `(query, text)` pair per candidate, in order |
| Retriever.WithRerank | src/retrieval/retriever.py:281-283 | each candidate receives its own predicted score and nothing else changes |
| Retriever.Rerank | src/retrieval/retriever.py:261-288 | an empty list comes back unchanged; otherwise reranking succeeds exactly when the predictor gives a score for every candidate, and then every candidate carries one |
| Retriever.RerankCorrect | src/retrieval/retriever.py:272-288 | the reranked list is a stable descending sort by rerank score of the scored candidates |
| Retriever.RerankSortedInput | src/retrieval/retriever.py:285-286 | candidates already in score order keep their order |
| Retriever.HybridRetrieve | src/retrieval/retriever.py:133-192 | as written: hybrid results are fused records tagged `hybrid`; with a positive threshold each carries a similarity that reaches it, so no BM25-only document survives, and every fused record passing the written test is kept; with no threshold the result is the whole fusion |
| Retriever.AsWrittenAfterFusion | src/retrieval/retriever.py:179-190 | after fusion the written filter keeps tagged records, each with a similarity reaching a positive threshold, and keeps every fused record that passes its test |
| Retriever.HybridRetrieveOrder | src/retrieval/retriever.py:186-190 | the survivors keep their fusion order, as the list comprehension does |
| Retriever.HybridRetrieveIntended | src/retrieval/retriever.py:179-190 | corrected: fused records, where a positive threshold applies only to records that carry a similarity, and every fused record passing that test is kept |
| Retriever.HybridRetrieveIntendedOrder | src/retrieval/retriever.py:186-190 | the corrected survivors keep their fusion order |
| Retriever.SecondStage | src/retrieval/retriever.py:90-92 | the reranking stage keeps the number of candidates |
| Retriever.Retrieve | src/retrieval/retriever.py:76-97 | the first stage chooses hybrid or dense; an empty first stage returns empty; the answer is at most the first `final_top_n` of the (reranked) candidates |
| Retriever.RetrieveDenseOnly | src/retrieval/retriever.py:81-97 | without hybrid search or reranking, the answer is the first `final_top_n` threshold-passing dense candidates |
| Retriever.RerankTop | src/retrieval/retriever.py:90-95 | the first `n` after reranking are the `n` best by rerank score |
| Retriever.RetrieveReranked | src/retrieval/retriever.py:76-97 | with a reranker, the answer is sorted by rerank score, drawn from the scored first-stage candidates, and no candidate left out scores higher than one returned |
| Retriever.Blocks | src/retrieval/retriever.py:334-342 | one block per chunk, numbered from 1 |
| Values.RenderItems | src/retrieval/retriever.py:337-341 | a list in an f-string shows each string element as its `repr` |
| Values.Repr | src/retrieval/retriever.py:337-341 | `repr` of a string is its escaped text between two equal quotes, the quote chosen by `QuoteFor` |
| Values.ReprPlain | src/retrieval/retriever.py:337-341 | a string with nothing to escape appears between the quotes unchanged |
| Values.UnescapeEscape | src/retrieval/retriever.py:337-341 | reading the escapes back gives the string |
| Values.ReprRoundTrip | src/retrieval/retriever.py:337-341 | the text between the quotes of `repr(s)` reads back as `s` |
| Values.ReprDoubleQuoted | src/retrieval/retriever.py:337-341 | a string holding `'` and no `"` is quoted with `"` and nothing is escaped |
| Values.ReprBothQuotes | src/retrieval/retriever.py:337-341 | a string holding both quotes is quoted with `'`, and the `'` inside is escaped |
| Values.ReprEscapes | src/retrieval/retriever.py:337-341 | backslashes and newlines are written as `\\` and `\n` |
| Retriever.FormatContext | src/retrieval/retriever.py:321-344 | the fixed no-context message appears exactly when there are no chunks; otherwise the text starts with the first block |
| Retriever.FormatContextAppend | src/retrieval/retriever.py:334-344 | one more chunk adds a newline and its numbered block at the end |
| Retriever.FormatContextSingle | src/retrieval/retriever.py:334-344 | a single chunk formats as its block alone |
| QueryEnhancer.Abbreviate | src/query/query_enhancer.py:53-59 | an abbreviation that does not occur as a whole word leaves the query alone |
| QueryEnhancer.AbbreviateOnce | src/query/query_enhancer.py:56-58 | an abbreviation occurring once as a whole word, in any case, is replaced by its full form and every other character is kept |
| QueryEnhancer.AbbreviateFirst | src/query/query_enhancer.py:56-58 | the first whole-word occurrence is replaced by the full form, the text before it is kept, and substitution resumes right after it |
| QueryEnhancer.AbbreviateAllNoMatch | src/query/query_enhancer.py:53-62 | a query without any whole-word abbreviation passes through unchanged |
| QueryEnhancer.AbbreviateAllAppend | src/query/query_enhancer.py:53-59 | the abbreviation loop is sequential: a longer table runs the shorter one first |
| Seqs.PySliceNonNegative | src/chunking/chunker.py:78 | `text[start:end]` with `0 <= start <= end` is the characters from `start` up to `end`, both clipped to the length |
| Text.SplitOn | backend/config.py:44 | `key.split('.')` gives at least one part, and no part holds the separator |
| Text.JoinSplitOn | backend/config.py:44 | joining the parts with the separator gives the string back |
| Text.SplitOnJoin | backend/config.py:44 | splitting separator-free parts joined by the separator gives the parts back |
| Text.LStripSpace | backend/services/rag_service.py:270-271 | leading whitespace is removed: the dropped prefix is all whitespace and the rest starts with a non-whitespace character |
| Text.RStripSpace | backend/services/rag_service.py:270-271 | trailing whitespace is removed: the dropped suffix is all whitespace and the rest ends with a non-whitespace character |
| Text.Strip | backend/services/rag_service.py:270-271 | `strip()` returns the text between a whitespace prefix and a whitespace suffix, neither end of it whitespace |
| Text.ReplaceWordFromSkip | src/query/query_enhancer.py:58 | `re.sub` copies the text before the next whole-word match unchanged |
| Text.ReplaceWordFirst | src/query/query_enhancer.py:58 | `re.sub` replaces the first whole-word match and resumes after it |
| Text.ReplaceWordOnce | src/query/query_enhancer.py:58 | a single whole-word match is replaced and every other character stays in place |
| Text.WordAtLower | src/query/query_enhancer.py:57-58 | lower-casing the query does not move any whole-word match, so testing the lower-cased query and substituting in the original agree |
| QueryEnhancer.ReplaceWordIdentity | src/query/query_enhancer.py:58 | substituting a word that does not occur changes nothing |
| QueryEnhancer.FirstAbsent | src/query/query_enhancer.py:69-72 | picks the first expansion not already in the query; there is none exactly when all of them are already present |
| QueryEnhancer.ExpansionOf | src/query/query_enhancer.py:64-72 | a term contributes one expansion exactly when it occurs as a whole word and some expansion is missing, and that expansion is the first missing one |
| QueryEnhancer.ExpansionParts | src/query/query_enhancer.py:64-72 | at most one part per term |
| QueryEnhancer.ExpansionPartsSound | src/query/query_enhancer.py:64-72 | every appended part is the first missing expansion of some term that occurs in the query |
| QueryEnhancer.ExpansionPartsNone | src/query/query_enhancer.py:64-72 | no matching term means no appended parts |
| QueryEnhancer.ExpansionPartsAppend | src/query/query_enhancer.py:64-72 | the expansion loop visits terms in table order |
| QueryEnhancer.Segments | src/query/query_enhancer.py:44-76 | between one and three parts, starting with the abbreviated query, the rest being that query's expansions |
| QueryEnhancer.EnhanceQuery | src/query/query_enhancer.py:34-78 | the enhanced query begins with the abbreviated query; a single segment is returned as it is, and otherwise the abbreviated query is followed by ` OR ` and the remaining segments joined by ` OR ` |
| QueryEnhancer.EnhanceQueryNoMatch | src/query/query_enhancer.py:44-78 | a query with no abbreviation and no expandable term comes back unchanged |
| QueryEnhancer.AddNew | src/query/query_enhancer.py:111-113 | extends the list with exactly the matching terms not yet present, keeping what was there first and adding no duplicates |
| QueryEnhancer.Matching | src/query/query_enhancer.py:102-104 | keeps exactly the terms that occur in the query |
| QueryEnhancer.StudioMatches | src/query/query_enhancer.py:96-104 | the studio terms found in the query, each once |
| QueryEnhancer.Keywords | src/query/query_enhancer.py:80-115 | the keywords are exactly the studio and tour terms in the query, without duplicates, studio terms first |
| QueryEnhancer.KeywordsFromParts | src/query/query_enhancer.py:102-113 | the two loops together collect exactly the terms of either list that occur |
| Memory.New | src/chat/memory_manager.py:13-21 | a new manager is empty and holds its turn limit |
| Memory.Push | src/chat/memory_manager.py:21 | appending to the bounded deque adds the message at the end and drops the oldest one when full |
| Memory.AddUser | src/chat/memory_manager.py:23-33 | the limit is kept; below capacity a `user` message is appended at the end; at capacity the oldest message is dropped first; with capacity 0 the history stays empty |
| Memory.AddAssistant | src/chat/memory_manager.py:35-45 | the limit is kept; below capacity an `assistant` message is appended at the end; at capacity the oldest message is dropped first; with capacity 0 the history stays empty |
| Memory.PushAllWindow | src/chat/memory_manager.py:21 | after any sequence of appends, the history is the last `2 * max_turns` messages of everything seen |
| Memory.History | src/chat/memory_manager.py:47-54 | the history never exceeds twice the turn limit |
| Memory.Clear | src/chat/memory_manager.py:75-77 | clearing empties the history and keeps the limit |
| Memory.Import | src/chat/memory_manager.py:106-115 | importing keeps the last `2 * max_turns` imported messages |
| Memory.ImportWindow | src/chat/memory_manager.py:113-115 | clearing and then appending the `history[-2*max_turns:]` slice gives the same window |
| Memory.ExportImport | src/chat/memory_manager.py:97-115 | exporting and re-importing under the same limit restores the manager |
| Memory.Count | src/chat/memory_manager.py:87-88 | a role count never exceeds the number of messages |
| Memory.CountIsMultiplicity | src/chat/memory_manager.py:87-88 | a role count is that role's multiplicity in the history |
| Memory.CountDisjoint | src/chat/memory_manager.py:86-88 | user and assistant counts together never exceed the total |
| Memory.Summarize | src/chat/memory_manager.py:79-95 | totals and per-role counts match the history, and `turns` is the smaller of the two counts |
| Memory.AddUserCounts | src/chat/memory_manager.py:23-33 | below capacity, a user message raises the user count and the total by one and leaves the assistant count |
| Memory.AddAssistantCounts | src/chat/memory_manager.py:35-45 | below capacity, an assistant message raises the assistant count and the total by one and leaves the user count |
| Memory.Line | src/chat/memory_manager.py:70-71 | role `user` is labelled `User`, every other role `Assistant` |
| Memory.Recent | src/chat/memory_manager.py:66 | the last `2 * num_turns` messages; with `num_turns == 0` the slice `[-0:]` returns the whole history |
| Memory.RecentSlice | src/chat/memory_manager.py:66 | the Python slice `[-(k*2):]` is the whole list for `k == 0`, the last `2k` items for `k > 0`, and for `k < 0` the items from position `-2k` on (none once `-2k` passes the end) |
| Memory.RecentContext | src/chat/memory_manager.py:66-73 | the context is empty exactly when there are no recent messages |
| Memory.RecentContextLines | src/chat/memory_manager.py:66-73 | when no message contains a newline, splitting the context on newlines gives back one labelled line per recent message |
| Memory.Step | src/chat/memory_manager.py:23-115 | every public mutation keeps the history within its window |
| Memory.RunValid | src/chat/memory_manager.py:23-115 | any sequence of mutations keeps the history within its window |
| Chunker.Fields | src/chunking/chunker.py:80-86 | a chunk record holds exactly text, id, method tag and the two character offsets |
| Chunker.WithMetadata | src/chunking/chunker.py:88-89 | `dict.update`: metadata keys override, the other fields stay |
| Chunker.StartClosedForm | src/chunking/chunker.py:73-93 | the `i`-th window starts at `i * (chunk_size - chunk_overlap)` |
| Chunker.StartMono | src/chunking/chunker.py:76-93 | window starts strictly increase when the size exceeds the overlap |
| Chunker.Fixed | src/chunking/chunker.py:54-95 | no chunks exactly for empty text; chunk `i` is window `i`; the loop stops at the first window that starts past the text |
| Chunker.FixedStartsInside | src/chunking/chunker.py:76-78 | every emitted window starts inside the text |
| Chunker.FixedChunkFields | src/chunking/chunker.py:76-93 | chunk `i` has id `i`, tag `fixed`, start `i*(size-overlap)`, the nominal end `start+size`, and text of at most `size` characters taken at the start |
| Chunker.FixedCovers | src/chunking/chunker.py:76-93 | with `0 <= overlap < size`, every character of the text lies inside some chunk's window |
| Chunker.FixedKeepsMetadata | src/chunking/chunker.py:88-89 | every chunk carries the caller's metadata values |
| Chunker.Relabel | src/chunking/chunker.py:325-328 | a split sub-chunk gets the running id and the `hybrid` tag |
| Chunker.Relabelled | src/chunking/chunker.py:318-329 | sub-chunks are numbered consecutively from the running id |
| Chunker.SaveInv | src/chunking/chunker.py:340-351 | saving the accumulator keeps ids consecutive and saved texts at least `min_size` long |
| Chunker.SubEmitted | src/chunking/chunker.py:318-329 | each split sub-chunk is at most `max_size` long and tagged `hybrid` |
| Chunker.SplitInv | src/chunking/chunker.py:300-332 | the split branch keeps the emitted-chunk invariant |
| Chunker.MergeStepInv | src/chunking/chunker.py:274-338 | one iteration of the merge loop keeps the emitted-chunk invariant |
| Chunker.MergeAllInv | src/chunking/chunker.py:274-338 | the whole loop keeps the emitted-chunk invariant |
| Chunker.Hybrid | src/chunking/chunker.py:232-353 | no pieces give no chunks; under plain metadata the chunks are numbered 0, 1, … and tagged `hybrid`; each is either an accumulation (at least `min_size` long, its offsets spanning exactly its text) or a split window (at most `max_size` long, its offsets spanning `max_size`); with no piece over `max_size`, every chunk is an accumulation |
| Chunker.MergeAllNoSplit | src/chunking/chunker.py:274-338 | with no piece over `max_size`, the loop never takes the split branch |
| Chunker.HybridNoOversize | src/chunking/chunker.py:274-353 | with no piece over `max_size`, every hybrid chunk is an accumulation of at least `min_size` characters whose offsets span its text |
| Chunker.HybridNoSplitTrace | src/chunking/chunker.py:274-353 | with no piece over `max_size`, no emitted chunk comes from the split branch |
| Chunker.HybridShape | src/chunking/chunker.py:232-353 | hybrid chunk ids are positions 0, 1, …; each chunk is either a saved accumulation of at least `min_size` characters or a split piece of at most `max_size` |
| Chunker.SplitBranchStartsEmpty | src/chunking/chunker.py:278-303 | the oversize branch is only reached with an empty accumulator |
| Chunker.HybridSingleOversize | src/chunking/chunker.py:300-332 | a single oversize piece becomes exactly its fixed windows at `max_size`, renumbered from 0 and retagged |
| Chunker.AccumulatedCanExceedMax | src/chunking/chunker.py:278-299 | an accumulation below `min_size` absorbs the next piece even beyond `max_size` |
| MetadataExtractor.FirstRule | src/metadata/metadata_extractor.py:59-75 | the first rule whose keywords occur; none exactly when no rule matches |
| MetadataExtractor.DocumentType | src/metadata/metadata_extractor.py:47-75 | the type is empty or one of the seven labels |
| MetadataExtractor.DocumentTypeChain | src/metadata/metadata_extractor.py:57-75 | the `if/elif` chain in its written order: `faq`, `tour`, `production`, `backlot`, `facilities` (stage or facilities), `operations`, `techniques` |
| MetadataExtractor.LabelOfHits | src/metadata/metadata_extractor.py:59-75 | the label is the one of the first rule that hits |
| MetadataExtractor.DocumentTypeEmpty | src/metadata/metadata_extractor.py:59-75 | the type is empty exactly when no keyword occurs in the lower-cased filename |
| MetadataExtractor.SubstringMatches | src/metadata/metadata_extractor.py:126-133 | the sorted, distinct table entries that occur in the text ignoring case |
| MetadataExtractor.WordMatches | src/metadata/metadata_extractor.py:105-114 | the sorted, distinct table entries that occur as whole words ignoring case |
| MetadataExtractor.SubstringMatchesUnique | src/metadata/metadata_extractor.py:126-133 | any sorted duplicate-free list with those members is the result: the result is fully determined |
| MetadataExtractor.WordMatchesUnique | src/metadata/metadata_extractor.py:105-114 | the same uniqueness for whole-word matching |
| MetadataExtractor.HasDialogueAsWritten | src/metadata/metadata_extractor.py:177-180 | as written: flagged exactly when a straight double or single quote occurs or the text contains ` in text or ` |
| MetadataExtractor.HasDialogue | src/metadata/metadata_extractor.py:177-180 | dialogue is flagged exactly when a straight or curly quotation mark occurs |
| MetadataExtractor.AsWrittenMissesCurlyQuotes | src/metadata/metadata_extractor.py:180 | the check as written misses text quoted only with curly quotes |
| MetadataExtractor.AsWrittenFlagsPhrase | src/metadata/metadata_extractor.py:180 | the check as written flags quote-free text containing ` in text or ` |
| MetadataExtractor.ExtractAll | src/metadata/metadata_extractor.py:154-175 | the record has exactly the seven keys, each holding its extractor's result (the dialogue flag as the code computes it) and `len(text)` |
| MetadataExtractor.ExtractAllLocations | src/metadata/metadata_extractor.py:126-133 | a location is listed if and only if it occurs in the text ignoring case |
| MetadataExtractor.ExtractAllProductionTerms | src/metadata/metadata_extractor.py:145-152 | a production term is listed if and only if it occurs in the text ignoring case |
| MetadataExtractor.ExtractAllEntities | src/metadata/metadata_extractor.py:105-114 | an entity is listed if and only if it occurs as a whole word ignoring case |
| MetadataExtractor.ExtractAllDialogue | src/metadata/metadata_extractor.py:171 | `has_dialogue` is true exactly when a straight quote occurs or the text contains ` in text or `, as the check is written |
| MetadataFields.Fields | src/metadata/metadata_extractor.py:165-173 | the metadata record holds exactly the seven named fields |
| SuggestedQuestions.Excerpt | backend/services/rag_service.py:226-230 | `content[:300]` slices a string or a list and raises on anything else |
| SuggestedQuestions.Added | backend/services/rag_service.py:233-236 | a present key adds its value to the topic set, a missing key adds nothing, and an unhashable value raises |
| SuggestedQuestions.ReadChunk | backend/services/rag_service.py:225-236 | a chunk is read without error exactly when its excerpt and both topic lookups succeed |
| SuggestedQuestions.Gather | backend/services/rag_service.py:225-236 | the chunk loop succeeds exactly when every chunk reads, and yields one excerpt per chunk |
| SuggestedQuestions.Consulted | backend/services/rag_service.py:225 | only the first five chunks are read |
| SuggestedQuestions.Clean | backend/services/rag_service.py:271-273 | a cleaned line starts with neither numbering nor space and does not end in whitespace |
| SuggestedQuestions.Keep | backend/services/rag_service.py:274-275 | every kept line is longer than 20 characters |
| SuggestedQuestions.KeepMember | backend/services/rag_service.py:274-275 | a line is kept if and only if it is longer than 20 characters |
| SuggestedQuestions.KeepAppend | backend/services/rag_service.py:269-275 | the filter works line by line |
| SuggestedQuestions.ReplyLines | backend/services/rag_service.py:270 | the stripped reply splits into newline-free lines |
| SuggestedQuestions.ParseReply | backend/services/rag_service.py:268-275 | the parsed questions are exactly the cleaned reply lines longer than 20 characters |
| SuggestedQuestions.ParseReplyJoin | backend/services/rag_service.py:268-275 | questions already clean and long enough, sent one per line, parse back to themselves |
| SuggestedQuestions.Pad | backend/services/rag_service.py:277-296 | exactly `n` questions: the parsed ones first, then fallbacks by position |
| SuggestedQuestions.PadIdempotent | backend/services/rag_service.py:277-296 | padding a padded list changes nothing |
| SuggestedQuestions.FallbackText | backend/services/rag_service.py:288-293 | without topics the fallback is the generic question; with topics it cycles through the five openings and the topics |
| SuggestedQuestions.Suggest | backend/services/rag_service.py:203-305 | a failure while reading the chunks, or a failed model call, returns the three fixed error questions; any other answer has `n` entries |
| SuggestedQuestions.SuggestShape | backend/services/rag_service.py:268-296 | with a reply, the answer is the parsed questions followed by fallbacks, `n` in all |
| SuggestedQuestions.LaterChunksIgnored | backend/services/rag_service.py:225 | chunks after the fifth never affect the answer |
| SuggestedQuestions.LongContentIgnored | backend/services/rag_service.py:230 | content beyond 300 characters never affects what is read |

## Left out

- `retrieve_with_context` (src/retrieval/retriever.py:290-319): not modelled. It only joins recent message contents with the query and calls `retrieve`.
- BM25 persistence (`_save_index`, `_load_index`): not modelled, because it is file I/O. Pickling has no counterpart in the model.
- The BM25 score formula: the `rank_bm25` library is outside this code.
  - Scores come from an input `scorer`.
  - `np.argsort(scores)[::-1]` is an input `order`, required to list the documents by non-increasing score.
  - The order among tied scores is therefore not fixed.
- Dense retrieval's embedding and vector-store query are represented by their hits (`DenseHit`). The metadata filter is applied by the vector store and is not modelled.
- The cross-encoder is represented by an input predictor.
  - When it returns fewer scores than there are candidates, the sort in the source raises a `KeyError`. The model answers `Err` instead.
- `semantic_chunking`, `recursive_chunking` and `extract_text_from_pdf`: not modelled.
  - They depend on sentence embeddings, LangChain and PyMuPDF.
  - The hybrid chunker takes the semantic pieces as input.
  - `chunk_document` only dispatches over them and merges metadata.
- `extract_chapter`: not modelled. It depends on regular-expression search with `\s`, `^`/`$` and capture groups. The chapter string is an input of `ExtractAll`.
- The prompt wording and the language-model call in `generate_suggested_questions` are an input function. It returns a reply, or `None` for an exception.
- Python `set` iteration order, for the topics of suggested questions, is an input `order`. The model requires it to list each topic once.
- Floating point: scores and weights are `real`. Rounding in `alpha / (k + rank + 1)` and in `1 - distance` is not modelled.
- `str.lower`, `isspace` and `\w` are modelled for ASCII letters and whitespace only. Unicode case mapping is left out.
- Values.Render: renders a non-empty dictionary as a placeholder. It is used only for the `source_file` and `page_num` fields of a context block.
- Values.Repr: follows Python's choice of quote and its escapes for `\\`, the quote, tab, newline, carriage return and the characters below U+0100 that `str.isprintable` rejects. Characters from U+0100 up that `str.isprintable` rejects are copied unchanged; Python writes them as `\uNNNN` or `\UNNNNNNNN`. The Unicode database is not modelled.
- Chunker.Fixed: requires `chunk_size > chunk_overlap` for non-empty text. With any other sizes the loop in the source never terminates.
- Chunker.Hybrid: requires `max_size > chunk_overlap`. In the source the split branch would never terminate otherwise.
- Chunker.Hybrid: an accumulated chunk's text is not related to the pieces it came from. The contract fixes ids, the tag, the size bound of each kind of chunk and its offsets, but not which characters an accumulation holds.
- Chunker.Hybrid: the docstring (src/chunking/chunker.py:241-243) says chunks stay within the size limits. The code does not do that, and the model follows the code. An accumulation below `min_size` takes the next piece whatever the length (lines 297-299), as `Chunker.AccumulatedCanExceedMax` shows. An overlap tail followed by a long piece can also exceed `max_size`. The comment "add anyway" at line 298 shows the overshoot is deliberate, so it is not listed as a finding.
- Chunker.HybridShape: states the id and size facts only when the caller's metadata holds none of the chunk's own keys (`Plain`). Metadata holding those keys would overwrite them.
- Memory.New: takes a non-negative `max_turns`. A negative value makes `deque(maxlen=...)` raise.
- Python's `1 == True` and `hash(1) == hash(True)` in topic sets are not modelled. `Int(1)` and `Bool(true)` are different values.
- Config file loading (YAML parsing, environment variables) is left out. `Get` works on an already-loaded tree.
- SparseIndex.Build: the library's `ZeroDivisionError` is modelled as `Err`, under the condition that raises it (no chunk has a token). The exception itself is not modelled. The model also requires every chunk's `text`, when present, to be a string; a `None` or non-string `text` makes `text.lower()` raise `AttributeError` in the source (src/retrieval/bm25_index.py:49-51).

## Findings

| source | as written | input that shows it | evidently intended | confidence | as-written member | corrected member |
|---|---|---|---|---|---|---|
| src/retrieval/retriever.py:186-190 | after fusion every record is tagged `hybrid` (line 253), so the `retrieval_method == 'sparse'` exemption never fires: a record without a similarity is compared as 0 and dropped | a document found only by BM25, with any similarity threshold above 0 | documents that carry no similarity (sparse-only) are exempt from the threshold, as the comment at lines 184-185 says | not executed | Retriever.AsWrittenDropsSparseOnly | Retriever.IntendedKeepsSparseOnly |
| src/metadata/metadata_extractor.py:180 | `""" in text or """` is a triple-quoted string literal, so the last test is for the substring ` in text or ` and curly quotes are never checked | the text `“Hi”` (U+201C, U+201D) is not flagged; `x in text or y` is | dialogue is flagged by straight or curly double quotes, or by an apostrophe | not executed | MetadataExtractor.AsWrittenMissesCurlyQuotes | MetadataExtractor.HasDialogue |

The pipeline follows the code as written: `Retriever.HybridRetrieve` (and so `Retriever.Retrieve`) applies `Retriever.PostFusionFilterAsWritten`, and `MetadataExtractor.ExtractAll` records `MetadataExtractor.HasDialogueAsWritten`. The corrected definitions stand beside them: `Retriever.HybridRetrieveIntended` applies `Retriever.PostFusionFilter`, and `MetadataExtractor.HasDialogue` tests for the four quotation marks.

=== FILE: candidates.dfy ===
/** Retrieval candidates and the dense leg of retrieval: converting the vector
    store's nearest neighbours into candidates and applying the similarity
    threshold. The store itself is outside the model; its answer is an input. */
module Candidates {
  import opened Wrappers
  import opened Values
  import opened Seqs

  /** The `retrieval_method` tag of a candidate. */
  datatype Method = Dense | Sparse | Hybrid

  /** A candidate record. The optional score fields are present exactly when
      the Python dictionary carries the corresponding key. */
  datatype Candidate = Candidate(
    id: Value,
    text: string,
    metadata: Record,
    distance: Option<real>,
    similarity: Option<real>,
    bm25: Option<real>,
    fusion: Option<real>,
    rerank: Option<real>,
    origin: Method)

  /** One nearest neighbour as returned by the vector store: id, document,
      metadata and cosine distance. */
  datatype DenseHit = DenseHit(id: string, text: string, metadata: Record, distance: real)

  /** The candidate built for one store hit: similarity is `1 - distance`. */
  function FromHit(h: DenseHit): (c: Candidate)
    ensures c.similarity == Some(1.0 - h.distance) && c.distance == Some(h.distance)
    ensures c.text == h.text && c.origin == Dense
    ensures c.bm25.None? && c.fusion.None? && c.rerank.None?
  {
    Candidate(Str(h.id), h.text, h.metadata, Some(h.distance), Some(1.0 - h.distance),
              None, None, None, Dense)
  }

  function FromHits(hits: seq<DenseHit>): (cs: seq<Candidate>)
    ensures |cs| == |hits|
    ensures forall i :: 0 <= i < |hits| ==> cs[i] == FromHit(hits[i])
  {
    if |hits| == 0 then [] else [FromHit(hits[0])] + FromHits(hits[1..])
  }

  /** Whether a candidate clears the similarity threshold. */
  predicate Clears(c: Candidate, threshold: real) {
    c.similarity.Some? && c.similarity.value >= threshold
  }

  /** `_dense_retrieve` after the store call: every hit becomes a candidate, and
      only those whose similarity reaches the threshold are kept, in store order. */
  function DenseRetrieve(hits: seq<DenseHit>, threshold: real): (r: seq<Candidate>)
    ensures forall i :: 0 <= i < |r| ==> r[i].origin == Dense && Clears(r[i], threshold)
    ensures forall i :: 0 <= i < |hits| && 1.0 - hits[i].distance >= threshold ==> FromHit(hits[i]) in r
    ensures forall i :: 0 <= i < |r| ==> exists j :: 0 <= j < |hits| && r[i] == FromHit(hits[j])
    ensures IsSubseq(r, FromHits(hits))
  {
    var cs := FromHits(hits);
    var r := Filter(cs, ClearsAt(threshold));
    assert forall i :: 0 <= i < |r| ==> r[i] in cs;
    r
  }

  /** The threshold test as a predicate value. */
  function ClearsAt(threshold: real): Candidate -> bool {
    c => Clears(c, threshold)
  }

  /** Duplicates are neither collapsed nor invented: a candidate occurs in the
      result exactly as often as among the hits when it clears the threshold,
      and not at all otherwise. */
  lemma DenseRetrieveCount(hits: seq<DenseHit>, threshold: real)
    ensures var r := DenseRetrieve(hits, threshold);
      forall c :: multiset(r)[c] == if Clears(c, threshold) then multiset(FromHits(hits))[c] else 0
  {
    ClearsCount(FromHits(hits), ClearsAt(threshold), threshold);
  }

  /** Filtering on the threshold keeps every copy of a clearing candidate
      and none of the others. */
  lemma ClearsCount(cs: seq<Candidate>, keep: Candidate -> bool, threshold: real)
    requires forall c :: keep(c) == Clears(c, threshold)
    ensures forall c :: multiset(Filter(cs, keep))[c] == if Clears(c, threshold) then multiset(cs)[c] else 0
  {
    forall c
      ensures multiset(Filter(cs, keep))[c] == if Clears(c, threshold) then multiset(cs)[c] else 0
    {
      FilterCount(cs, keep, c);
    }
  }

  /** With no hit below the threshold, nothing is dropped. */
  lemma DenseRetrieveKeepsAll(hits: seq<DenseHit>, threshold: real)
    requires forall i :: 0 <= i < |hits| ==> 1.0 - hits[i].distance >= threshold
    ensures DenseRetrieve(hits, threshold) == FromHits(hits)
  {
    FilterAll(FromHits(hits), ClearsAt(threshold));
  }
}

=== FILE: chunker.dfy ===
/** The chunkers' arithmetic: the fixed-size sliding window, and the
    size-merging phase of hybrid chunking with the semantic pieces given as
    input. Chunks are metadata records, as the pipeline stores them. */
module Chunker {
  import opened Seqs
  import opened Values

  const FixedTag: string := "fixed"
  const HybridTag: string := "hybrid"

  /** The positional fields every chunk record starts with. */
  function Fields(text: string, id: int, tag: string, start: int, end: int): (r: Record)
    ensures r.Keys == {"text", "chunk_id", "chunk_method", "start_char", "end_char"}
    ensures r["text"] == Str(text) && r["chunk_id"] == Int(id) && r["chunk_method"] == Str(tag)
    ensures r["start_char"] == Int(start) && r["end_char"] == Int(end)
  {
    map["text" := Str(text), "chunk_id" := Int(id), "chunk_method" := Str(tag),
        "start_char" := Int(start), "end_char" := Int(end)]
  }

  /** `chunk_data.update(metadata)`: the caller's metadata wins on a shared key. */
  function WithMetadata(fields: Record, md: Record): (r: Record)
    ensures r.Keys == fields.Keys + md.Keys
    ensures forall k :: k in md ==> r[k] == md[k]
    ensures forall k :: k in fields && k !in md ==> r[k] == fields[k]
  {
    fields + md
  }

  /** Metadata that overrides none of the positional fields. */
  predicate Plain(md: Record) {
    "text" !in md && "chunk_id" !in md && "chunk_method" !in md && "start_char" !in md && "end_char" !in md
  }

  // ---------------------------------------------------------------------------
  // fixed_chunking
  // ---------------------------------------------------------------------------

  /** Where the `i`-th fixed window starts: the start advances by
      `chunk_size - chunk_overlap` per chunk. */
  function Start(size: int, overlap: int, i: nat): int {
    if i == 0 then 0 else Start(size, overlap, i - 1) + (size - overlap)
  }

  /** The window start in closed form. */
  lemma {:induction false} StartClosedForm(size: int, overlap: int, i: nat)
    ensures Start(size, overlap, i) == i * (size - overlap)
  {
    if i > 0 {
      StartClosedForm(size, overlap, i - 1);
    }
  }

  /** Windows start further along the text the later they come. */
  lemma {:induction false} StartMono(size: int, overlap: int, a: nat, b: nat)
    requires size > overlap && a <= b
    ensures 0 <= Start(size, overlap, a) <= Start(size, overlap, b)
    ensures a < b ==> Start(size, overlap, a) < Start(size, overlap, b)
    decreases b
  {
    if b > 0 {
      StartMono(size, overlap, if a < b then a else b - 1, b - 1);
    }
  }

  /** Only a later window can start further along. */
  lemma StartOrder(size: int, overlap: int, a: nat, b: nat)
    requires size > overlap
    ensures Start(size, overlap, a) < Start(size, overlap, b) ==> a < b
  {
    if b <= a {
      StartMono(size, overlap, b, a);
    }
  }

  /** The `i`-th fixed chunk, in closed form: the slice `text[start:start+size]`
      with its positions, id `i` and the `fixed` tag, then the metadata. */
  function FixedChunk(text: string, size: int, overlap: int, md: Record, i: nat): Record {
    var start := Start(size, overlap, i);
    WithMetadata(Fields(PySlice(text, start, start + size), i, FixedTag, start, start + size), md)
  }

  /** The `while start < len(text)` loop over a text of length `n`: the ids
      of the windows it emits, from window `id` starting at `start`. */
  function Windows(n: nat, size: int, overlap: int, start: int, id: nat): (r: seq<nat>)
    requires start == Start(size, overlap, id)
    requires start >= n || size > overlap
    ensures forall j :: 0 <= j < |r| ==> r[j] == id + j
    ensures |r| == 0 <==> start >= n
    ensures |r| > 0 ==> Start(size, overlap, id + |r| - 1) < n
    ensures Start(size, overlap, id + |r|) >= n
    decreases n - start
  {
    if start < n then
      assert Start(size, overlap, id + 1) == start + (size - overlap);
      [id] + Windows(n, size, overlap, start + (size - overlap), id + 1)
    else []
  }

  /** `fixed_chunking`: one chunk per window. The loop ends only when the
      window advances, that is when `chunk_size > chunk_overlap` or the text
      is empty. */
  function Fixed(text: string, size: int, overlap: int, md: Record): (r: seq<Record>)
    requires |text| == 0 || size > overlap
    ensures |text| == 0 <==> r == []
    ensures forall i :: 0 <= i < |r| ==> r[i] == FixedChunk(text, size, overlap, md, i)
    ensures |r| > 0 ==> Start(size, overlap, |r| - 1) < |text|
    ensures Start(size, overlap, |r|) >= |text|
  {
    var ids := Windows(|text|, size, overlap, 0, 0);
    assert forall i :: 0 <= i < |ids| ==> ids[i] == i;
    ChunksAt(text, size, overlap, md, ids)
  }

  /** The fixed chunks with the given ids, in order. */
  function ChunksAt(text: string, size: int, overlap: int, md: Record, ids: seq<nat>): (r: seq<Record>)
    ensures |r| == |ids|
    ensures forall i :: 0 <= i < |ids| ==> r[i] == FixedChunk(text, size, overlap, md, ids[i])
  {
    seq(|ids|, i requires 0 <= i < |ids| => FixedChunk(text, size, overlap, md, ids[i]))
  }

  /** Every fixed chunk starts inside the text. */
  lemma FixedStartsInside(text: string, size: int, overlap: int, md: Record, i: nat)
    requires size > overlap && i < |Fixed(text, size, overlap, md)|
    ensures 0 <= Start(size, overlap, i) < |text|
  {
    StartMono(size, overlap, i, |Fixed(text, size, overlap, md)| - 1);
  }

  /** With plain metadata, chunk `i` holds id `i`, the `fixed` tag, its window
      `[i*(size-overlap), i*(size-overlap)+size)` and the text of that window
      clipped to the end of the input, so never more than `size` characters. */
  lemma FixedChunkFields(text: string, size: int, overlap: int, md: Record, i: nat)
    requires 0 <= size && size > overlap && Plain(md)
    requires i < |Fixed(text, size, overlap, md)|
    ensures var c := Fixed(text, size, overlap, md)[i];
      var start := i * (size - overlap);
      var end := if start + size < |text| then start + size else |text|;
      && 0 <= start <= end <= |text| && end - start <= size
      && c["chunk_id"] == Int(i) && c["chunk_method"] == Str(FixedTag)
      && c["start_char"] == Int(start) && c["end_char"] == Int(start + size)
      && c["text"] == Str(text[start..end])
  {
    FixedStartsInside(text, size, overlap, md, i);
    StartClosedForm(size, overlap, i);
  }

  /** With `0 <= chunk_overlap < chunk_size` the windows cover the text: every
      character lies inside some chunk's window. */
  lemma FixedCovers(text: string, size: int, overlap: int, md: Record, k: nat)
    requires 0 <= overlap < size && k < |text|
    ensures var r := Fixed(text, size, overlap, md);
      exists i :: 0 <= i < |r| && Start(size, overlap, i) <= k < Start(size, overlap, i) + size
  {
    var r := Fixed(text, size, overlap, md);
    var step: nat := size - overlap;
    var i: nat := k / step;
    StartClosedForm(size, overlap, i);
    assert Start(size, overlap, i) <= k < Start(size, overlap, i) + step;
    StartOrder(size, overlap, i, |r|);
  }

  /** Every fixed chunk carries the caller's metadata verbatim. */
  lemma FixedKeepsMetadata(text: string, size: int, overlap: int, md: Record, i: nat, k: string)
    requires |text| == 0 || size > overlap
    requires i < |Fixed(text, size, overlap, md)| && k in md
    ensures Fixed(text, size, overlap, md)[i][k] == md[k]
  {
  }

  // ---------------------------------------------------------------------------
  // hybrid_chunking: the size-merging loop
  // ---------------------------------------------------------------------------

  /** The loop state: chunks emitted so far (with a flag saying which came
      from splitting an oversize piece), the accumulated text, its recorded
      start and the next chunk id. */
  datatype Merge = Merge(out: seq<Record>, split: seq<bool>, cur: string, curStart: int, nextId: int)

  const Initial: Merge := Merge([], [], "", 0, 0)

  /** The accumulated text saved as a chunk. */
  function Accumulated(cur: string, id: int, start: int, md: Record): Record {
    WithMetadata(Fields(cur, id, HybridTag, start, start + |cur|), md)
  }

  /** A fixed sub-chunk re-numbered and re-tagged; these two fields are set
      after the metadata, so they are never overridden. */
  function Relabel(sub: Record, id: int): (r: Record)
    ensures r.Keys == sub.Keys + {"chunk_id", "chunk_method"}
    ensures r["chunk_id"] == Int(id) && r["chunk_method"] == Str(HybridTag)
  {
    sub["chunk_id" := Int(id)]["chunk_method" := Str(HybridTag)]
  }

  function Relabelled(subs: seq<Record>, id: int): (r: seq<Record>)
    ensures |r| == |subs|
    ensures forall j :: 0 <= j < |r| ==> r[j] == Relabel(subs[j], id + j)
  {
    seq(|subs|, j requires 0 <= j < |subs| => Relabel(subs[j], id + j))
  }

  /** One `split` flag per sub-chunk. */
  function Flags(n: nat): (r: seq<bool>)
    ensures |r| == n && forall i :: 0 <= i < n ==> r[i]
  {
    if n == 0 then [] else [true] + Flags(n - 1)
  }

  /** Saving the accumulated text, when it is non-empty and at least `min_size` long. */
  function Save(a: Merge, minSize: int, md: Record): Merge {
    if |a.cur| > 0 && |a.cur| >= minSize then
      Merge(a.out + [Accumulated(a.cur, a.nextId, a.curStart, md)], a.split + [false], a.cur, a.curStart, a.nextId + 1)
    else a
  }

  /** One iteration of the loop over the semantic pieces. */
  function MergeStep(a: Merge, p: string, minSize: int, maxSize: int, overlap: int, md: Record): Merge
    requires maxSize > overlap
  {
    if |a.cur| > 0 && |a.cur| + |p| > maxSize then
      if |a.cur| >= minSize then
        var o := if |a.cur| - overlap > 0 then |a.cur| - overlap else 0;
        var s := Save(a, minSize, md);
        Merge(s.out, s.split, PyDrop(a.cur, o) + p, a.curStart + o, s.nextId)
      else Merge(a.out, a.split, a.cur + " " + p, a.curStart, a.nextId)
    else if |p| > maxSize then
      var s := Save(a, minSize, md);
      var subs := Relabelled(Fixed(p, maxSize, overlap, md), s.nextId);
      Merge(s.out + subs, s.split + Flags(|subs|), "", a.curStart + |p|, s.nextId + |subs|)
    else
      Merge(a.out, a.split, if |a.cur| > 0 then a.cur + " " + p else p, a.curStart, a.nextId)
  }

  function MergeAll(a: Merge, pieces: seq<string>, minSize: int, maxSize: int, overlap: int, md: Record): Merge
    requires maxSize > overlap
    decreases |pieces|
  {
    if |pieces| == 0 then a
    else MergeAll(MergeStep(a, pieces[0], minSize, maxSize, overlap, md), pieces[1..], minSize, maxSize, overlap, md)
  }

  /** The whole loop, then the final save of a long-enough tail. */
  function HybridTrace(pieces: seq<string>, minSize: int, maxSize: int, overlap: int, md: Record): Merge
    requires maxSize > overlap
  {
    Save(MergeAll(Initial, pieces, minSize, maxSize, overlap, md), minSize, md)
  }

  /** The merge phase of `hybrid_chunking`. Under plain metadata the chunks
      are numbered 0, 1, … and tagged `hybrid`, and each is either an
      accumulation of at least `min_size` characters or a split piece of at
      most `max_size`. */
  function Hybrid(pieces: seq<string>, minSize: int, maxSize: int, overlap: int, md: Record): (r: seq<Record>)
    requires maxSize > overlap
    ensures |pieces| == 0 ==> r == []
    ensures Plain(md) && 0 <= maxSize ==> forall i :: 0 <= i < |r| ==>
      Emitted(r[i], i, false, minSize, maxSize) || Emitted(r[i], i, true, minSize, maxSize)
    ensures Plain(md) && 0 <= maxSize && (forall j :: 0 <= j < |pieces| ==> |pieces[j]| <= maxSize) ==>
      forall i :: 0 <= i < |r| ==> Emitted(r[i], i, false, minSize, maxSize)
  {
    var t := HybridTrace(pieces, minSize, maxSize, overlap, md);
    if Plain(md) && 0 <= maxSize then
      HybridShape(pieces, minSize, maxSize, overlap, md);
      if forall j :: 0 <= j < |pieces| ==> |pieces[j]| <= maxSize then
        HybridNoSplitTrace(pieces, minSize, maxSize, overlap, md);
        t.out
      else
        t.out
    else
      t.out
  }

  /** What the emitted chunk at position `i` looks like under plain metadata:
      id `i`, the `hybrid` tag, and either an accumulation (text at least
      `min_size` long, offsets spanning exactly the text) or a split window
      (text at most `max_size` long, offsets spanning the nominal `max_size`). */
  predicate Emitted(c: Record, i: int, split: bool, minSize: int, maxSize: int) {
    && "chunk_id" in c && c["chunk_id"] == Int(i)
    && "chunk_method" in c && c["chunk_method"] == Str(HybridTag)
    && "text" in c && c["text"].Str?
    && "start_char" in c && c["start_char"].Int? && "end_char" in c && c["end_char"].Int?
    && (if split then |c["text"].s| <= maxSize && c["end_char"].i - c["start_char"].i == maxSize
        else |c["text"].s| >= minSize && c["end_char"].i - c["start_char"].i == |c["text"].s|)
  }

  /** The loop invariant: ids are positions, and every chunk is `Emitted`. */
  predicate Inv(a: Merge, minSize: int, maxSize: int) {
    && a.nextId == |a.out| && |a.split| == |a.out|
    && forall i :: 0 <= i < |a.out| ==> Emitted(a.out[i], i, a.split[i], minSize, maxSize)
  }

  lemma SaveInv(a: Merge, minSize: int, maxSize: int, md: Record)
    requires Inv(a, minSize, maxSize) && Plain(md)
    ensures Inv(Save(a, minSize, md), minSize, maxSize)
    ensures Save(a, minSize, md).cur == a.cur
  {
    var s := Save(a, minSize, md);
    if |a.cur| > 0 && |a.cur| >= minSize {
      assert s.out[|a.out|] == Accumulated(a.cur, a.nextId, a.curStart, md);
      forall i | 0 <= i < |s.out|
        ensures Emitted(s.out[i], i, s.split[i], minSize, maxSize)
      {
        if i < |a.out| {
          assert s.out[i] == a.out[i] && s.split[i] == a.split[i];
        }
      }
    }
  }

  /** Each fixed sub-chunk of a piece, re-numbered, is an emitted split chunk:
      its text is at most `max_size` long. */
  lemma SubEmitted(p: string, maxSize: int, minSize: int, overlap: int, md: Record, id: int, j: nat)
    requires 0 <= maxSize && maxSize > overlap && Plain(md)
    requires j < |Fixed(p, maxSize, overlap, md)|
    ensures Emitted(Relabel(Fixed(p, maxSize, overlap, md)[j], id), id, true, minSize, maxSize)
  {
    FixedChunkFields(p, maxSize, overlap, md, j);
  }

  lemma SplitInv(s: Merge, p: string, maxSize: int, minSize: int, overlap: int, md: Record)
    requires Inv(s, minSize, maxSize) && Plain(md) && 0 <= maxSize && maxSize > overlap
    ensures var subs := Relabelled(Fixed(p, maxSize, overlap, md), s.nextId);
      Inv(Merge(s.out + subs, s.split + Flags(|subs|), "", s.curStart + |p|, s.nextId + |subs|), minSize, maxSize)
  {
    var fixed := Fixed(p, maxSize, overlap, md);
    var subs := Relabelled(fixed, s.nextId);
    var out := s.out + subs;
    var split := s.split + Flags(|subs|);
    forall i | 0 <= i < |out|
      ensures Emitted(out[i], i, split[i], minSize, maxSize)
    {
      if i < |s.out| {
        assert out[i] == s.out[i] && split[i] == s.split[i];
      } else {
        SplitAt(s, subs, i);
        SubEmitted(p, maxSize, minSize, overlap, md, i, i - |s.out|);
      }
    }
  }

  /** Past the chunks already emitted, position `i` holds sub-chunk `i - |out|`. */
  lemma SplitAt(s: Merge, subs: seq<Record>, i: int)
    requires |s.split| == |s.out| <= i < |s.out| + |subs|
    ensures (s.out + subs)[i] == subs[i - |s.out|]
    ensures (s.split + Flags(|subs|))[i]
  {
  }

  lemma MergeStepInv(a: Merge, p: string, minSize: int, maxSize: int, overlap: int, md: Record)
    requires Inv(a, minSize, maxSize) && Plain(md) && 0 <= maxSize && maxSize > overlap
    ensures Inv(MergeStep(a, p, minSize, maxSize, overlap, md), minSize, maxSize)
  {
    SaveInv(a, minSize, maxSize, md);
    if !(|a.cur| > 0 && |a.cur| + |p| > maxSize) && |p| > maxSize {
      SplitInv(Save(a, minSize, md), p, maxSize, minSize, overlap, md);
    }
  }

  lemma {:induction false} MergeAllInv(a: Merge, pieces: seq<string>, minSize: int, maxSize: int, overlap: int, md: Record)
    requires Inv(a, minSize, maxSize) && Plain(md) && 0 <= maxSize && maxSize > overlap
    ensures Inv(MergeAll(a, pieces, minSize, maxSize, overlap, md), minSize, maxSize)
    decreases |pieces|
  {
    if |pieces| > 0 {
      MergeStepInv(a, pieces[0], minSize, maxSize, overlap, md);
      MergeAllInv(MergeStep(a, pieces[0], minSize, maxSize, overlap, md), pieces[1..], minSize, maxSize, overlap, md);
    }
  }

  /** Hybrid chunks are numbered from 0 in order and all tagged `hybrid`;
      an accumulated chunk is at least `min_size` long (a shorter tail is
      dropped) and a split piece yields sub-chunks of at most `max_size`. */
  lemma HybridShape(pieces: seq<string>, minSize: int, maxSize: int, overlap: int, md: Record)
    requires Plain(md) && 0 <= maxSize && maxSize > overlap
    ensures var t := HybridTrace(pieces, minSize, maxSize, overlap, md);
      |t.split| == |t.out|
      && forall i :: 0 <= i < |t.out| ==> Emitted(t.out[i], i, t.split[i], minSize, maxSize)
  {
    MergeAllInv(Initial, pieces, minSize, maxSize, overlap, md);
    SaveInv(MergeAll(Initial, pieces, minSize, maxSize, overlap, md), minSize, maxSize, md);
  }

  /** No chunk so far came from splitting an oversize piece. */
  predicate NoSplit(a: Merge) {
    forall i :: 0 <= i < |a.split| ==> !a.split[i]
  }

  lemma {:induction false} MergeAllNoSplit(a: Merge, pieces: seq<string>, minSize: int, maxSize: int, overlap: int, md: Record)
    requires maxSize > overlap && NoSplit(a)
    requires forall j :: 0 <= j < |pieces| ==> |pieces[j]| <= maxSize
    ensures NoSplit(MergeAll(a, pieces, minSize, maxSize, overlap, md))
    decreases |pieces|
  {
    if |pieces| > 0 {
      var b := MergeStep(a, pieces[0], minSize, maxSize, overlap, md);
      var s := Save(a, minSize, md);
      assert NoSplit(s) by {
        if |a.cur| > 0 && |a.cur| >= minSize {
          assert s.split == a.split + [false];
        }
      }
      assert b.split == a.split || b.split == s.split;
      MergeAllNoSplit(b, pieces[1..], minSize, maxSize, overlap, md);
    }
  }

  /** When no piece exceeds `max_size`, every hybrid chunk is an accumulation
      of at least `min_size` characters. */
  lemma HybridNoOversize(pieces: seq<string>, minSize: int, maxSize: int, overlap: int, md: Record)
    requires Plain(md) && 0 <= maxSize && maxSize > overlap
    requires forall j :: 0 <= j < |pieces| ==> |pieces[j]| <= maxSize
    ensures var r := Hybrid(pieces, minSize, maxSize, overlap, md);
      forall i :: 0 <= i < |r| ==> Emitted(r[i], i, false, minSize, maxSize)
  {
    HybridShape(pieces, minSize, maxSize, overlap, md);
    HybridNoSplitTrace(pieces, minSize, maxSize, overlap, md);
  }

  /** Without an oversize piece the trace holds no split flag. */
  lemma HybridNoSplitTrace(pieces: seq<string>, minSize: int, maxSize: int, overlap: int, md: Record)
    requires maxSize > overlap
    requires forall j :: 0 <= j < |pieces| ==> |pieces[j]| <= maxSize
    ensures NoSplit(HybridTrace(pieces, minSize, maxSize, overlap, md))
  {
    var m := MergeAll(Initial, pieces, minSize, maxSize, overlap, md);
    MergeAllNoSplit(Initial, pieces, minSize, maxSize, overlap, md);
    var t := Save(m, minSize, md);
    assert NoSplit(t) by {
      if |m.cur| > 0 && |m.cur| >= minSize {
        assert t.split == m.split + [false];
      }
    }
  }

  /** The split branch is only reached with nothing accumulated: a non-empty
      accumulator and an oversize piece always take the first branch, so the
      save inside the split branch never fires. */
  lemma SplitBranchStartsEmpty(a: Merge, p: string, maxSize: int)
    requires !(|a.cur| > 0 && |a.cur| + |p| > maxSize) && |p| > maxSize
    ensures |a.cur| == 0
  {
  }

  /** A single oversize piece becomes exactly its fixed chunks at `max_size`,
      re-numbered from 0 and re-tagged. */
  lemma HybridSingleOversize(p: string, minSize: int, maxSize: int, overlap: int, md: Record)
    requires maxSize > overlap && |p| > maxSize
    ensures Hybrid([p], minSize, maxSize, overlap, md) == Relabelled(Fixed(p, maxSize, overlap, md), 0)
  {
    var subs := Relabelled(Fixed(p, maxSize, overlap, md), 0);
    var a := Merge(subs, Flags(|subs|), "", |p|, |subs|);
    assert Save(Initial, minSize, md) == Initial;
    assert [] + subs == subs && [] + Flags(|subs|) == Flags(|subs|);
    assert MergeStep(Initial, p, minSize, maxSize, overlap, md) == a;
    assert [p][1..] == [];
    assert MergeAll(Initial, [p], minSize, maxSize, overlap, md) == a;
  }

  /** `max_size` bounds the pieces that are split, not the accumulated chunks:
      a short accumulator absorbs the next piece whatever the total. */
  lemma AccumulatedCanExceedMax()
    ensures var r := Hybrid(["ab", "cdefg"], 3, 5, 1, map[]);
      |r| == 1 && r[0]["text"] == Str("ab cdefg") && |"ab cdefg"| > 5
  {
    var a1 := MergeStep(Initial, "ab", 3, 5, 1, map[]);
    assert a1.cur == "ab";
    var a2 := MergeStep(a1, "cdefg", 3, 5, 1, map[]);
    assert a2.cur == "ab cdefg" && a2.out == [];
    assert MergeAll(Initial, ["ab", "cdefg"], 3, 5, 1, map[]) == MergeAll(a1, ["cdefg"], 3, 5, 1, map[]);
    assert MergeAll(a1, ["cdefg"], 3, 5, 1, map[]) == MergeAll(a2, [], 3, 5, 1, map[]);
  }
}

=== FILE: config.dfy ===
/** `Config.get`: a dotted-path lookup in the loaded YAML tree, with a default. */
module Config {
  import opened Text
  import opened Values

  /** The value reached after following `path` (`None` once a key is missing or a
      non-mapping is met), for stating where a walk stops. */
  function WalkReaches(v: Value, path: seq<string>): Value
    decreases |path|
  {
    if |path| == 0 then v
    else
      match v
      case Dict(m) => WalkReaches(if path[0] in m then m[path[0]] else Null, path[1..])
      case _ => Null
  }

  /** Walks `path` from `v`: each step needs a mapping (otherwise the walk stops
      with `default`); a missing key reads as `None`; a final `None` reads as `default`. */
  function Walk(v: Value, path: seq<string>, default: Value): (r: Value)
    ensures r == default || r != Null
    ensures !v.Dict? && |path| > 0 ==> r == default
    ensures r == (if WalkReaches(v, path).Null? then default else WalkReaches(v, path))
    decreases |path|
  {
    if |path| == 0 then (if v.Null? then default else v)
    else
      match v
      case Dict(m) => Walk(if path[0] in m then m[path[0]] else Null, path[1..], default)
      case _ => default
  }

  /** `Config.get(key, default)` over the configuration tree `data`. */
  function Get(data: Value, key: string, default: Value): (r: Value)
    ensures r == default || r != Null
  {
    Walk(data, SplitOn(key, '.'), default)
  }

  /** The tree `v` with `x` stored at `path`, creating (or replacing by) mappings
      along the way: the writer that `Get` reads back. */
  function Put(v: Value, path: seq<string>, x: Value): (r: Value)
    ensures |path| > 0 ==> r.Dict? && path[0] in r.entries
    decreases |path|
  {
    if |path| == 0 then x
    else
      var m := if v.Dict? then v.entries else map[];
      Dict(m[path[0] := Put(if path[0] in m then m[path[0]] else Null, path[1..], x)])
  }

  /** A single, dot-free key: the stored value, or `default` if it is missing or `None`. */
  lemma GetTopLevel(m: map<string, Value>, k: string, default: Value)
    requires '.' !in k
    ensures Get(Dict(m), k, default) == if k in m && m[k] != Null then m[k] else default
  {
    SplitOnFree(k, '.');
    var next := if k in m then m[k] else Null;
    assert [k][1..] == [];
    assert Walk(Dict(m), [k], default) == Walk(next, [], default);
  }

  /** A value stored with `Put` is read back by `Get` under the dotted form of its path. */
  lemma {:induction false} WalkPut(v: Value, path: seq<string>, x: Value, default: Value)
    requires x != Null
    ensures Walk(Put(v, path, x), path, default) == x
    decreases |path|
  {
    if |path| > 0 {
      var m := if v.Dict? then v.entries else map[];
      WalkPut(if path[0] in m then m[path[0]] else Null, path[1..], x, default);
    }
  }

  lemma GetPut(v: Value, path: seq<string>, x: Value, default: Value)
    requires |path| > 0
    requires forall i :: 0 <= i < |path| ==> '.' !in path[i]
    requires x != Null
    ensures Get(Put(v, path, x), Join(path, "."), default) == x
  {
    SplitOnJoin(path, '.');
    WalkPut(v, path, x, default);
  }

  /** Storing under one top-level key leaves every other top-level key as it was. */
  lemma {:induction false} GetPutOther(m: map<string, Value>, path: seq<string>, x: Value, k: string, default: Value)
    requires |path| > 0 && k != path[0]
    requires '.' !in k
    ensures Get(Put(Dict(m), path, x), k, default) == Get(Dict(m), k, default)
  {
    SplitOnFree(k, '.');
  }

  /** Once a prefix of the path leads to a non-mapping (a scalar, a list, or
      `None` from a missing key), the rest of the path cannot be followed. */
  lemma {:induction false} WalkReachesStuck(v: Value, path: seq<string>, i: nat)
    requires i < |path| && !WalkReaches(v, path[..i]).Dict?
    ensures WalkReaches(v, path) == Null
    decreases i
  {
    if i > 0 && v.Dict? {
      var m := v.entries;
      assert path[..i][0] == path[0];
      assert path[..i][1..] == path[1..][..i - 1];
      WalkReachesStuck(if path[0] in m then m[path[0]] else Null, path[1..], i - 1);
    } else if i == 0 {
      assert path[..0] == [];
    }
  }

  /** A walk that meets a non-mapping before the end of the path gives `default`. */
  lemma WalkStops(v: Value, path: seq<string>, i: nat, default: Value)
    requires i < |path| && !WalkReaches(v, path[..i]).Dict?
    ensures Walk(v, path, default) == default
  {
    WalkReachesStuck(v, path, i);
  }

  /** A key missing at any step of the path gives `default`. */
  lemma {:induction false} WalkMissing(v: Value, path: seq<string>, i: nat, default: Value)
    requires i < |path|
    requires WalkReaches(v, path[..i]).Dict?
    requires path[i] !in WalkReaches(v, path[..i]).entries
    ensures Walk(v, path, default) == default
  {
    if i == 0 {
      assert path[..0] == [];
    } else {
      var m := v.entries;
      assert path[..i][0] == path[0];
      assert path[..i][1..] == path[1..][..i - 1];
      WalkMissing(if path[0] in m then m[path[0]] else Null, path[1..], i - 1, default);
    }
  }
}

=== FILE: fusion.dfy ===
/** Reciprocal Rank Fusion of a dense and a sparse ranked list
    (`_reciprocal_rank_fusion`). Records are merged on the first 100 characters
    of their text; a record at rank `r` contributes `alpha / (60 + r + 1)` if it
    is dense and `(1 - alpha) / (60 + r + 1)` if it is sparse; the merged records
    are sorted by their summed score, most relevant first, ties in first-seen order. */
module Fusion {
  import opened Wrappers
  import opened Seqs
  import opened Candidates

  /** The RRF smoothing constant `k`. */
  const RrfK: nat := 60

  /** How many leading characters of a text form its merge key. */
  const KeyLength: nat := 100

  /** `result['text'][:100]`. */
  function FusionKey(text: string): (k: string)
    ensures |k| <= KeyLength && |k| <= |text| && k == text[..|k|]
    ensures |text| <= KeyLength ==> k == text
    ensures |text| >= KeyLength ==> |k| == KeyLength
  {
    if |text| <= KeyLength then text else text[..KeyLength]
  }

  /** The RRF contribution of the record at 0-based `rank` of a list weighted `weight`. */
  function Contribution(weight: real, rank: nat): real {
    weight / ((RrfK + rank + 1) as real)
  }

  /** One element of either list with its rank in that list. Python's two loops
      (dense first, then sparse) are one pass over the entries. */
  datatype Entry = Entry(cand: Candidate, rank: nat, fromDense: bool)

  function Entries(dense: seq<Candidate>, sparse: seq<Candidate>): (es: seq<Entry>)
    ensures |es| == |dense| + |sparse|
    ensures forall r :: 0 <= r < |dense| ==> es[r] == Entry(dense[r], r, true)
    ensures forall r :: |dense| <= r < |es| ==> es[r] == Entry(sparse[r - |dense|], r - |dense|, false)
  {
    seq(|dense|, r requires 0 <= r < |dense| => Entry(dense[r], r, true))
    + seq(|sparse|, r requires 0 <= r < |sparse| => Entry(sparse[r], r, false))
  }

  /** What an entry adds to the score of its key: `alpha / (k + rank + 1)` for a dense
      entry and `(1 - alpha) / (k + rank + 1)` for a sparse one. */
  function Weight(e: Entry, alpha: real): real {
    Contribution(if e.fromDense then alpha else 1.0 - alpha, e.rank)
  }

  function EntryKey(e: Entry): string {
    FusionKey(e.cand.text)
  }

  function KeysOf(es: seq<Entry>): (ks: seq<string>)
    ensures |ks| == |es|
    ensures forall i :: 0 <= i < |es| ==> ks[i] == EntryKey(es[i])
  {
    if |es| == 0 then [] else KeysOf(es[..|es| - 1]) + [EntryKey(es[|es| - 1])]
  }

  /** The state Python keeps per key: `doc_data[key]` and `doc_scores[key]`. */
  datatype Slot = Slot(key: string, rec: Candidate, score: real)

  /** Python's `max(a, b)`. */
  function Max(a: real, b: real): real {
    if a >= b then a else b
  }

  /** Folds one more occurrence of a key into the record held for it: a dense
      occurrence raises `similarity` to the maximum seen, a sparse one overwrites
      `bm25_score`. */
  function Merge(base: Candidate, e: Entry): Candidate {
    if e.fromDense then
      if e.cand.similarity.Some? then
        base.(similarity := Some(Max(base.similarity.GetOr(0.0), e.cand.similarity.value)))
      else base
    else
      if e.cand.bm25.Some? then base.(bm25 := e.cand.bm25) else base
  }

  /** The position of the slot for key `k`, or `|slots|` when there is none. */
  function Find(slots: seq<Slot>, k: string): (i: nat)
    ensures i <= |slots|
    ensures i < |slots| ==> slots[i].key == k
    ensures forall j :: 0 <= j < i ==> slots[j].key != k
  {
    if |slots| == 0 then 0 else if slots[0].key == k then 0 else 1 + Find(slots[1..], k)
  }

  /** One iteration of either loop of `_reciprocal_rank_fusion`. */
  function Absorb(slots: seq<Slot>, e: Entry, alpha: real): seq<Slot> {
    var k := EntryKey(e);
    var i := Find(slots, k);
    if i == |slots| then slots + [Slot(k, Merge(e.cand, e), 0.0 + Weight(e, alpha))]
    else slots[i := Slot(k, Merge(slots[i].rec, e), slots[i].score + Weight(e, alpha))]
  }

  /** Both loops: the per-key state in dictionary (first-insertion) order. */
  function Accumulate(es: seq<Entry>, alpha: real): seq<Slot> {
    if |es| == 0 then [] else Absorb(Accumulate(es[..|es| - 1], alpha), es[|es| - 1], alpha)
  }

  /** `result = doc_data[key].copy(); result['fusion_score'] = ...; result['retrieval_method'] = 'hybrid'`. */
  function Finalize(s: Slot): Candidate {
    s.rec.(fusion := Some(s.score), origin := Hybrid)
  }

  function FinalizeAll(slots: seq<Slot>): (cs: seq<Candidate>)
    ensures |cs| == |slots|
    ensures forall i :: 0 <= i < |slots| ==> cs[i] == Finalize(slots[i])
  {
    if |slots| == 0 then [] else [Finalize(slots[0])] + FinalizeAll(slots[1..])
  }

  /** The sort key `x['fusion_score']`. */
  function FusionScore(c: Candidate): real {
    c.fusion.GetOr(0.0)
  }

  // ---------------------------------------------------------------------------
  // Reference definitions
  // ---------------------------------------------------------------------------

  /** Sum of the contributions of the entries whose key is `k`. */
  function Total(es: seq<Entry>, alpha: real, k: string): real {
    if |es| == 0 then 0.0
    else Total(es[..|es| - 1], alpha, k) + (if EntryKey(es[|es| - 1]) == k then Weight(es[|es| - 1], alpha) else 0.0)
  }

  /** Sum over the ranks `r` of `cs` whose merge key is `k` of `weight / (60 + r + 1)`. */
  function RankSum(cs: seq<Candidate>, weight: real, k: string): real {
    if |cs| == 0 then 0.0
    else RankSum(cs[..|cs| - 1], weight, k)
         + (if FusionKey(cs[|cs| - 1].text) == k then Contribution(weight, |cs| - 1) else 0.0)
  }

  /** The candidate that first carried key `k`. */
  function FirstWith(es: seq<Entry>, k: string): Candidate
    requires k in KeysOf(es)
  {
    es[FirstIndex(KeysOf(es), k)].cand
  }

  /** A candidate without the two fields that merging updates: everything else a
      merged record takes unchanged from the first occurrence of its key. */
  function Base(c: Candidate): Candidate {
    c.(similarity := None, bm25 := None)
  }

  /** The keys of the slots, in order. */
  function SlotKeys(slots: seq<Slot>): (ks: seq<string>)
    ensures |ks| == |slots|
    ensures forall i :: 0 <= i < |slots| ==> ks[i] == slots[i].key
  {
    seq(|slots|, i requires 0 <= i < |slots| => slots[i].key)
  }

  predicate SlotKeysDistinct(slots: seq<Slot>) {
    forall i, j :: 0 <= i < j < |slots| ==> slots[i].key != slots[j].key
  }

  // ---------------------------------------------------------------------------
  // What the accumulation computes
  // ---------------------------------------------------------------------------

  lemma KeysOfInit(es: seq<Entry>)
    requires |es| > 0
    ensures KeysOf(es) == KeysOf(es[..|es| - 1]) + [EntryKey(es[|es| - 1])]
  {
  }

  /** Absorbing an entry adds its key at the end exactly when the key is new. */
  lemma AbsorbKeys(slots: seq<Slot>, e: Entry, alpha: real)
    ensures SlotKeys(Absorb(slots, e, alpha)) ==
      if EntryKey(e) in SlotKeys(slots) then SlotKeys(slots) else SlotKeys(slots) + [EntryKey(e)]
  {
    var k := EntryKey(e);
    var i := Find(slots, k);
    if i < |slots| {
      assert SlotKeys(slots)[i] == k;
      assert SlotKeys(Absorb(slots, e, alpha)) == SlotKeys(slots);
    } else {
      assert k !in SlotKeys(slots);
      assert SlotKeys(Absorb(slots, e, alpha)) == SlotKeys(slots) + [k];
    }
  }

  /** One slot per distinct key, in order of first appearance. */
  lemma {:induction false} AccumulateKeys(es: seq<Entry>, alpha: real)
    ensures SlotKeys(Accumulate(es, alpha)) == Dedup(KeysOf(es))
    ensures SlotKeysDistinct(Accumulate(es, alpha))
  {
    if |es| > 0 {
      var init := es[..|es| - 1];
      var e := es[|es| - 1];
      AccumulateKeys(init, alpha);
      AbsorbKeys(Accumulate(init, alpha), e, alpha);
      KeysOfInit(es);
      assert KeysOf(es)[..|es| - 1] == KeysOf(init);
    }
    var r := Accumulate(es, alpha);
    assert NoDup(SlotKeys(r));
    forall i, j | 0 <= i < j < |r|
      ensures r[i].key != r[j].key
    {
      assert SlotKeys(r)[i] != SlotKeys(r)[j];
    }
  }

  /** The effect of one step on an individual slot. */
  lemma AbsorbSlot(slots: seq<Slot>, e: Entry, alpha: real, j: nat)
    requires SlotKeysDistinct(slots)
    requires j < |Absorb(slots, e, alpha)|
    ensures j < |slots| && slots[j].key != EntryKey(e) ==> Absorb(slots, e, alpha)[j] == slots[j]
    ensures j < |slots| && slots[j].key == EntryKey(e) ==>
              Absorb(slots, e, alpha)[j] == Slot(slots[j].key, Merge(slots[j].rec, e), slots[j].score + Weight(e, alpha))
    ensures j >= |slots| ==>
              (j == |slots| && EntryKey(e) !in SlotKeys(slots) &&
               Absorb(slots, e, alpha)[j] == Slot(EntryKey(e), Merge(e.cand, e), 0.0 + Weight(e, alpha)))
  {
    var k := EntryKey(e);
    var i := Find(slots, k);
    if j < |slots| && slots[j].key == k {
      assert i == j;
    }
  }

  lemma {:induction false} TotalAbsent(es: seq<Entry>, alpha: real, k: string)
    requires k !in KeysOf(es)
    ensures Total(es, alpha, k) == 0.0
  {
    if |es| > 0 {
      KeysOfInit(es);
      TotalAbsent(es[..|es| - 1], alpha, k);
    }
  }

  /** Each slot's score is the total contribution of its key. */
  lemma {:induction false} AccumulateScore(es: seq<Entry>, alpha: real)
    ensures forall i :: 0 <= i < |Accumulate(es, alpha)| ==>
              Accumulate(es, alpha)[i].score == Total(es, alpha, Accumulate(es, alpha)[i].key)
  {
    if |es| > 0 {
      AccumulateScore(es[..|es| - 1], alpha);
      forall j | 0 <= j < |Accumulate(es, alpha)|
        ensures Accumulate(es, alpha)[j].score == Total(es, alpha, Accumulate(es, alpha)[j].key)
      {
        ScoreStep(es, alpha, j);
      }
    }
  }

  /** One step of `AccumulateScore`, for the slot at position `j`. */
  lemma ScoreStep(es: seq<Entry>, alpha: real, j: nat)
    requires |es| > 0
    requires j < |Accumulate(es, alpha)|
    requires j < |Accumulate(es[..|es| - 1], alpha)| ==>
      Accumulate(es[..|es| - 1], alpha)[j].score
        == Total(es[..|es| - 1], alpha, Accumulate(es[..|es| - 1], alpha)[j].key)
    ensures Accumulate(es, alpha)[j].score == Total(es, alpha, Accumulate(es, alpha)[j].key)
  {
    var init := es[..|es| - 1];
    var e := es[|es| - 1];
    var slots := Accumulate(init, alpha);
    var r := Absorb(slots, e, alpha);
    assert Accumulate(es, alpha) == r;
    AccumulateKeys(init, alpha);
    AbsorbSlot(slots, e, alpha, j);
    TotalStep(es, alpha, r[j].key);
    if j == |slots| {
      DedupMember(KeysOf(init), EntryKey(e));
      TotalAbsent(init, alpha, EntryKey(e));
    }
  }

  lemma TotalStep(es: seq<Entry>, alpha: real, k: string)
    requires |es| > 0
    ensures Total(es, alpha, k) ==
      Total(es[..|es| - 1], alpha, k) + (if EntryKey(es[|es| - 1]) == k then Weight(es[|es| - 1], alpha) else 0.0)
  {
  }

  /** Merging never touches the fields `Base` keeps. */
  lemma MergeBase(base: Candidate, e: Entry)
    ensures Base(Merge(base, e)) == Base(base)
  {
  }

  /** The slot `s` agrees with the first candidate carrying its key. */
  predicate SlotBase(es: seq<Entry>, s: Slot) {
    s.key in KeysOf(es) && Base(s.rec) == Base(FirstWith(es, s.key))
  }

  lemma FirstWithAppend(es: seq<Entry>, k: string)
    requires |es| > 0
    requires k in KeysOf(es[..|es| - 1])
    ensures k in KeysOf(es)
    ensures FirstWith(es, k) == FirstWith(es[..|es| - 1], k)
  {
    var init := es[..|es| - 1];
    KeysOfInit(es);
    FirstIndexAppend(KeysOf(init), EntryKey(es[|es| - 1]), k);
    var f := FirstIndex(KeysOf(init), k);
    assert es[f] == init[f];
  }

  lemma FirstWithNew(es: seq<Entry>)
    requires |es| > 0
    requires EntryKey(es[|es| - 1]) !in KeysOf(es[..|es| - 1])
    ensures EntryKey(es[|es| - 1]) in KeysOf(es)
    ensures FirstWith(es, EntryKey(es[|es| - 1])) == es[|es| - 1].cand
  {
    KeysOfInit(es);
    FirstIndexAppendNew(KeysOf(es[..|es| - 1]), EntryKey(es[|es| - 1]));
  }

  lemma BaseStep(es: seq<Entry>, alpha: real, j: nat)
    requires |es| > 0
    requires j < |Accumulate(es, alpha)|
    requires j < |Accumulate(es[..|es| - 1], alpha)| ==> SlotBase(es[..|es| - 1], Accumulate(es[..|es| - 1], alpha)[j])
    ensures SlotBase(es, Accumulate(es, alpha)[j])
  {
    var init := es[..|es| - 1];
    var e := es[|es| - 1];
    var slots := Accumulate(init, alpha);
    AccumulateKeys(init, alpha);
    AbsorbSlot(slots, e, alpha, j);
    if j < |slots| {
      MergeBase(slots[j].rec, e);
      FirstWithAppend(es, slots[j].key);
    } else {
      DedupMember(KeysOf(init), EntryKey(e));
      MergeBase(e.cand, e);
      FirstWithNew(es);
    }
  }

  /** Each slot's record agrees with the first candidate that carried its key on
      every field but `similarity` and `bm25_score`. */
  lemma {:induction false} AccumulateBase(es: seq<Entry>, alpha: real)
    ensures forall i :: 0 <= i < |Accumulate(es, alpha)| ==> SlotBase(es, Accumulate(es, alpha)[i])
  {
    if |es| > 0 {
      AccumulateBase(es[..|es| - 1], alpha);
      forall j | 0 <= j < |Accumulate(es, alpha)|
        ensures SlotBase(es, Accumulate(es, alpha)[j])
      {
        BaseStep(es, alpha, j);
      }
    }
  }

  // ---------------------------------------------------------------------------
  // similarity: the best dense similarity of the key
  // ---------------------------------------------------------------------------

  /** Every dense entry precedes every sparse one. */
  predicate DenseFirst(es: seq<Entry>) {
    forall i, j :: 0 <= i < j < |es| && es[j].fromDense ==> es[i].fromDense
  }

  /** Every dense entry carries a similarity (as `_dense_retrieve` always sets one). */
  predicate DenseScored(es: seq<Entry>) {
    forall i :: 0 <= i < |es| && es[i].fromDense ==> es[i].cand.similarity.Some?
  }

  /** Entry `j` is a dense occurrence of key `k`. */
  predicate DenseAt(es: seq<Entry>, k: string, j: int) {
    0 <= j < |es| && es[j].fromDense && EntryKey(es[j]) == k
  }

  ghost predicate HasDense(es: seq<Entry>, k: string) {
    exists j :: DenseAt(es, k, j)
  }

  /** `sim` is the largest similarity among the dense occurrences of `k`. */
  ghost predicate BestDense(es: seq<Entry>, k: string, sim: Option<real>) {
    sim.Some?
    && (forall j :: DenseAt(es, k, j) ==> es[j].cand.similarity.GetOr(0.0) <= sim.value)
    && (exists j :: DenseAt(es, k, j) && es[j].cand.similarity == sim)
  }

  /** A slot's similarity is the largest similarity among the dense occurrences of
      its key, and is the first occurrence's when the key never occurs densely. */
  ghost predicate SlotSimilarity(es: seq<Entry>, s: Slot)
    requires s.key in KeysOf(es)
  {
    if HasDense(es, s.key) then BestDense(es, s.key, s.rec.similarity)
    else s.rec.similarity == FirstWith(es, s.key).similarity
  }

  /** Only the last entry can be a dense occurrence of a key new to it. */
  lemma DenseAtNew(es: seq<Entry>, k: string)
    requires |es| > 0 && k == EntryKey(es[|es| - 1]) && k !in KeysOf(es[..|es| - 1])
    ensures forall j :: DenseAt(es, k, j) ==> j == |es| - 1
  {
  }

  /** When the last entry is not a dense occurrence of `k`, it changes nothing about
      the dense occurrences of `k`. */
  lemma DenseAtSame(es: seq<Entry>, k: string, sim: Option<real>)
    requires |es| > 0 && !DenseAt(es, k, |es| - 1)
    ensures forall j :: DenseAt(es, k, j) <==> DenseAt(es[..|es| - 1], k, j)
    ensures HasDense(es, k) <==> HasDense(es[..|es| - 1], k)
    ensures BestDense(es, k, sim) <==> BestDense(es[..|es| - 1], k, sim)
  {
    var init := es[..|es| - 1];
    assert forall j :: DenseAt(es, k, j) <==> DenseAt(init, k, j);
    if HasDense(es, k) {
      var j :| DenseAt(es, k, j);
      assert DenseAt(init, k, j);
    }
    if HasDense(init, k) {
      var j :| DenseAt(init, k, j);
      assert DenseAt(es, k, j);
    }
    if BestDense(es, k, sim) {
      var j :| DenseAt(es, k, j) && es[j].cand.similarity == sim;
      assert DenseAt(init, k, j) && init[j].cand.similarity == sim;
    }
    if BestDense(init, k, sim) {
      var j :| DenseAt(init, k, j) && init[j].cand.similarity == sim;
      assert DenseAt(es, k, j) && es[j].cand.similarity == sim;
    }
  }

  /** The new-key case of `AccumulateSimilarity`. */
  lemma SimilarityNew(es: seq<Entry>, alpha: real)
    requires |es| > 0 && DenseScored(es)
    requires EntryKey(es[|es| - 1]) !in KeysOf(es[..|es| - 1])
    ensures EntryKey(es[|es| - 1]) in KeysOf(es)
    ensures SlotSimilarity(es, Slot(EntryKey(es[|es| - 1]), Merge(es[|es| - 1].cand, es[|es| - 1]), 0.0 + Weight(es[|es| - 1], alpha)))
  {
    var e := es[|es| - 1];
    FirstWithNew(es);
    MergeOwnSimilarity(e);
    if e.fromDense {
      NewDense(es);
    } else {
      NewSparse(es);
    }
  }

  /** Merging an entry into its own candidate keeps the similarity. */
  lemma MergeOwnSimilarity(e: Entry)
    ensures Merge(e.cand, e).similarity == e.cand.similarity
  {
  }

  /** A new key met densely: its only dense occurrence is the last entry. */
  lemma NewDense(es: seq<Entry>)
    requires |es| > 0 && DenseScored(es) && es[|es| - 1].fromDense
    requires EntryKey(es[|es| - 1]) !in KeysOf(es[..|es| - 1])
    ensures HasDense(es, EntryKey(es[|es| - 1]))
    ensures BestDense(es, EntryKey(es[|es| - 1]), es[|es| - 1].cand.similarity)
  {
    var n := |es| - 1;
    var k := EntryKey(es[n]);
    DenseAtNew(es, k);
    assert DenseAt(es, k, n);
  }

  /** A new key met sparsely has no dense occurrence. */
  lemma NewSparse(es: seq<Entry>)
    requires |es| > 0 && !es[|es| - 1].fromDense
    requires EntryKey(es[|es| - 1]) !in KeysOf(es[..|es| - 1])
    ensures !HasDense(es, EntryKey(es[|es| - 1]))
  {
    DenseAtNew(es, EntryKey(es[|es| - 1]));
  }

  /** A further dense occurrence raises the best similarity to the larger of the two. */
  lemma BestDenseExtend(es: seq<Entry>, k: string, m: real, x: real)
    requires |es| > 0 && DenseAt(es, k, |es| - 1) && es[|es| - 1].cand.similarity == Some(x)
    requires BestDense(es[..|es| - 1], k, Some(m))
    ensures BestDense(es, k, Some(Max(m, x)))
  {
    var n := |es| - 1;
    var init := es[..n];
    forall j | DenseAt(es, k, j)
      ensures es[j].cand.similarity.GetOr(0.0) <= Max(m, x)
    {
      if j < n {
        assert DenseAt(init, k, j);
      }
    }
    var w :| DenseAt(init, k, w) && init[w].cand.similarity == Some(m);
    if m >= x {
      assert DenseAt(es, k, w) && es[w].cand.similarity == Some(Max(m, x));
    } else {
      assert es[n].cand.similarity == Some(Max(m, x));
    }
  }

  /** The case of `AccumulateSimilarity` for the slot that absorbs a dense entry. */
  lemma SimilarityHitDense(es: seq<Entry>, alpha: real, s: Slot)
    requires |es| > 0 && DenseFirst(es) && DenseScored(es) && es[|es| - 1].fromDense
    requires s.key == EntryKey(es[|es| - 1]) && s.key in KeysOf(es[..|es| - 1])
    requires SlotSimilarity(es[..|es| - 1], s)
    ensures s.key in KeysOf(es)
    ensures SlotSimilarity(es, Slot(s.key, Merge(s.rec, es[|es| - 1]), s.score + Weight(es[|es| - 1], alpha)))
  {
    var n := |es| - 1;
    var e := es[n];
    FirstWithAppend(es, s.key);
    EarlierDense(es, s);
    MergeDense(s.rec, e);
    BestDenseExtend(es, s.key, s.rec.similarity.value, e.cand.similarity.value);
    assert DenseAt(es, s.key, n);
  }

  /** Before a dense hit on a known key, the key was already met densely, so the
      slot holds its best dense similarity. */
  lemma EarlierDense(es: seq<Entry>, s: Slot)
    requires |es| > 0 && DenseFirst(es) && es[|es| - 1].fromDense
    requires s.key in KeysOf(es[..|es| - 1])
    requires SlotSimilarity(es[..|es| - 1], s)
    ensures BestDense(es[..|es| - 1], s.key, s.rec.similarity)
  {
    var n := |es| - 1;
    var init := es[..n];
    var f := FirstIndex(KeysOf(init), s.key);
    assert es[f].fromDense;
    assert DenseAt(init, s.key, f);
  }

  /** A sparse entry leaves the similarity alone. */
  lemma MergeSparseSimilarity(base: Candidate, e: Entry)
    requires !e.fromDense
    ensures Merge(base, e).similarity == base.similarity
  {
  }

  /** A dense entry with a similarity raises the record's similarity to the maximum. */
  lemma MergeDense(base: Candidate, e: Entry)
    requires e.fromDense && e.cand.similarity.Some?
    ensures Merge(base, e).similarity == Some(Max(base.similarity.GetOr(0.0), e.cand.similarity.value))
  {
  }

  /** The case of `AccumulateSimilarity` for a slot whose similarity the entry leaves alone. */
  lemma SimilarityKeep(es: seq<Entry>, s: Slot, t: Slot)
    requires |es| > 0
    requires s.key in KeysOf(es[..|es| - 1]) && SlotSimilarity(es[..|es| - 1], s)
    requires t.key == s.key && t.rec.similarity == s.rec.similarity
    requires !DenseAt(es, s.key, |es| - 1)
    ensures t.key in KeysOf(es)
    ensures SlotSimilarity(es, t)
  {
    FirstWithAppend(es, s.key);
    DenseAtSame(es, s.key, s.rec.similarity);
  }

  /** When every dense hit carries a similarity, each slot's similarity is the best
      dense similarity of its key (or the first occurrence's, for a sparse-only key). */
  lemma {:induction false} AccumulateSimilarity(es: seq<Entry>, alpha: real)
    requires DenseFirst(es) && DenseScored(es)
    ensures forall i :: 0 <= i < |Accumulate(es, alpha)| ==>
              Accumulate(es, alpha)[i].key in KeysOf(es) && SlotSimilarity(es, Accumulate(es, alpha)[i])
  {
    if |es| > 0 {
      AccumulateSimilarity(es[..|es| - 1], alpha);
      forall j | 0 <= j < |Accumulate(es, alpha)|
        ensures Accumulate(es, alpha)[j].key in KeysOf(es) && SlotSimilarity(es, Accumulate(es, alpha)[j])
      {
        SimilarityStep(es, alpha, j);
      }
    }
  }

  /** One step of `AccumulateSimilarity`, for the slot at position `j`. */
  lemma SimilarityStep(es: seq<Entry>, alpha: real, j: nat)
    requires |es| > 0 && DenseFirst(es) && DenseScored(es)
    requires j < |Accumulate(es, alpha)|
    requires j < |Accumulate(es[..|es| - 1], alpha)| ==>
      Accumulate(es[..|es| - 1], alpha)[j].key in KeysOf(es[..|es| - 1])
      && SlotSimilarity(es[..|es| - 1], Accumulate(es[..|es| - 1], alpha)[j])
    ensures Accumulate(es, alpha)[j].key in KeysOf(es) && SlotSimilarity(es, Accumulate(es, alpha)[j])
  {
    var init := es[..|es| - 1];
    var e := es[|es| - 1];
    var slots := Accumulate(init, alpha);
    AccumulateKeys(init, alpha);
    var r := Absorb(slots, e, alpha);
    assert Accumulate(es, alpha) == r;
    AbsorbSlot(slots, e, alpha, j);
    if j == |slots| {
      DedupMember(KeysOf(init), EntryKey(e));
      SimilarityNew(es, alpha);
    } else if slots[j].key == EntryKey(e) && e.fromDense {
      SimilarityHitDense(es, alpha, slots[j]);
    } else if slots[j].key == EntryKey(e) {
      MergeSparseSimilarity(slots[j].rec, e);
      SimilarityKeep(es, slots[j], r[j]);
    } else {
      SimilarityKeep(es, slots[j], r[j]);
    }
  }

  // ---------------------------------------------------------------------------
  // bm25_score: the last sparse score of the key
  // ---------------------------------------------------------------------------

  /** Entry `j` is a sparse occurrence of key `k` that carries a BM25 score. */
  predicate SparseAt(es: seq<Entry>, k: string, j: int) {
    0 <= j < |es| && !es[j].fromDense && EntryKey(es[j]) == k && es[j].cand.bm25.Some?
  }

  ghost predicate HasSparse(es: seq<Entry>, k: string) {
    exists j :: SparseAt(es, k, j)
  }

  /** `b` is the BM25 score of the last scored sparse occurrence of `k`. */
  ghost predicate LastSparse(es: seq<Entry>, k: string, b: Option<real>) {
    exists j :: SparseAt(es, k, j) && es[j].cand.bm25 == b && (forall i :: SparseAt(es, k, i) ==> i <= j)
  }

  /** A slot's `bm25_score` is that of the last scored sparse occurrence of its key,
      and is the first occurrence's when there is none. */
  ghost predicate SlotBm25(es: seq<Entry>, s: Slot)
    requires s.key in KeysOf(es)
  {
    if HasSparse(es, s.key) then LastSparse(es, s.key, s.rec.bm25)
    else s.rec.bm25 == FirstWith(es, s.key).bm25
  }

  /** When the last entry is not a scored sparse occurrence of `k`, it changes
      nothing about the scored sparse occurrences of `k`. */
  lemma SparseAtSame(es: seq<Entry>, k: string, b: Option<real>)
    requires |es| > 0 && !SparseAt(es, k, |es| - 1)
    ensures HasSparse(es, k) <==> HasSparse(es[..|es| - 1], k)
    ensures LastSparse(es, k, b) <==> LastSparse(es[..|es| - 1], k, b)
  {
    var init := es[..|es| - 1];
    assert forall j :: SparseAt(es, k, j) <==> SparseAt(init, k, j);
    if HasSparse(es, k) {
      var j :| SparseAt(es, k, j);
      assert SparseAt(init, k, j);
    }
    if HasSparse(init, k) {
      var j :| SparseAt(init, k, j);
      assert SparseAt(es, k, j);
    }
    if LastSparse(es, k, b) {
      var j :| SparseAt(es, k, j) && es[j].cand.bm25 == b && (forall i :: SparseAt(es, k, i) ==> i <= j);
      assert SparseAt(init, k, j) && init[j].cand.bm25 == b;
    }
    if LastSparse(init, k, b) {
      var j :| SparseAt(init, k, j) && init[j].cand.bm25 == b && (forall i :: SparseAt(init, k, i) ==> i <= j);
      assert SparseAt(es, k, j) && es[j].cand.bm25 == b;
    }
  }

  /** A scored sparse entry sets the `bm25_score` of the slot of its key. */
  lemma Bm25Set(es: seq<Entry>, t: Slot)
    requires |es| > 0 && SparseAt(es, t.key, |es| - 1)
    requires t.rec.bm25 == es[|es| - 1].cand.bm25
    ensures t.key in KeysOf(es)
    ensures SlotBm25(es, t)
  {
    KeysOfInit(es);
    assert HasSparse(es, t.key);
  }

  /** Only the last entry can be a sparse occurrence of a key new to it. */
  lemma SparseAtNew(es: seq<Entry>, k: string)
    requires |es| > 0 && k == EntryKey(es[|es| - 1]) && k !in KeysOf(es[..|es| - 1])
    ensures forall j :: SparseAt(es, k, j) ==> j == |es| - 1
  {
  }

  /** The new-key case of `AccumulateBm25`: the slot starts from the entry itself. */
  lemma Bm25New(es: seq<Entry>, t: Slot)
    requires |es| > 0
    requires t.key == EntryKey(es[|es| - 1]) && t.key !in KeysOf(es[..|es| - 1])
    requires t.rec.bm25 == es[|es| - 1].cand.bm25
    ensures t.key in KeysOf(es)
    ensures SlotBm25(es, t)
  {
    FirstWithNew(es);
    SparseAtNew(es, t.key);
  }

  /** The case of `AccumulateBm25` for a known key whose score the entry leaves alone. */
  lemma Bm25Keep(es: seq<Entry>, s: Slot, t: Slot)
    requires |es| > 0
    requires s.key in KeysOf(es[..|es| - 1]) && SlotBm25(es[..|es| - 1], s)
    requires t.key == s.key && t.rec.bm25 == s.rec.bm25
    requires !SparseAt(es, s.key, |es| - 1)
    ensures t.key in KeysOf(es)
    ensures SlotBm25(es, t)
  {
    FirstWithAppend(es, s.key);
    SparseAtSame(es, s.key, s.rec.bm25);
  }

  /** Each slot's `bm25_score` is the last BM25 score seen for its key (or the first
      occurrence's, when no sparse occurrence carries one). */
  lemma {:induction false} AccumulateBm25(es: seq<Entry>, alpha: real)
    ensures forall i :: 0 <= i < |Accumulate(es, alpha)| ==>
              Accumulate(es, alpha)[i].key in KeysOf(es) && SlotBm25(es, Accumulate(es, alpha)[i])
  {
    if |es| > 0 {
      AccumulateBm25(es[..|es| - 1], alpha);
      forall j | 0 <= j < |Accumulate(es, alpha)|
        ensures Accumulate(es, alpha)[j].key in KeysOf(es) && SlotBm25(es, Accumulate(es, alpha)[j])
      {
        Bm25Step(es, alpha, j);
      }
    }
  }

  /** One step of `AccumulateBm25`, for the slot at position `j`. */
  lemma Bm25Step(es: seq<Entry>, alpha: real, j: nat)
    requires |es| > 0
    requires j < |Accumulate(es, alpha)|
    requires j < |Accumulate(es[..|es| - 1], alpha)| ==>
      Accumulate(es[..|es| - 1], alpha)[j].key in KeysOf(es[..|es| - 1])
      && SlotBm25(es[..|es| - 1], Accumulate(es[..|es| - 1], alpha)[j])
    ensures Accumulate(es, alpha)[j].key in KeysOf(es) && SlotBm25(es, Accumulate(es, alpha)[j])
  {
    var n := |es| - 1;
    var init := es[..n];
    var e := es[n];
    var slots := Accumulate(init, alpha);
    AccumulateKeys(init, alpha);
    var r := Absorb(slots, e, alpha);
    assert Accumulate(es, alpha) == r;
    AbsorbSlot(slots, e, alpha, j);
    if j == |slots| {
      DedupMember(KeysOf(init), EntryKey(e));
      MergeBm25(e.cand, e);
      Bm25New(es, r[j]);
    } else if slots[j].key == EntryKey(e) {
      MergeBm25(slots[j].rec, e);
      if SparseAt(es, slots[j].key, n) {
        Bm25Set(es, r[j]);
      } else {
        Bm25Keep(es, slots[j], r[j]);
      }
    } else {
      Bm25Keep(es, slots[j], r[j]);
    }
  }

  /** Merging sets `bm25_score` from a scored sparse entry and keeps it otherwise. */
  lemma MergeBm25(base: Candidate, e: Entry)
    ensures Merge(base, e).bm25 == if !e.fromDense && e.cand.bm25.Some? then e.cand.bm25 else base.bm25
  {
  }

  // ---------------------------------------------------------------------------
  // The fusion of two ranked lists
  // ---------------------------------------------------------------------------

  /** The merge keys of both lists in visiting order: the dense list, then the sparse one. */
  function AllKeys(dense: seq<Candidate>, sparse: seq<Candidate>): (ks: seq<string>)
    ensures |ks| == |dense| + |sparse|
    ensures forall i :: 0 <= i < |dense| ==> ks[i] == FusionKey(dense[i].text)
    ensures forall i :: |dense| <= i < |ks| ==> ks[i] == FusionKey(sparse[i - |dense|].text)
  {
    seq(|dense|, i requires 0 <= i < |dense| => FusionKey(dense[i].text))
    + seq(|sparse|, i requires 0 <= i < |sparse| => FusionKey(sparse[i].text))
  }

  lemma KeysOfEntries(dense: seq<Candidate>, sparse: seq<Candidate>)
    ensures KeysOf(Entries(dense, sparse)) == AllKeys(dense, sparse)
  {
    var es := Entries(dense, sparse);
    var a := KeysOf(es);
    var b := AllKeys(dense, sparse);
    forall i | 0 <= i < |es|
      ensures a[i] == b[i]
    {
      if i < |dense| {
        assert es[i].cand == dense[i];
      } else {
        assert es[|dense| + (i - |dense|)].cand == sparse[i - |dense|];
      }
    }
  }

  /** The candidate that first carries key `k`, looking at the dense list first. */
  function First(dense: seq<Candidate>, sparse: seq<Candidate>, k: string): Candidate
    requires k in AllKeys(dense, sparse)
  {
    (dense + sparse)[FirstIndex(AllKeys(dense, sparse), k)]
  }

  /** Where a record's key first appears: its position in dictionary order. */
  function Rank(ks: seq<string>, c: Candidate): int {
    var k := FusionKey(c.text);
    if k in ks then FirstIndex(ks, k) else |ks|
  }

  /** `_reciprocal_rank_fusion(dense_results, sparse_results, alpha)` with `k = 60`. */
  function Fuse(dense: seq<Candidate>, sparse: seq<Candidate>, alpha: real): seq<Candidate> {
    SortDesc(FinalizeAll(Accumulate(Entries(dense, sparse), alpha)), FusionScore)
  }

  /** Fusion emits one record per distinct key. */
  lemma FuseLength(dense: seq<Candidate>, sparse: seq<Candidate>, alpha: real)
    ensures |Fuse(dense, sparse, alpha)| == |Dedup(AllKeys(dense, sparse))|
  {
    AccumulateKeys(Entries(dense, sparse), alpha);
    KeysOfEntries(dense, sparse);
  }

  /** Every fused record is one of the finalised slots. */
  lemma FusedSlot(dense: seq<Candidate>, sparse: seq<Candidate>, alpha: real, i: nat)
    requires i < |Fuse(dense, sparse, alpha)|
    ensures exists j :: 0 <= j < |Accumulate(Entries(dense, sparse), alpha)| &&
              Fuse(dense, sparse, alpha)[i] == Finalize(Accumulate(Entries(dense, sparse), alpha)[j])
  {
    var f := FinalizeAll(Accumulate(Entries(dense, sparse), alpha));
    SortDescCorrect(f, FusionScore);
    assert Fuse(dense, sparse, alpha)[i] in multiset(f);
  }

  /** The key of a slot is the merge key of the text of its record. */
  lemma SlotKeyIsTextKey(es: seq<Entry>, s: Slot)
    requires SlotBase(es, s)
    ensures FusionKey(s.rec.text) == s.key
  {
    var f := FirstIndex(KeysOf(es), s.key);
    assert KeysOf(es)[f] == EntryKey(es[f]);
  }

  lemma FirstWithEntries(dense: seq<Candidate>, sparse: seq<Candidate>, k: string)
    requires k in AllKeys(dense, sparse)
    ensures k in KeysOf(Entries(dense, sparse))
    ensures FirstWith(Entries(dense, sparse), k) == First(dense, sparse, k)
  {
    KeysOfEntries(dense, sparse);
    EntryCand(dense, sparse, FirstIndex(AllKeys(dense, sparse), k));
  }

  /** Entry `f` carries element `f` of the concatenated lists. */
  lemma EntryCand(dense: seq<Candidate>, sparse: seq<Candidate>, f: nat)
    requires f < |dense| + |sparse|
    ensures Entries(dense, sparse)[f].cand == (dense + sparse)[f]
  {
    if f >= |dense| {
      assert Entries(dense, sparse)[|dense| + (f - |dense|)].cand == sparse[f - |dense|];
    }
  }

  /** What one fused record is: its slot's record, tagged, with the slot's score. */
  lemma FusedRecord(dense: seq<Candidate>, sparse: seq<Candidate>, alpha: real, i: nat)
    requires i < |Fuse(dense, sparse, alpha)|
    ensures var c := Fuse(dense, sparse, alpha)[i];
      var es := Entries(dense, sparse);
      exists j :: 0 <= j < |Accumulate(es, alpha)| && c == Finalize(Accumulate(es, alpha)[j])
        && SlotBase(es, Accumulate(es, alpha)[j]) && FusionKey(c.text) == Accumulate(es, alpha)[j].key
        && Accumulate(es, alpha)[j].key in AllKeys(dense, sparse)
  {
    var es := Entries(dense, sparse);
    var slots := Accumulate(es, alpha);
    FusedSlot(dense, sparse, alpha, i);
    AccumulateBase(es, alpha);
    KeysOfEntries(dense, sparse);
    var j :| 0 <= j < |slots| && Fuse(dense, sparse, alpha)[i] == Finalize(slots[j]);
    SlotKeyIsTextKey(es, slots[j]);
  }

  /** Every key of either list has a fused record. */
  lemma FusedKeyPresent(dense: seq<Candidate>, sparse: seq<Candidate>, alpha: real, i: nat)
    requires i < |dense| + |sparse|
    ensures exists j :: 0 <= j < |Fuse(dense, sparse, alpha)| &&
              FusionKey(Fuse(dense, sparse, alpha)[j].text) == AllKeys(dense, sparse)[i]
  {
    var es := Entries(dense, sparse);
    var ks := AllKeys(dense, sparse);
    var slots := Accumulate(es, alpha);
    var f := FinalizeAll(slots);
    var r := Fuse(dense, sparse, alpha);
    AccumulateKeys(es, alpha);
    AccumulateBase(es, alpha);
    KeysOfEntries(dense, sparse);
    SortDescCorrect(f, FusionScore);
    DedupMember(ks, ks[i]);
    var p :| 0 <= p < |Dedup(ks)| && Dedup(ks)[p] == ks[i];
    assert SlotKeys(slots)[p] == ks[i];
    SlotKeyIsTextKey(es, slots[p]);
    assert f[p] in multiset(r);
    var j :| 0 <= j < |r| && r[j] == f[p];
    assert FusionKey(r[j].text) == ks[i];
  }

  /** Fusion emits exactly one record per distinct merge key: every key of either
      list has a record, every record's key comes from the lists, and no two records
      share a key. */
  lemma FuseKeys(dense: seq<Candidate>, sparse: seq<Candidate>, alpha: real)
    ensures forall i :: 0 <= i < |Fuse(dense, sparse, alpha)| ==>
              FusionKey(Fuse(dense, sparse, alpha)[i].text) in AllKeys(dense, sparse)
    ensures forall i :: 0 <= i < |dense| + |sparse| ==>
              exists j :: 0 <= j < |Fuse(dense, sparse, alpha)| &&
                FusionKey(Fuse(dense, sparse, alpha)[j].text) == AllKeys(dense, sparse)[i]
    ensures forall i, j :: 0 <= i < j < |Fuse(dense, sparse, alpha)| ==>
              FusionKey(Fuse(dense, sparse, alpha)[i].text) != FusionKey(Fuse(dense, sparse, alpha)[j].text)
  {
    var ks := AllKeys(dense, sparse);
    var r := Fuse(dense, sparse, alpha);
    forall i | 0 <= i < |r|
      ensures FusionKey(r[i].text) in ks
    {
      FusedRecord(dense, sparse, alpha, i);
    }
    forall i | 0 <= i < |ks|
      ensures exists j :: 0 <= j < |r| && FusionKey(r[j].text) == ks[i]
    {
      FusedKeyPresent(dense, sparse, alpha, i);
    }
    forall i, j | 0 <= i < j < |r|
      ensures FusionKey(r[i].text) != FusionKey(r[j].text)
    {
      FuseOrderPair(dense, sparse, alpha, i, j);
    }
  }

  lemma FuseOrderPair(dense: seq<Candidate>, sparse: seq<Candidate>, alpha: real, i: nat, j: nat)
    requires i < j < |Fuse(dense, sparse, alpha)|
    ensures FusionKey(Fuse(dense, sparse, alpha)[i].text) != FusionKey(Fuse(dense, sparse, alpha)[j].text)
  {
    var ks := AllKeys(dense, sparse);
    var r := Fuse(dense, sparse, alpha);
    FuseOrder(dense, sparse, alpha);
    FuseRecord(dense, sparse, alpha, i);
    FuseRecord(dense, sparse, alpha, j);
    assert TieOrdered(r, FusionScore, c => Rank(ks, c));
  }


  /** The output is sorted by `fusion_score`, highest first, and records with equal
      scores come in the order in which their keys first appeared: dense ranks first,
      then keys that only the sparse list brought. */
  lemma FuseOrder(dense: seq<Candidate>, sparse: seq<Candidate>, alpha: real)
    ensures TieOrdered(Fuse(dense, sparse, alpha), FusionScore, c => Rank(AllKeys(dense, sparse), c))
  {
    var es := Entries(dense, sparse);
    var ks := AllKeys(dense, sparse);
    var slots := Accumulate(es, alpha);
    var f := FinalizeAll(slots);
    AccumulateKeys(es, alpha);
    AccumulateBase(es, alpha);
    KeysOfEntries(dense, sparse);
    DedupOrder(ks);
    forall p | 0 <= p < |f|
      ensures Rank(ks, f[p]) == FirstIndex(ks, Dedup(ks)[p])
    {
      assert SlotKeys(slots)[p] == Dedup(ks)[p];
      SlotKeyIsTextKey(es, slots[p]);
    }
    SortDescTies(f, FusionScore, c => Rank(ks, c));
  }

  lemma EntriesLastSparse(dense: seq<Candidate>, sparse: seq<Candidate>)
    requires |sparse| > 0
    ensures var es := Entries(dense, sparse);
      es[..|es| - 1] == Entries(dense, sparse[..|sparse| - 1]) &&
      es[|es| - 1] == Entry(sparse[|sparse| - 1], |sparse| - 1, false)
  {
    var es := Entries(dense, sparse);
    var e2 := Entries(dense, sparse[..|sparse| - 1]);
    forall i | 0 <= i < |e2|
      ensures es[i] == e2[i]
    {
      if i >= |dense| {
        assert es[|dense| + (i - |dense|)] == e2[|dense| + (i - |dense|)];
      }
    }
    assert es[|dense| + (|sparse| - 1)] == es[|es| - 1];
  }

  lemma EntriesLastDense(dense: seq<Candidate>)
    requires |dense| > 0
    ensures var es := Entries(dense, []);
      es[..|es| - 1] == Entries(dense[..|dense| - 1], []) &&
      es[|es| - 1] == Entry(dense[|dense| - 1], |dense| - 1, true)
  {
    var es := Entries(dense, []);
    var e2 := Entries(dense[..|dense| - 1], []);
    assert es[..|es| - 1] == e2;
  }

  lemma {:induction false} TotalEntries(dense: seq<Candidate>, sparse: seq<Candidate>, alpha: real, k: string)
    ensures Total(Entries(dense, sparse), alpha, k) == RankSum(dense, alpha, k) + RankSum(sparse, 1.0 - alpha, k)
  {
    if |sparse| > 0 {
      TotalEntries(dense, sparse[..|sparse| - 1], alpha, k);
      TotalSparseStep(dense, sparse, alpha, k);
    } else if |dense| > 0 {
      TotalEntries(dense[..|dense| - 1], sparse, alpha, k);
      TotalDenseStep(dense, alpha, k);
    } else {
      assert Entries(dense, sparse) == [];
    }
  }

  lemma TotalSparseStep(dense: seq<Candidate>, sparse: seq<Candidate>, alpha: real, k: string)
    requires |sparse| > 0
    requires Total(Entries(dense, sparse[..|sparse| - 1]), alpha, k)
      == RankSum(dense, alpha, k) + RankSum(sparse[..|sparse| - 1], 1.0 - alpha, k)
    ensures Total(Entries(dense, sparse), alpha, k) == RankSum(dense, alpha, k) + RankSum(sparse, 1.0 - alpha, k)
  {
    var es := Entries(dense, sparse);
    EntriesLastSparse(dense, sparse);
    TotalStep(es, alpha, k);
    var last := es[|es| - 1];
    assert Weight(last, alpha) == Contribution(1.0 - alpha, |sparse| - 1);
    assert EntryKey(last) == FusionKey(sparse[|sparse| - 1].text);
  }

  lemma TotalDenseStep(dense: seq<Candidate>, alpha: real, k: string)
    requires |dense| > 0
    requires Total(Entries(dense[..|dense| - 1], []), alpha, k)
      == RankSum(dense[..|dense| - 1], alpha, k) + RankSum([], 1.0 - alpha, k)
    ensures Total(Entries(dense, []), alpha, k) == RankSum(dense, alpha, k) + RankSum([], 1.0 - alpha, k)
  {
    var es := Entries(dense, []);
    EntriesLastDense(dense);
    TotalStep(es, alpha, k);
    var last := es[|es| - 1];
    assert Weight(last, alpha) == Contribution(alpha, |dense| - 1);
    assert EntryKey(last) == FusionKey(dense[|dense| - 1].text);
  }

  /** `c`'s `fusion_score` sums `alpha / (60 + r + 1)` over the dense ranks `r` of its
      key and `(1 - alpha) / (60 + r + 1)` over its sparse ranks. */
  predicate ScoredAsRrf(dense: seq<Candidate>, sparse: seq<Candidate>, alpha: real, c: Candidate) {
    var k := FusionKey(c.text);
    c.fusion == Some(RankSum(dense, alpha, k) + RankSum(sparse, 1.0 - alpha, k))
  }

  /** `c` is tagged `hybrid` and, apart from `similarity`, `bm25_score` and
      `fusion_score`, is the first candidate that carried its key. */
  predicate FromFirst(dense: seq<Candidate>, sparse: seq<Candidate>, c: Candidate) {
    var k := FusionKey(c.text);
    k in AllKeys(dense, sparse)
    && c == First(dense, sparse, k).(similarity := c.similarity, bm25 := c.bm25,
                                     fusion := c.fusion, origin := Hybrid)
  }

  /** `c` is the fused record of its key. */
  predicate FusedFrom(dense: seq<Candidate>, sparse: seq<Candidate>, alpha: real, c: Candidate) {
    FromFirst(dense, sparse, c) && ScoredAsRrf(dense, sparse, alpha, c)
  }

  lemma SlotScore(dense: seq<Candidate>, sparse: seq<Candidate>, alpha: real, j: nat)
    requires j < |Accumulate(Entries(dense, sparse), alpha)|
    ensures var s := Accumulate(Entries(dense, sparse), alpha)[j];
      Finalize(s).fusion == Some(RankSum(dense, alpha, s.key) + RankSum(sparse, 1.0 - alpha, s.key))
  {
    var es := Entries(dense, sparse);
    AccumulateScore(es, alpha);
    TotalEntries(dense, sparse, alpha, Accumulate(es, alpha)[j].key);
  }

  lemma SlotFused(dense: seq<Candidate>, sparse: seq<Candidate>, alpha: real, j: nat)
    requires j < |Accumulate(Entries(dense, sparse), alpha)|
    ensures FusedFrom(dense, sparse, alpha, Finalize(Accumulate(Entries(dense, sparse), alpha)[j]))
  {
    var s := Accumulate(Entries(dense, sparse), alpha)[j];
    SlotBaseAt(Entries(dense, sparse), alpha, j);
    BaseFromFirst(dense, sparse, s);
    SlotScore(dense, sparse, alpha, j);
    FinalizedScored(dense, sparse, alpha, s);
  }

  lemma SlotBaseAt(es: seq<Entry>, alpha: real, j: nat)
    requires j < |Accumulate(es, alpha)|
    ensures SlotBase(es, Accumulate(es, alpha)[j])
  {
    AccumulateBase(es, alpha);
  }

  /** A slot that kept the untouched fields of its key's first record finalizes to
      that record with the fused fields filled in. */
  lemma BaseFromFirst(dense: seq<Candidate>, sparse: seq<Candidate>, s: Slot)
    requires SlotBase(Entries(dense, sparse), s)
    ensures FusionKey(s.rec.text) == s.key
    ensures FromFirst(dense, sparse, Finalize(s))
  {
    SlotKeyIsTextKey(Entries(dense, sparse), s);
    KeysOfEntries(dense, sparse);
    FirstWithEntries(dense, sparse, s.key);
    FinalizeFromFirst(dense, sparse, s);
  }

  /** A slot that summed its key's contributions finalizes to a record scored as RRF. */
  lemma FinalizedScored(dense: seq<Candidate>, sparse: seq<Candidate>, alpha: real, s: Slot)
    requires FusionKey(s.rec.text) == s.key
    requires s.score == RankSum(dense, alpha, s.key) + RankSum(sparse, 1.0 - alpha, s.key)
    ensures ScoredAsRrf(dense, sparse, alpha, Finalize(s))
  {
    var c := Finalize(s);
    assert c.text == s.rec.text;
  }

  /** A slot whose untouched fields are those of its key's first record finalizes to
      that record with the fused fields filled in. */
  lemma FinalizeFromFirst(dense: seq<Candidate>, sparse: seq<Candidate>, s: Slot)
    requires s.key in AllKeys(dense, sparse)
    requires FusionKey(s.rec.text) == s.key
    requires Base(s.rec) == Base(First(dense, sparse, s.key))
    ensures FromFirst(dense, sparse, Finalize(s))
  {
  }

  /** Every record fusion emits is tagged `hybrid` and carries a fusion score. */
  lemma FuseTagged(dense: seq<Candidate>, sparse: seq<Candidate>, alpha: real)
    ensures forall c :: c in Fuse(dense, sparse, alpha) ==> c.origin == Hybrid && c.fusion.Some?
  {
    var fused := Fuse(dense, sparse, alpha);
    forall c | c in fused
      ensures c.origin == Hybrid && c.fusion.Some?
    {
      var i :| 0 <= i < |fused| && fused[i] == c;
      FuseRecord(dense, sparse, alpha, i);
    }
  }

  /** Every record fusion emits is the fused record of its key. */
  lemma FuseRecord(dense: seq<Candidate>, sparse: seq<Candidate>, alpha: real, i: nat)
    requires i < |Fuse(dense, sparse, alpha)|
    ensures FusedFrom(dense, sparse, alpha, Fuse(dense, sparse, alpha)[i])
  {
    FusedSlot(dense, sparse, alpha, i);
    var j :| 0 <= j < |Accumulate(Entries(dense, sparse), alpha)| &&
             Fuse(dense, sparse, alpha)[i] == Finalize(Accumulate(Entries(dense, sparse), alpha)[j]);
    SlotFused(dense, sparse, alpha, j);
  }

  // ---------------------------------------------------------------------------
  // similarity and bm25_score of the fused records
  // ---------------------------------------------------------------------------

  /** Some dense candidate has merge key `k`. */
  ghost predicate InDense(dense: seq<Candidate>, k: string) {
    exists j :: 0 <= j < |dense| && FusionKey(dense[j].text) == k
  }

  /** `sim` is the largest similarity among the dense candidates with merge key `k`. */
  ghost predicate BestDenseSimilarity(dense: seq<Candidate>, k: string, sim: Option<real>) {
    sim.Some?
    && (forall j :: 0 <= j < |dense| && FusionKey(dense[j].text) == k ==> dense[j].similarity.GetOr(0.0) <= sim.value)
    && (exists j :: 0 <= j < |dense| && FusionKey(dense[j].text) == k && dense[j].similarity == sim)
  }

  /** Some sparse candidate with merge key `k` carries a BM25 score. */
  ghost predicate InSparse(sparse: seq<Candidate>, k: string) {
    exists j :: 0 <= j < |sparse| && FusionKey(sparse[j].text) == k && sparse[j].bm25.Some?
  }

  /** `b` is the BM25 score of the last sparse candidate with merge key `k` that has one. */
  ghost predicate LastSparseBm25(sparse: seq<Candidate>, k: string, b: Option<real>) {
    exists j :: 0 <= j < |sparse| && FusionKey(sparse[j].text) == k && sparse[j].bm25.Some? && sparse[j].bm25 == b
      && (forall i :: j < i < |sparse| && FusionKey(sparse[i].text) == k ==> sparse[i].bm25.None?)
  }

  lemma EntriesShape(dense: seq<Candidate>, sparse: seq<Candidate>)
    ensures DenseFirst(Entries(dense, sparse))
    ensures (forall j :: 0 <= j < |dense| ==> dense[j].similarity.Some?) ==> DenseScored(Entries(dense, sparse))
  {
    var es := Entries(dense, sparse);
    forall j | 0 <= j < |es|
      ensures es[j].fromDense <==> j < |dense|
    {
      if j >= |dense| {
        assert es[|dense| + (j - |dense|)].fromDense == false;
      }
    }
  }

  lemma DenseBridge(dense: seq<Candidate>, sparse: seq<Candidate>, k: string, sim: Option<real>)
    ensures HasDense(Entries(dense, sparse), k) <==> InDense(dense, k)
    ensures BestDense(Entries(dense, sparse), k, sim) <==> BestDenseSimilarity(dense, k, sim)
  {
    HasDenseBridge(dense, sparse, k);
    BestDenseBridge(dense, sparse, k, sim);
  }

  lemma DenseAtBridge(dense: seq<Candidate>, sparse: seq<Candidate>, k: string)
    ensures forall j :: DenseAt(Entries(dense, sparse), k, j) <==> 0 <= j < |dense| && FusionKey(dense[j].text) == k
  {
    var es := Entries(dense, sparse);
    forall j
      ensures DenseAt(es, k, j) <==> 0 <= j < |dense| && FusionKey(dense[j].text) == k
    {
      if |dense| <= j < |es| {
        assert es[|dense| + (j - |dense|)].fromDense == false;
      }
    }
  }

  lemma HasDenseBridge(dense: seq<Candidate>, sparse: seq<Candidate>, k: string)
    ensures HasDense(Entries(dense, sparse), k) <==> InDense(dense, k)
  {
    var es := Entries(dense, sparse);
    DenseAtBridge(dense, sparse, k);
    if HasDense(es, k) {
      var j :| DenseAt(es, k, j);
      assert FusionKey(dense[j].text) == k;
    }
    if InDense(dense, k) {
      var j :| 0 <= j < |dense| && FusionKey(dense[j].text) == k;
      assert DenseAt(es, k, j);
    }
  }

  lemma BestDenseBridge(dense: seq<Candidate>, sparse: seq<Candidate>, k: string, sim: Option<real>)
    ensures BestDense(Entries(dense, sparse), k, sim) <==> BestDenseSimilarity(dense, k, sim)
  {
    var es := Entries(dense, sparse);
    DenseAtBridge(dense, sparse, k);
    if BestDense(es, k, sim) {
      var j :| DenseAt(es, k, j) && es[j].cand.similarity == sim;
      assert dense[j].similarity == sim;
    }
    if BestDenseSimilarity(dense, k, sim) {
      var j :| 0 <= j < |dense| && FusionKey(dense[j].text) == k && dense[j].similarity == sim;
      assert DenseAt(es, k, j);
    }
  }

  lemma SparseAtBridge(dense: seq<Candidate>, sparse: seq<Candidate>, k: string)
    ensures forall j :: SparseAt(Entries(dense, sparse), k, j) <==>
              |dense| <= j < |dense| + |sparse| && FusionKey(sparse[j - |dense|].text) == k
              && sparse[j - |dense|].bm25.Some?
  {
    var es := Entries(dense, sparse);
    var n := |dense|;
    forall j
      ensures SparseAt(es, k, j) <==>
                n <= j < |es| && FusionKey(sparse[j - n].text) == k && sparse[j - n].bm25.Some?
    {
      if n <= j < |es| {
        assert es[n + (j - n)] == Entry(sparse[j - n], j - n, false);
      }
    }
  }

  lemma LastSparseToList(dense: seq<Candidate>, sparse: seq<Candidate>, k: string, b: Option<real>)
    requires LastSparse(Entries(dense, sparse), k, b)
    ensures LastSparseBm25(sparse, k, b)
  {
    var es := Entries(dense, sparse);
    var n := |dense|;
    var j :| SparseAt(es, k, j) && es[j].cand.bm25 == b && (forall i :: SparseAt(es, k, i) ==> i <= j);
    assert n <= j;
    var m := j - n;
    assert es[n + m] == Entry(sparse[m], m, false);
    forall i | m < i < |sparse| && FusionKey(sparse[i].text) == k
      ensures sparse[i].bm25.None?
    {
      assert es[n + i] == Entry(sparse[i], i, false);
      assert SparseAt(es, k, n + i) ==> n + i <= j;
    }
    assert FusionKey(sparse[m].text) == k && sparse[m].bm25 == b;
  }

  lemma LastSparseFromList(dense: seq<Candidate>, sparse: seq<Candidate>, k: string, b: Option<real>)
    requires LastSparseBm25(sparse, k, b)
    ensures LastSparse(Entries(dense, sparse), k, b)
  {
    var es := Entries(dense, sparse);
    var n := |dense|;
    var j :| 0 <= j < |sparse| && FusionKey(sparse[j].text) == k && sparse[j].bm25.Some? && sparse[j].bm25 == b
      && (forall i :: j < i < |sparse| && FusionKey(sparse[i].text) == k ==> sparse[i].bm25.None?);
    assert es[n + j] == Entry(sparse[j], j, false);
    assert SparseAt(es, k, n + j);
    forall i | SparseAt(es, k, i)
      ensures i <= n + j
    {
      EntrySparse(dense, sparse, i);
      assert FusionKey(sparse[i - n].text) == k && sparse[i - n].bm25.Some?;
    }
  }

  /** Entry `i` past the dense list is sparse candidate `i - |dense|`. */
  lemma EntrySparse(dense: seq<Candidate>, sparse: seq<Candidate>, i: int)
    requires |dense| <= i < |dense| + |sparse|
    ensures Entries(dense, sparse)[i] == Entry(sparse[i - |dense|], i - |dense|, false)
  {
    assert Entries(dense, sparse)[|dense| + (i - |dense|)] == Entry(sparse[i - |dense|], i - |dense|, false);
  }

  lemma SparseBridge(dense: seq<Candidate>, sparse: seq<Candidate>, k: string, b: Option<real>)
    ensures HasSparse(Entries(dense, sparse), k) <==> InSparse(sparse, k)
    ensures LastSparse(Entries(dense, sparse), k, b) <==> LastSparseBm25(sparse, k, b)
  {
    var es := Entries(dense, sparse);
    var n := |dense|;
    SparseAtBridge(dense, sparse, k);
    if HasSparse(es, k) {
      var j :| SparseAt(es, k, j);
      assert FusionKey(sparse[j - n].text) == k && sparse[j - n].bm25.Some?;
    }
    if InSparse(sparse, k) {
      var j :| 0 <= j < |sparse| && FusionKey(sparse[j].text) == k && sparse[j].bm25.Some?;
      assert SparseAt(es, k, n + j);
    }
    if LastSparse(es, k, b) {
      LastSparseToList(dense, sparse, k, b);
    }
    if LastSparseBm25(sparse, k, b) {
      LastSparseFromList(dense, sparse, k, b);
    }
  }

  /** When every dense candidate has a similarity (as `_dense_retrieve` guarantees),
      a fused record keeps the largest dense similarity of its key; a key only the
      sparse list brought keeps that candidate's own similarity. */
  lemma FuseSimilarity(dense: seq<Candidate>, sparse: seq<Candidate>, alpha: real, i: nat)
    requires forall j :: 0 <= j < |dense| ==> dense[j].similarity.Some?
    requires i < |Fuse(dense, sparse, alpha)|
    ensures var c := Fuse(dense, sparse, alpha)[i];
      var k := FusionKey(c.text);
      k in AllKeys(dense, sparse)
      && (InDense(dense, k) ==> BestDenseSimilarity(dense, k, c.similarity))
      && (!InDense(dense, k) ==> c.similarity == First(dense, sparse, k).similarity)
  {
    var es := Entries(dense, sparse);
    var slots := Accumulate(es, alpha);
    FusedRecord(dense, sparse, alpha, i);
    var c := Fuse(dense, sparse, alpha)[i];
    var j :| 0 <= j < |slots| && c == Finalize(slots[j]) && SlotBase(es, slots[j])
             && FusionKey(c.text) == slots[j].key && slots[j].key in AllKeys(dense, sparse);
    var k := slots[j].key;
    assert SlotSimilarity(es, slots[j]) by {
      EntriesShape(dense, sparse);
      AccumulateSimilarity(es, alpha);
    }
    DenseBridge(dense, sparse, k, c.similarity);
    FirstWithEntries(dense, sparse, k);
  }

  /** A fused record carries the BM25 score of the last sparse candidate of its key
      that has one; without such a candidate it keeps the first occurrence's. */
  lemma FuseBm25(dense: seq<Candidate>, sparse: seq<Candidate>, alpha: real, i: nat)
    requires i < |Fuse(dense, sparse, alpha)|
    ensures var c := Fuse(dense, sparse, alpha)[i];
      var k := FusionKey(c.text);
      k in AllKeys(dense, sparse)
      && (InSparse(sparse, k) ==> LastSparseBm25(sparse, k, c.bm25))
      && (!InSparse(sparse, k) ==> c.bm25 == First(dense, sparse, k).bm25)
  {
    var es := Entries(dense, sparse);
    var slots := Accumulate(es, alpha);
    FusedRecord(dense, sparse, alpha, i);
    var c := Fuse(dense, sparse, alpha)[i];
    var j :| 0 <= j < |slots| && c == Finalize(slots[j]) && SlotBase(es, slots[j])
             && FusionKey(c.text) == slots[j].key && slots[j].key in AllKeys(dense, sparse);
    var k := slots[j].key;
    assert SlotBm25(es, slots[j]) by {
      AccumulateBm25(es, alpha);
    }
    SparseBridge(dense, sparse, k, c.bm25);
    FirstWithEntries(dense, sparse, k);
  }
}

=== FILE: memory.dfy ===
/** The conversation memory: a bounded first-in-first-out window over the
    chat messages (a deque of capacity `2 * max_turns`), with its summary,
    export/import and the rendering used as recent context. */
module Memory {
  import opened Seqs
  import opened Text

  /** One stored message. `role` is kept as a string: imported histories
      may carry any role. */
  datatype Message = Message(role: string, content: string)

  datatype Manager = Manager(maxTurns: nat, history: seq<Message>)

  /** The deque's `maxlen`: one user and one assistant message per turn. */
  function Capacity(m: Manager): nat {
    2 * m.maxTurns
  }

  /** The deque never holds more than its capacity. */
  predicate Valid(m: Manager) {
    |m.history| <= Capacity(m)
  }

  /** A fresh manager: empty history. */
  function New(maxTurns: nat): (m: Manager)
    ensures Valid(m) && m.history == [] && m.maxTurns == maxTurns
  {
    Manager(maxTurns, [])
  }

  // ---------------------------------------------------------------------------
  // Appending
  // ---------------------------------------------------------------------------

  /** `deque.append` on a deque with a `maxlen`: when full, the oldest
      message is dropped first. */
  function Push(m: Manager, msg: Message): (r: Manager)
    ensures r.maxTurns == m.maxTurns
    ensures Valid(r)
    ensures Valid(m) && |m.history| < Capacity(m) ==> r.history == m.history + [msg]
    ensures Valid(m) && 0 < |m.history| == Capacity(m) ==> r.history == m.history[1..] + [msg]
    ensures Capacity(m) == 0 ==> r.history == []
    ensures Capacity(m) > 0 ==> |r.history| > 0 && r.history[|r.history| - 1] == msg
  {
    Manager(m.maxTurns, Last(m.history + [msg], Capacity(m)))
  }

  /** `add_user_message`. */
  function AddUser(m: Manager, text: string): (r: Manager)
    ensures r.maxTurns == m.maxTurns
    ensures Valid(r)
    ensures Valid(m) && |m.history| < Capacity(m) ==> r.history == m.history + [Message("user", text)]
    ensures Valid(m) && 0 < |m.history| == Capacity(m) ==> r.history == m.history[1..] + [Message("user", text)]
    ensures Capacity(m) == 0 ==> r.history == []
  {
    Push(m, Message("user", text))
  }

  /** `add_assistant_message`. */
  function AddAssistant(m: Manager, text: string): (r: Manager)
    ensures r.maxTurns == m.maxTurns
    ensures Valid(r)
    ensures Valid(m) && |m.history| < Capacity(m) ==> r.history == m.history + [Message("assistant", text)]
    ensures Valid(m) && 0 < |m.history| == Capacity(m) ==> r.history == m.history[1..] + [Message("assistant", text)]
    ensures Capacity(m) == 0 ==> r.history == []
  {
    Push(m, Message("assistant", text))
  }

  /** Appending the messages one after another, as the import loop does. */
  function PushAll(m: Manager, msgs: seq<Message>): (r: Manager)
    ensures r.maxTurns == m.maxTurns
    decreases |msgs|
  {
    if |msgs| == 0 then m else PushAll(Push(m, msgs[0]), msgs[1..])
  }

  /** Pushing messages one at a time leaves exactly the last `capacity` of
      the whole stream: the deque is a sliding window. */
  lemma {:induction false} PushAllWindow(m: Manager, msgs: seq<Message>)
    requires Valid(m)
    ensures PushAll(m, msgs).history == Last(m.history + msgs, Capacity(m))
    decreases |msgs|
  {
    if |msgs| == 0 {
      assert m.history + msgs == m.history;
    } else {
      var m1 := Push(m, msgs[0]);
      PushAllWindow(m1, msgs[1..]);
      assert m1.history == Last(m.history + [msgs[0]], Capacity(m));
      WindowStep(m.history, msgs, Capacity(m), PushAll(m, msgs).history);
    }
  }

  /** One step of `PushAllWindow`: cutting the window after the first
      message and extending it by the rest gives the window of the whole. */
  lemma WindowStep<T>(h: seq<T>, msgs: seq<T>, c: nat, w: seq<T>)
    requires |msgs| > 0
    requires w == Last(Last(h + [msgs[0]], c) + msgs[1..], c)
    ensures w == Last(h + msgs, c)
  {
    LastConcat(h + [msgs[0]], msgs[1..], c);
    AppendFirst(h, msgs);
  }

  lemma AppendFirst<T>(h: seq<T>, s: seq<T>)
    requires |s| > 0
    ensures h + [s[0]] + s[1..] == h + s
  {
    assert s == [s[0]] + s[1..];
  }

  /** The last `n` of a suffix that still has `n` elements are the last `n` of the whole. */
  lemma LastSuffix<T>(u: seq<T>, k: nat, n: nat)
    requires k + n <= |u|
    ensures Last(u[k..], n) == Last(u, n)
  {
    assert u[k..][|u| - k - n..] == u[|u| - n..];
  }

  /** Cutting to the last `n` before appending more does not change the last `n` after. */
  lemma LastConcat<T>(s: seq<T>, t: seq<T>, n: nat)
    ensures Last(Last(s, n) + t, n) == Last(s + t, n)
  {
    if |s| > n {
      assert Last(s, n) + t == (s + t)[|s| - n..];
      LastSuffix(s + t, |s| - n, n);
    }
  }

  // ---------------------------------------------------------------------------
  // Reading, clearing, import and export
  // ---------------------------------------------------------------------------

  /** `get_history` and `export_history`: the messages, oldest first. */
  function History(m: Manager): (h: seq<Message>)
    ensures Valid(m) ==> |h| <= Capacity(m)
  {
    m.history
  }

  /** `clear_history`. */
  function Clear(m: Manager): (r: Manager)
    ensures r.history == [] && r.maxTurns == m.maxTurns
    ensures Valid(r)
  {
    Manager(m.maxTurns, [])
  }

  /** `import_history`: clear, then append the slice `history[-max_turns*2:]`
      one message at a time. For `max_turns == 0` the slice is the whole list,
      which the zero-capacity deque then discards. */
  function Import(m: Manager, msgs: seq<Message>): (r: Manager)
    ensures r.maxTurns == m.maxTurns
    ensures Valid(r)
    ensures r.history == Last(msgs, Capacity(m))
  {
    ImportWindow(m, msgs);
    PushAll(Clear(m), PyDrop(msgs, -(Capacity(m) as int)))
  }

  /** The import loop over the sliced list leaves the last `capacity` messages. */
  lemma ImportWindow(m: Manager, msgs: seq<Message>)
    ensures PushAll(Clear(m), PyDrop(msgs, -(Capacity(m) as int))).history == Last(msgs, Capacity(m))
  {
    var slice := PyDrop(msgs, -(Capacity(m) as int));
    PyDropNegated(msgs, Capacity(m));
    PushAllWindow(Clear(m), slice);
    assert [] + slice == slice;
    if 0 < Capacity(m) <= |msgs| {
      assert slice == msgs[|msgs| - Capacity(m)..];
      assert Last(slice, Capacity(m)) == Last(msgs, Capacity(m));
    }
  }

  /** Exporting and re-importing into a manager of the same size restores
      the history. */
  lemma ExportImport(m: Manager, other: Manager)
    requires Valid(m) && other.maxTurns == m.maxTurns
    ensures Import(other, History(m)) == m
  {
  }

  // ---------------------------------------------------------------------------
  // Summary
  // ---------------------------------------------------------------------------

  /** How many messages carry `role`. */
  function Count(h: seq<Message>, role: string): (n: nat)
    ensures n <= |h|
  {
    if |h| == 0 then 0
    else Count(h[..|h| - 1], role) + (if h[|h| - 1].role == role then 1 else 0)
  }

  function Roles(h: seq<Message>): (r: seq<string>)
    ensures |r| == |h|
    ensures forall i :: 0 <= i < |h| ==> r[i] == h[i].role
  {
    if |h| == 0 then [] else Roles(h[..|h| - 1]) + [h[|h| - 1].role]
  }

  /** The count agrees with the multiplicity of the role among all roles. */
  lemma {:induction false} CountIsMultiplicity(h: seq<Message>, role: string)
    ensures Count(h, role) == multiset(Roles(h))[role]
  {
    if |h| > 0 {
      CountIsMultiplicity(h[..|h| - 1], role);
    }
  }

  /** Two different roles are never counted for the same message. */
  lemma {:induction false} CountDisjoint(h: seq<Message>, a: string, b: string)
    requires a != b
    ensures Count(h, a) + Count(h, b) <= |h|
  {
    if |h| > 0 {
      CountDisjoint(h[..|h| - 1], a, b);
    }
  }

  datatype Summary = Summary(total: nat, user: nat, assistant: nat, turns: nat)

  /** `get_conversation_summary`. */
  function Summarize(m: Manager): (s: Summary)
    ensures s.total == |m.history|
    ensures s.user == Count(m.history, "user") && s.assistant == Count(m.history, "assistant")
    ensures s.turns <= s.user && s.turns <= s.assistant
    ensures s.turns == s.user || s.turns == s.assistant
    ensures s.user + s.assistant <= s.total
  {
    CountDisjoint(m.history, "user", "assistant");
    var u := Count(m.history, "user");
    var a := Count(m.history, "assistant");
    Summary(|m.history|, u, a, if u < a then u else a)
  }

  /** A user message added below capacity raises the user count by one and
      leaves the assistant count as it was. */
  lemma AddUserCounts(m: Manager, text: string)
    requires Valid(m) && |m.history| < Capacity(m)
    ensures Summarize(AddUser(m, text)).user == Summarize(m).user + 1
    ensures Summarize(AddUser(m, text)).assistant == Summarize(m).assistant
    ensures Summarize(AddUser(m, text)).total == Summarize(m).total + 1
  {
    var h := AddUser(m, text).history;
    assert h[..|h| - 1] == m.history;
  }

  /** An assistant message added below capacity raises the assistant count by one. */
  lemma AddAssistantCounts(m: Manager, text: string)
    requires Valid(m) && |m.history| < Capacity(m)
    ensures Summarize(AddAssistant(m, text)).assistant == Summarize(m).assistant + 1
    ensures Summarize(AddAssistant(m, text)).user == Summarize(m).user
    ensures Summarize(AddAssistant(m, text)).total == Summarize(m).total + 1
  {
    var h := AddAssistant(m, text).history;
    assert h[..|h| - 1] == m.history;
  }

  // ---------------------------------------------------------------------------
  // Recent context
  // ---------------------------------------------------------------------------

  /** One rendered line: any role other than `user` is shown as the assistant. */
  function Line(msg: Message): (l: string)
    ensures msg.role == "user" ==> l == "User: " + msg.content
    ensures msg.role != "user" ==> l == "Assistant: " + msg.content
  {
    (if msg.role == "user" then "User" else "Assistant") + ": " + msg.content
  }

  function Lines(h: seq<Message>): (r: seq<string>)
    ensures |r| == |h|
    ensures forall i :: 0 <= i < |h| ==> r[i] == Line(h[i])
  {
    if |h| == 0 then [] else [Line(h[0])] + Lines(h[1..])
  }

  /** The messages `get_recent_context` renders: `history[-(num_turns*2):]`. */
  function Recent(m: Manager, numTurns: int): (h: seq<Message>)
    ensures numTurns == 0 ==> h == m.history
    ensures numTurns > 0 ==> h == Last(m.history, 2 * numTurns)
  {
    RecentSlice(m.history, numTurns);
    PyDrop(m.history, -(numTurns * 2))
  }

  /** `s[-(k*2):]` for the three signs of `k`. */
  lemma RecentSlice(s: seq<Message>, k: int)
    ensures k == 0 ==> PyDrop(s, -(k * 2)) == s
    ensures k > 0 ==> PyDrop(s, -(k * 2)) == Last(s, 2 * k)
    ensures k < 0 ==> PyDrop(s, -(k * 2)) == s[if -2 * k <= |s| then -2 * k else |s|..]
  {
    if k >= 0 {
      var n: nat := 2 * k;
      assert -(k * 2) == -(n as int);
      PyDropNegated(s, n);
    }
  }

  /** `get_recent_context`: the recent messages, one line each, joined by newlines. */
  function RecentContext(m: Manager, numTurns: int): (r: string)
    ensures |Recent(m, numTurns)| == 0 <==> r == ""
  {
    var lines := Lines(Recent(m, numTurns));
    JoinNonEmpty(lines);
    Join(lines, "\n")
  }

  /** Rendered lines are never empty, so neither is their join. */
  lemma JoinNonEmpty(lines: seq<string>)
    requires forall i :: 0 <= i < |lines| ==> |lines[i]| > 0
    ensures |lines| > 0 ==> Join(lines, "\n") != ""
  {
    if |lines| > 0 {
      JoinStartsWithFirst(lines, "\n");
    }
  }

  /** A line holds a newline only when the message content does. */
  lemma LineNoNewline(msg: Message)
    requires '\n' !in msg.content
    ensures '\n' !in Line(msg)
  {
    var l := Line(msg);
    var p := if msg.role == "user" then "User: " else "Assistant: ";
    assert l == p + msg.content;
    forall i | 0 <= i < |l|
      ensures l[i] != '\n'
    {
      if i >= |p| {
        assert l[i] == msg.content[i - |p|];
      }
    }
  }

  /** With single-line messages the rendering can be split back into one line
      per recent message, in order. */
  lemma RecentContextLines(m: Manager, numTurns: int)
    requires forall i :: 0 <= i < |m.history| ==> '\n' !in m.history[i].content
    requires |Recent(m, numTurns)| > 0
    ensures SplitOn(RecentContext(m, numTurns), '\n') == Lines(Recent(m, numTurns))
  {
    var h := Recent(m, numTurns);
    var lines := Lines(h);
    forall i | 0 <= i < |lines|
      ensures '\n' !in lines[i]
    {
      assert h[i] in m.history;
      var j :| 0 <= j < |m.history| && m.history[j] == h[i];
      LineNoNewline(h[i]);
    }
    SplitOnJoin(lines, '\n');
  }

  // ---------------------------------------------------------------------------
  // The manager as a state machine
  // ---------------------------------------------------------------------------

  datatype Op = UserSays(text: string) | AssistantSays(text: string) | ClearAll | ImportAll(msgs: seq<Message>)

  function Step(m: Manager, op: Op): (r: Manager)
    ensures r.maxTurns == m.maxTurns && Valid(r)
  {
    match op
    case UserSays(t) => AddUser(m, t)
    case AssistantSays(t) => AddAssistant(m, t)
    case ClearAll => Clear(m)
    case ImportAll(msgs) => Import(m, msgs)
  }

  function Run(m: Manager, ops: seq<Op>): (r: Manager)
    ensures r.maxTurns == m.maxTurns
    decreases |ops|
  {
    if |ops| == 0 then m else Run(Step(m, ops[0]), ops[1..])
  }

  /** Whatever the operations, the history stays within `2 * max_turns`. */
  lemma {:induction false} RunValid(m: Manager, ops: seq<Op>)
    requires Valid(m)
    ensures Valid(Run(m, ops))
    decreases |ops|
  {
    if |ops| > 0 {
      RunValid(Step(m, ops[0]), ops[1..]);
    }
  }
}

=== FILE: metadata_extractor.dfy ===
/** Table-driven metadata for a chunk: document type from the file name,
    entities (whole words), locations and production terms (substrings),
    the dialogue flag and the seven-key record that gathers them. */
module MetadataExtractor {
  import opened Wrappers
  import opened Seqs
  import opened Text
  import opened Values
  import opened MetadataFields

  /** The extractor's three tables, set up by its constructor. */
  datatype Extractor = Extractor(entities: seq<string>, locations: seq<string>, productionTerms: seq<string>)

  /** `MetadataExtractor()`: the studio tables. */
  const Default: Extractor := Extractor(
    [
      "Silverlight Studios", "Silverlight", "Studio",
      "Mystwood Academy", "Alexis Ravencroft", "Lord Shadowmere",
      "Maximum Velocity", "Michael Bay Jr", "Thomas Morrison"
    ],
    [
      "Silverlight Studios", "New York Street", "Western Town",
      "Silverlight Gulch", "Suburban Neighborhood", "Evergreen Heights",
      "Henderson House", "Golden Nugget Saloon", "Sheriff's Office",
      "Sound Stage", "Backlot", "Visitor Center"
    ],
    [
      "Production", "Filming", "Pre-production", "Post-production",
      "Director", "Producer", "Screenplay", "Script",
      "Visual Effects", "Practical Effects", "Stunt", "Choreography"
    ])

  // ---------------------------------------------------------------------------
  // Document type
  // ---------------------------------------------------------------------------

  /** The document-type rules in priority order: a label and the keywords
      that select it. */
  const TypeRules: seq<(string, seq<string>)> := [
    ("faq", ["faq"]), ("tour", ["tour"]), ("production", ["production"]),
    ("backlot", ["backlot"]), ("facilities", ["stage", "facilities"]),
    ("operations", ["operations"]), ("techniques", ["techniques"])
  ]

  predicate AnyIn(lower: string, keywords: seq<string>) {
    exists i :: 0 <= i < |keywords| && Contains(lower, keywords[i])
  }

  lemma AnyInOne(lower: string, k: string)
    ensures AnyIn(lower, [k]) <==> Contains(lower, k)
  {
    if Contains(lower, k) {
      assert [k][0] == k;
    }
  }

  lemma AnyInTwo(lower: string, k1: string, k2: string)
    ensures AnyIn(lower, [k1, k2]) <==> Contains(lower, k1) || Contains(lower, k2)
  {
    var ks := [k1, k2];
    assert ks[0] == k1 && ks[1] == k2;
    if AnyIn(lower, ks) {
      var i :| 0 <= i < 2 && Contains(lower, ks[i]);
      assert i == 0 || i == 1;
    }
  }

  /** The position of the first rule one of whose keywords occurs in `lower`. */
  function FirstRule(lower: string, rules: seq<(string, seq<string>)>): (r: Option<nat>)
    ensures r.None? <==> forall i :: 0 <= i < |rules| ==> !AnyIn(lower, rules[i].1)
    ensures r.Some? ==> (r.value < |rules| && AnyIn(lower, rules[r.value].1)
      && forall j :: 0 <= j < r.value ==> !AnyIn(lower, rules[j].1))
  {
    if |rules| == 0 then None
    else if AnyIn(lower, rules[0].1) then Some(0)
    else
      assert forall i :: 0 < i < |rules| ==> rules[i] == rules[1..][i - 1];
      match FirstRule(lower, rules[1..])
      case None => None
      case Some(i) => Some(i + 1)
  }

  /** The first rule is the one that matches with no earlier rule matching. */
  lemma FirstRuleIs(lower: string, rules: seq<(string, seq<string>)>, k: nat)
    requires k < |rules| && AnyIn(lower, rules[k].1)
    requires forall j :: 0 <= j < k ==> !AnyIn(lower, rules[j].1)
    ensures FirstRule(lower, rules) == Some(k)
  {
  }

  /** The label the rule table gives a lower-cased file name: the first
      matching rule's, or the empty string. */
  function Label(lower: string): string {
    match FirstRule(lower, TypeRules)
    case None => ""
    case Some(i) => TypeRules[i].0
  }

  /** `extract_document_type`: the label of the first rule one of whose
      keywords occurs in the lower-cased file name; `DocumentTypeChain`
      shows this is the source's if/elif chain. */
  function DocumentType(filename: string): (r: string)
    ensures r == "" || exists i :: 0 <= i < |TypeRules| && r == TypeRules[i].0
  {
    Label(LowerStr(filename))
  }

  /** The rule table and the source's if/elif chain agree. */
  lemma DocumentTypeChain(filename: string)
    ensures var lower := LowerStr(filename);
      DocumentType(filename) ==
      if Contains(lower, "faq") then "faq"
      else if Contains(lower, "tour") then "tour"
      else if Contains(lower, "production") then "production"
      else if Contains(lower, "backlot") then "backlot"
      else if Contains(lower, "stage") || Contains(lower, "facilities") then "facilities"
      else if Contains(lower, "operations") then "operations"
      else if Contains(lower, "techniques") then "techniques"
      else ""
  {
    var lower := LowerStr(filename);
    var rules := TypeRules;
    var hit := seq(7, i requires 0 <= i < 7 => AnyIn(lower, rules[i].1));
    assert hit[0] == Contains(lower, "faq") by { AnyInOne(lower, "faq"); }
    assert hit[1] == Contains(lower, "tour") by { AnyInOne(lower, "tour"); }
    assert hit[2] == Contains(lower, "production") by { AnyInOne(lower, "production"); }
    assert hit[3] == Contains(lower, "backlot") by { AnyInOne(lower, "backlot"); }
    assert hit[4] == (Contains(lower, "stage") || Contains(lower, "facilities")) by {
      AnyInTwo(lower, "stage", "facilities");
    }
    assert hit[5] == Contains(lower, "operations") by { AnyInOne(lower, "operations"); }
    assert hit[6] == Contains(lower, "techniques") by { AnyInOne(lower, "techniques"); }
    LabelOfHits(lower, hit);
  }

  /** The label in terms of which rules match. */
  lemma LabelOfHits(lower: string, hit: seq<bool>)
    requires |hit| == 7 && forall i :: 0 <= i < 7 ==> hit[i] == AnyIn(lower, TypeRules[i].1)
    ensures Label(lower) ==
      if hit[0] then "faq" else if hit[1] then "tour" else if hit[2] then "production"
      else if hit[3] then "backlot" else if hit[4] then "facilities" else if hit[5] then "operations"
      else if hit[6] then "techniques" else ""
  {
    var rules := TypeRules;
    var k := FirstTrue(hit);
    if k < 7 {
      FirstRuleIs(lower, rules, k);
    }
  }

  /** The position of the first `true`, or the length when there is none. */
  function FirstTrue(hit: seq<bool>): (k: nat)
    ensures k <= |hit| && (k < |hit| ==> hit[k]) && forall j :: 0 <= j < k ==> !hit[j]
  {
    if |hit| == 0 || hit[0] then 0 else 1 + FirstTrue(hit[1..])
  }

  /** No label of the table is empty, so the empty type means no keyword occurs. */
  lemma DocumentTypeEmpty(filename: string)
    ensures DocumentType(filename) == "" <==> forall i :: 0 <= i < |TypeRules| ==> !AnyIn(LowerStr(filename), TypeRules[i].1)
  {
    var rules := TypeRules;
    assert forall i :: 0 <= i < |rules| ==> rules[i].0 != "";
  }

  // ---------------------------------------------------------------------------
  // Table matches
  // ---------------------------------------------------------------------------

  /** Table entries whose lower-case form occurs in the lower-cased text,
      as `sorted(set(...))`. */
  function SubstringMatches(text: string, table: seq<string>): (r: seq<string>)
    ensures StrictlySorted(r)
    ensures forall y :: y in r <==> y in table && Contains(LowerStr(text), LowerStr(y))
  {
    SortedSet(Occurring(LowerStr(text), table))
  }

  /** Table entries matched as whole words in the lower-cased text, as
      `sorted(set(...))`. */
  function WordMatches(text: string, table: seq<string>): (r: seq<string>)
    ensures StrictlySorted(r)
    ensures forall y :: y in r <==> y in table && ContainsWord(LowerStr(text), LowerStr(y))
  {
    SortedSet(OccurringWords(LowerStr(text), table))
  }

  /** The entries whose lower-case form occurs in `lower`, in table order. */
  function Occurring(lower: string, table: seq<string>): (r: seq<string>)
    ensures forall y :: y in r <==> y in table && Contains(lower, LowerStr(y))
  {
    if |table| == 0 then []
    else (if Contains(lower, LowerStr(table[0])) then [table[0]] else []) + Occurring(lower, table[1..])
  }

  /** The entries whose lower-case form occurs as a whole word in `lower`. */
  function OccurringWords(lower: string, table: seq<string>): (r: seq<string>)
    ensures forall y :: y in r <==> y in table && ContainsWord(lower, LowerStr(y))
  {
    if |table| == 0 then []
    else (if ContainsWord(lower, LowerStr(table[0])) then [table[0]] else []) + OccurringWords(lower, table[1..])
  }

  /** `extract_locations`. */
  function Locate(x: Extractor, text: string): seq<string> {
    SubstringMatches(text, x.locations)
  }

  /** `extract_production_terms`. */
  function ProductionTermsIn(x: Extractor, text: string): seq<string> {
    SubstringMatches(text, x.productionTerms)
  }

  /** `extract_entities`: entries matched as whole words, ignoring case. */
  function EntitiesIn(x: Extractor, text: string): seq<string> {
    WordMatches(text, x.entities)
  }

  /** The substring matches are the only strictly sorted list with those
      members, so the set iteration order of the source does not show. */
  lemma SubstringMatchesUnique(text: string, table: seq<string>, s: seq<string>)
    requires StrictlySorted(s)
    requires forall y :: y in s <==> y in table && Contains(LowerStr(text), LowerStr(y))
    ensures s == SubstringMatches(text, table)
  {
    StrictlySortedUnique(s, SubstringMatches(text, table));
  }

  /** Likewise for the whole-word matches. */
  lemma WordMatchesUnique(text: string, table: seq<string>, s: seq<string>)
    requires StrictlySorted(s)
    requires forall y :: y in s <==> y in table && ContainsWord(LowerStr(text), LowerStr(y))
    ensures s == WordMatches(text, table)
  {
    StrictlySortedUnique(s, WordMatches(text, table));
  }

  // ---------------------------------------------------------------------------
  // Dialogue
  // ---------------------------------------------------------------------------

  /** `c in text` for a one-character string is character membership. */
  lemma ContainsChar(s: string, c: char)
    ensures Contains(s, [c]) <==> c in s
  {
    if c in s {
      var i :| 0 <= i < |s| && s[i] == c;
      assert OccursAt(s, i, [c]);
    }
    if Contains(s, [c]) {
      var i :| 0 <= i <= |s| - 1 && OccursAt(s, i, [c]);
      assert s[i] == s[i..i + 1][0] == c;
    }
  }

  /** `_has_dialogue` as written: the last two operands form one
      triple-quoted literal, so the third test looks for the text
      ` in text or ` and no curly quote is ever tested. */
  function HasDialogueAsWritten(text: string): (r: bool)
    ensures r <==> (exists i :: 0 <= i < |text| && text[i] in StraightQuotes) || Contains(text, " in text or ")
  {
    ContainsChar(text, '"');
    ContainsChar(text, '\'');
    Contains(text, "\"") || Contains(text, "'") || Contains(text, " in text or ")
  }

  /** The two quotation marks the code as written looks for. */
  const StraightQuotes: set<char> := {'"', '\''}

  /** The quotation marks that indicate dialogue: straight double and single
      quotes and the curly double quotes. */
  const QuoteChars: set<char> := {'"', '\'', '\U{201C}', '\U{201D}'}

  /** `_has_dialogue` as intended: one of the quotation marks occurs. */
  function HasDialogue(text: string): (r: bool)
    ensures r <==> exists i :: 0 <= i < |text| && text[i] in QuoteChars
  {
    ContainsChar(text, '"');
    ContainsChar(text, '\'');
    ContainsChar(text, '\U{201C}');
    ContainsChar(text, '\U{201D}');
    Contains(text, "\"") || Contains(text, "'") || Contains(text, "\U{201C}") || Contains(text, "\U{201D}")
  }

  /** Curly-quoted dialogue is missed by the code as written. */
  lemma AsWrittenMissesCurlyQuotes()
    ensures !HasDialogueAsWritten("\U{201C}Hi\U{201D}")
    ensures HasDialogue("\U{201C}Hi\U{201D}")
  {
    var s := "\U{201C}Hi\U{201D}";
    ContainsChar(s, '"');
    ContainsChar(s, '\'');
    assert s[0] in QuoteChars;
  }

  /** And a quote-free text holding the literal's words is flagged. */
  lemma AsWrittenFlagsPhrase()
    ensures HasDialogueAsWritten("x in text or y")
    ensures !HasDialogue("x in text or y")
  {
    assert OccursAt("x in text or y", 1, " in text or ");
  }

  // ---------------------------------------------------------------------------
  // extract_all_metadata
  // ---------------------------------------------------------------------------

  /** A list of strings as a list value. */
  function Strs(s: seq<string>): (r: seq<Value>)
    ensures |r| == |s|
  {
    if |s| == 0 then [] else [Str(s[0])] + Strs(s[1..])
  }

  /** `extract_all_metadata`. The chapter comes from regular expressions over
      the first 200 characters and is taken as an input. */
  function ExtractAll(x: Extractor, text: string, filename: string, chapter: string): (r: Record)
    ensures r.Keys == MetadataKeys
    ensures r["text_length"] == Int(|text|)
    ensures r["document_type"] == Str(DocumentType(filename))
    ensures r["chapter"] == Str(chapter)
    ensures r["has_dialogue"] == Bool(HasDialogueAsWritten(text))
    ensures r["entities"] == List(Strs(EntitiesIn(x, text)))
    ensures r["locations"] == List(Strs(Locate(x, text)))
    ensures r["production_terms"] == List(Strs(ProductionTermsIn(x, text)))
  {
    Fields(Str(DocumentType(filename)), Str(chapter), List(Strs(EntitiesIn(x, text))), List(Strs(Locate(x, text))),
      List(Strs(ProductionTermsIn(x, text))), Bool(HasDialogueAsWritten(text)), Int(|text|))
  }

  /** The dialogue flag of the record, as written: set exactly when a straight
      quote occurs or the text holds the words of the merged literal. */
  lemma ExtractAllDialogue(x: Extractor, text: string, filename: string, chapter: string)
    ensures var r := ExtractAll(x, text, filename, chapter);
      r["has_dialogue"].Bool?
      && (r["has_dialogue"].b <==> (exists i :: 0 <= i < |text| && text[i] in StraightQuotes) || Contains(text, " in text or "))
  {
    var d := HasDialogueAsWritten(text);
  }

  /** The record's locations are exactly the table's locations found in the text. */
  lemma ExtractAllLocations(x: Extractor, text: string, filename: string, chapter: string, y: string)
    ensures var r := ExtractAll(x, text, filename, chapter);
      r["locations"].List? && (Str(y) in r["locations"].items <==> y in x.locations && Contains(LowerStr(text), LowerStr(y)))
  {
    var l := Locate(x, text);
    StrsMember(l, y);
  }

  /** The record's production terms are exactly the table's terms found in the text. */
  lemma ExtractAllProductionTerms(x: Extractor, text: string, filename: string, chapter: string, y: string)
    ensures var r := ExtractAll(x, text, filename, chapter);
      r["production_terms"].List?
      && (Str(y) in r["production_terms"].items <==> y in x.productionTerms && Contains(LowerStr(text), LowerStr(y)))
  {
    var l := ProductionTermsIn(x, text);
    StrsMember(l, y);
  }

  /** The record's entities are exactly the table's entities found as whole words. */
  lemma ExtractAllEntities(x: Extractor, text: string, filename: string, chapter: string, y: string)
    ensures var r := ExtractAll(x, text, filename, chapter);
      r["entities"].List? && (Str(y) in r["entities"].items <==> y in x.entities && ContainsWord(LowerStr(text), LowerStr(y)))
  {
    var l := EntitiesIn(x, text);
    StrsMember(l, y);
  }

  lemma {:induction false} StrsMember(s: seq<string>, y: string)
    ensures Str(y) in Strs(s) <==> y in s
  {
    if |s| > 0 {
      StrsMember(s[1..], y);
      assert s == [s[0]] + s[1..];
    }
  }
}

/** The seven-key record `extract_all_metadata` builds. */
module MetadataFields {
  import opened Values

  const MetadataKeys: set<string> := {
    "document_type", "chapter", "entities", "locations", "production_terms", "has_dialogue", "text_length"
  }

  function Fields(docType: Value, chapter: Value, entities: Value, locations: Value, terms: Value,
                  dialogue: Value, length: Value): (r: Record)
    ensures r.Keys == MetadataKeys
    ensures r["document_type"] == docType && r["chapter"] == chapter && r["entities"] == entities
    ensures r["locations"] == locations && r["production_terms"] == terms
    ensures r["has_dialogue"] == dialogue && r["text_length"] == length
  {
    map[
      "document_type" := docType,
      "chapter" := chapter,
      "entities" := entities,
      "locations" := locations,
      "production_terms" := terms,
      "has_dialogue" := dialogue,
      "text_length" := length
    ]
  }
}

=== FILE: query_enhancer.dfy ===
/** Rule-based query rewriting: whole-word abbreviation substitution, one
    expansion per triggering term, and the `" OR "` join capped at three
    segments; plus the keyword extraction used for filtering. */
module QueryEnhancer {
  import opened Wrappers
  import opened Seqs
  import opened Text

  /** The abbreviation table, in dictionary order. */
  const Abbreviations: seq<(string, string)> := [
    ("ss", "silverlight studios"),
    ("studio", "silverlight studios"),
    ("faq", "frequently asked questions"),
    ("t&a", "tours and attractions")
  ]

  /** The expansion table, in dictionary order. */
  const Expansions: seq<(string, seq<string>)> := [
    ("tour", ["studio tour", "backlot tour", "production tour"]),
    ("production", ["film production", "movie production", "filming"]),
    ("backlot", ["backlot sets", "outdoor sets", "permanent sets"]),
    ("stage", ["sound stage", "soundstage", "production stage"])
  ]

  /** At most this many segments are joined. */
  const MaxSegments: nat := 3

  const Or: string := " OR "

  /** Every key of a table is a non-empty pattern. */
  predicate Patterns<V>(table: seq<(string, V)>) {
    forall i :: 0 <= i < |table| ==> |table[i].0| > 0
  }

  /** No key of the table occurs in `lower` as a whole word. */
  predicate NoneTriggered<V>(lower: string, table: seq<(string, V)>) {
    forall i :: 0 <= i < |table| ==> !ContainsWord(lower, table[i].0)
  }

  // ---------------------------------------------------------------------------
  // Abbreviations
  // ---------------------------------------------------------------------------

  /** One round of the abbreviation loop: when the abbreviation occurs as a
      whole word (ignoring case) every such occurrence is replaced. */
  function Abbreviate(q: string, abbr: string, full: string): (r: string)
    requires |abbr| > 0
    ensures !ContainsWord(LowerStr(q), abbr) ==> r == q
  {
    if ContainsWord(LowerStr(q), abbr) then ReplaceWord(q, abbr, full)
    else q
  }

  /** The abbreviation loop, table entries in order. */
  function AbbreviateAll(q: string, table: seq<(string, string)>): (r: string)
    requires Patterns(table)
    decreases |table|
  {
    if |table| == 0 then q
    else AbbreviateAll(Abbreviate(q, table[0].0, table[0].1), table[1..])
  }

  /** A query in which no abbreviation occurs as a whole word is left as it is. */
  lemma {:induction false} AbbreviateAllNoMatch(q: string, table: seq<(string, string)>)
    requires Patterns(table)
    requires NoneTriggered(LowerStr(q), table)
    ensures AbbreviateAll(q, table) == q
  {
    if |table| > 0 {
      AbbreviateAllNoMatch(q, table[1..]);
    }
  }

  /** The abbreviation loop over a longer table runs the shorter one first. */
  lemma {:induction false} AbbreviateAllAppend(q: string, t1: seq<(string, string)>, t2: seq<(string, string)>)
    requires Patterns(t1) && Patterns(t2)
    ensures Patterns(t1 + t2)
    ensures AbbreviateAll(q, t1 + t2) == AbbreviateAll(AbbreviateAll(q, t1), t2)
    decreases |t1|
  {
    if |t1| > 0 {
      assert (t1 + t2)[1..] == t1[1..] + t2;
      AbbreviateAllAppend(Abbreviate(q, t1[0].0, t1[0].1), t1[1..], t2);
    } else {
      assert t1 + t2 == t2;
    }
  }

  /** Substituting a word that does not occur changes nothing, whatever the
      replacement: the substitution is exactly the identity off the matches. */
  lemma ReplaceWordIdentity(q: string, abbr: string, full: string)
    requires |abbr| > 0 && !ContainsWord(q, abbr)
    ensures ReplaceWord(q, abbr, full) == q
  {
    ReplaceWordNoMatch(q, abbr, full);
  }

  /** When the abbreviation occurs once as a whole word (in any case), that
      occurrence is replaced by the full form and the rest of the query is kept. */
  lemma AbbreviateOnce(q: string, abbr: string, full: string, i: nat)
    requires |abbr| > 0 && WordAt(q, i, abbr)
    requires forall k :: 0 <= k < |q| && k != i ==> !WordAt(q, k, abbr)
    ensures Abbreviate(q, abbr, full) == q[..i] + full + q[i + |abbr|..]
  {
    WordAtLower(q, i, abbr);
    ReplaceWordOnce(q, abbr, full, i);
  }

  /** Whenever the abbreviation occurs, the first occurrence is the one the
      full form replaces, and the text before it is kept. */
  lemma AbbreviateFirst(q: string, abbr: string, full: string, i: nat)
    requires |abbr| > 0 && WordAt(q, i, abbr)
    requires forall k :: 0 <= k < i ==> !WordAt(q, k, abbr)
    ensures Abbreviate(q, abbr, full) == q[..i] + full + ReplaceWordFrom(q, abbr, full, i + |abbr|)
  {
    WordAtLower(q, i, abbr);
    ReplaceWordFirst(q, abbr, full, i);
  }

  // ---------------------------------------------------------------------------
  // Expansions
  // ---------------------------------------------------------------------------

  /** The first expansion whose lower-case form is not already a substring of
      the lower-cased query. */
  function FirstAbsent(lower: string, exps: seq<string>): (r: Option<string>)
    ensures r.Some? ==> exists i :: (0 <= i < |exps| && exps[i] == r.value
      && !Contains(lower, LowerStr(exps[i]))
      && forall j :: 0 <= j < i ==> Contains(lower, LowerStr(exps[j])))
    ensures r.None? <==> forall j :: 0 <= j < |exps| ==> Contains(lower, LowerStr(exps[j]))
  {
    if |exps| == 0 then None
    else if !Contains(lower, LowerStr(exps[0])) then Some(exps[0])
    else
      var r := FirstAbsent(lower, exps[1..]);
      if r.Some? then
        var i :| 0 <= i < |exps[1..]| && exps[1..][i] == r.value
          && !Contains(lower, LowerStr(exps[1..][i]))
          && forall j :: 0 <= j < i ==> Contains(lower, LowerStr(exps[1..][j]));
        assert exps[i + 1] == r.value;
        r
      else r
  }

  /** The expansion a table entry contributes: nothing unless the term occurs
      as a whole word, then the first absent expansion if there is one. */
  function ExpansionOf(lower: string, term: string, exps: seq<string>): (r: seq<string>)
    ensures |r| <= 1
    ensures |r| == 1 <==> ContainsWord(lower, term) && FirstAbsent(lower, exps).Some?
    ensures |r| == 1 ==> r[0] == FirstAbsent(lower, exps).value
  {
    if ContainsWord(lower, term) then
      match FirstAbsent(lower, exps)
      case Some(e) => [e]
      case None => []
    else []
  }

  /** The expansion loop: entries in table order, one expansion at most each. */
  function ExpansionParts(lower: string, table: seq<(string, seq<string>)>): (r: seq<string>)
    ensures |r| <= |table|
  {
    if |table| == 0 then []
    else ExpansionOf(lower, table[0].0, table[0].1) + ExpansionParts(lower, table[1..])
  }

  /** Each expansion comes from a triggering entry, is absent from the query,
      and is that entry's first absent expansion. */
  lemma {:induction false} ExpansionPartsSound(lower: string, table: seq<(string, seq<string>)>, p: nat)
    requires p < |ExpansionParts(lower, table)|
    ensures exists t :: (0 <= t < |table| && ContainsWord(lower, table[t].0)
      && FirstAbsent(lower, table[t].1) == Some(ExpansionParts(lower, table)[p]))
  {
    var head := ExpansionOf(lower, table[0].0, table[0].1);
    if p >= |head| {
      ExpansionPartsSound(lower, table[1..], p - |head|);
      var t :| 0 <= t < |table[1..]| && ContainsWord(lower, table[1..][t].0)
        && FirstAbsent(lower, table[1..][t].1) == Some(ExpansionParts(lower, table[1..])[p - |head|]);
      assert table[t + 1] == table[1..][t];
    }
  }

  /** No triggering term, no expansion. */
  lemma {:induction false} ExpansionPartsNone(lower: string, table: seq<(string, seq<string>)>)
    requires NoneTriggered(lower, table)
    ensures ExpansionParts(lower, table) == []
  {
    if |table| > 0 {
      ExpansionPartsNone(lower, table[1..]);
    }
  }

  /** Expansions follow table order: a longer table appends its entries' expansions. */
  lemma {:induction false} ExpansionPartsAppend(lower: string, t1: seq<(string, seq<string>)>, t2: seq<(string, seq<string>)>)
    ensures ExpansionParts(lower, t1 + t2) == ExpansionParts(lower, t1) + ExpansionParts(lower, t2)
  {
    if |t1| > 0 {
      assert (t1 + t2)[0] == t1[0];
      assert (t1 + t2)[1..] == t1[1..] + t2;
      ExpansionPartsAppend(lower, t1[1..], t2);
    } else {
      assert t1 + t2 == t2;
    }
  }

  // ---------------------------------------------------------------------------
  // enhance_query
  // ---------------------------------------------------------------------------

  /** The segments `enhance_query` joins: the rewritten query, then its
      expansions, cut to three. */
  function Segments(q: string): (parts: seq<string>)
    ensures 1 <= |parts| <= MaxSegments
    ensures parts[0] == AbbreviateAll(q, Abbreviations)
    ensures var exps := ExpansionParts(LowerStr(parts[0]), Expansions);
      |parts| == (if 1 + |exps| < MaxSegments then 1 + |exps| else MaxSegments)
      && forall p :: 0 < p < |parts| ==> parts[p] == exps[p - 1]
  {
    var m := AbbreviateAll(q, Abbreviations);
    var exps := ExpansionParts(LowerStr(m), Expansions);
    TakeCons(m, exps, MaxSegments);
    PyTake([m] + exps, MaxSegments)
  }

  /** The first `n` elements of `[x] + s`: `x`, then the head of `s`. */
  lemma TakeCons<T>(x: T, s: seq<T>, n: nat)
    requires n >= 1
    ensures var t := PyTake([x] + s, n);
      |t| == (if 1 + |s| < n then 1 + |s| else n) && t[0] == x
      && forall p :: 0 < p < |t| ==> t[p] == s[p - 1]
  {
    PyTakeNonNegative([x] + s, n);
  }

  /** `enhance_query`. */
  function EnhanceQuery(q: string): (r: string)
    ensures var m := AbbreviateAll(q, Abbreviations);
      |m| <= |r| && r[..|m|] == m
    ensures var parts := Segments(q);
      (|parts| == 1 ==> r == parts[0])
      && (|parts| > 1 ==> r == parts[0] + Or + Join(parts[1..], Or))
  {
    JoinStartsWithFirst(Segments(q), Or);
    Join(Segments(q), Or)
  }

  /** A query with no abbreviation and no triggering term comes back unchanged. */
  lemma EnhanceQueryNoMatch(q: string)
    requires NoneTriggered(LowerStr(q), Abbreviations) && NoneTriggered(LowerStr(q), Expansions)
    ensures EnhanceQuery(q) == q
  {
    AbbreviateAllNoMatch(q, Abbreviations);
    ExpansionPartsNone(LowerStr(q), Expansions);
    var parts := [q] + ExpansionParts(LowerStr(q), Expansions);
    assert parts == [q];
    assert Segments(q) == PyTake(parts, MaxSegments);
  }

  // ---------------------------------------------------------------------------
  // get_query_keywords
  // ---------------------------------------------------------------------------

  const StudioTerms: seq<string> := [
    "silverlight studios", "studio tour", "backlot", "sound stage",
    "production", "filming", "mystwood academy", "maximum velocity"
  ]

  const TourTerms: seq<string> := [
    "tour", "visitor", "backlot", "stage", "production", "facilities"
  ]

  /** The second loop: each term found in the query and not yet listed is appended. */
  function AddNew(acc: seq<string>, terms: seq<string>, lower: string): (r: seq<string>)
    ensures |acc| <= |r| && r[..|acc|] == acc
    ensures NoDup(acc) ==> NoDup(r)
    ensures forall i :: |acc| <= i < |r| ==> r[i] in terms && Contains(lower, r[i])
    ensures forall t :: t in terms && Contains(lower, t) ==> t in r
    decreases |terms|
  {
    if |terms| == 0 then acc
    else
      var next := if Contains(lower, terms[0]) && terms[0] !in acc then acc + [terms[0]] else acc;
      var r := AddNew(next, terms[1..], lower);
      PrefixChain(acc, next, r);
      r
  }

  /** A prefix of a prefix is a prefix, and a prefix's elements are kept. */
  lemma PrefixChain<T>(a: seq<T>, b: seq<T>, c: seq<T>)
    requires |a| <= |b| && b[..|a|] == a
    requires |b| <= |c| && c[..|b|] == b
    ensures |a| <= |c| && c[..|a|] == a
    ensures forall x :: x in b ==> x in c
  {
    assert c[..|a|] == c[..|b|][..|a|];
    forall x | x in b
      ensures x in c
    {
      var i :| 0 <= i < |b| && b[i] == x;
      assert c[..|b|][i] == c[i];
    }
  }

  /** The studio terms found in the lower-cased query, in list order. */
  function StudioMatches(lower: string): (r: seq<string>)
    ensures NoDup(r)
    ensures forall i :: 0 <= i < |r| ==> r[i] in StudioTerms && Contains(lower, r[i])
    ensures forall t :: t in StudioTerms && Contains(lower, t) ==> t in r
  {
    StudioTermsDistinct();
    Matching(lower, StudioTerms)
  }

  lemma StudioTermsDistinct()
    ensures NoDup(StudioTerms)
  {
  }

  /** The terms found in `lower`, in list order. */
  function Matching(lower: string, terms: seq<string>): (r: seq<string>)
    ensures forall i :: 0 <= i < |r| ==> r[i] in terms && Contains(lower, r[i])
    ensures forall t :: t in terms && Contains(lower, t) ==> t in r
    ensures NoDup(terms) ==> NoDup(r)
  {
    if |terms| == 0 then []
    else
      var rest := Matching(lower, terms[1..]);
      if Contains(lower, terms[0]) then
        assert NoDup(terms) ==> terms[0] !in terms[1..];
        [terms[0]] + rest
      else rest
  }

  /** `get_query_keywords`: studio terms found in the lower-cased query, then
      tour terms found and not yet listed. */
  function Keywords(q: string): (r: seq<string>)
    ensures NoDup(r)
    ensures forall i :: 0 <= i < |r| ==> (r[i] in StudioTerms || r[i] in TourTerms) && Contains(LowerStr(q), r[i])
    ensures forall t :: (t in StudioTerms || t in TourTerms) && Contains(LowerStr(q), t) ==> t in r
    ensures var studio := StudioMatches(LowerStr(q)); |studio| <= |r| && r[..|studio|] == studio
  {
    var lower := LowerStr(q);
    var studio := StudioMatches(lower);
    var r := AddNew(studio, TourTerms, lower);
    KeywordsFromParts(lower, StudioTerms, TourTerms, studio, r);
    r
  }

  /** The keyword list collects the matches of both term lists: the first
      list's matches are its prefix, the second's follow. */
  lemma KeywordsFromParts(lower: string, first: seq<string>, second: seq<string>, studio: seq<string>, r: seq<string>)
    requires forall i :: 0 <= i < |studio| ==> studio[i] in first && Contains(lower, studio[i])
    requires forall t :: t in first && Contains(lower, t) ==> t in studio
    requires |studio| <= |r| && r[..|studio|] == studio
    requires forall i :: |studio| <= i < |r| ==> r[i] in second && Contains(lower, r[i])
    requires forall t :: t in second && Contains(lower, t) ==> t in r
    ensures forall i :: 0 <= i < |r| ==> (r[i] in first || r[i] in second) && Contains(lower, r[i])
    ensures forall t :: (t in first || t in second) && Contains(lower, t) ==> t in r
  {
    forall i | 0 <= i < |studio|
      ensures r[i] == studio[i]
    {
      assert r[..|studio|][i] == r[i];
    }
    forall t | t in first && Contains(lower, t)
      ensures t in r
    {
      var i :| 0 <= i < |studio| && studio[i] == t;
      assert r[i] == t;
    }
  }
}

=== FILE: retriever.dfy ===
/** The retrieval pipeline around fusion: turning BM25 hits into sparse
    candidates, the post-fusion similarity threshold, cross-encoder
    re-sorting, top-N truncation and the rendering of retrieved chunks as
    LLM context. The vector store, the BM25 library and the cross-encoder
    are outside the model: their answers are inputs or function parameters. */
module Retriever {
  import opened Wrappers
  import opened Seqs
  import opened Text
  import opened Values
  import opened Candidates
  import opened Fusion
  import opened SparseIndex

  // ---------------------------------------------------------------------------
  // Sparse candidates
  // ---------------------------------------------------------------------------

  /** A reconstructed BM25 document with a string `text`. */
  predicate HasText(doc: Record) {
    "text" in doc && doc["text"].Str?
  }

  /** The candidate for one BM25 hit and its document: id `doc_id` (else the
      index as a string), the document's text, the remaining fields as
      metadata, the BM25 score, tagged `sparse`. */
  function SparseCandidate(hit: Hit, doc: Record): (c: Candidate)
    requires HasText(doc)
    ensures c.origin == Sparse && c.bm25 == Some(hit.1)
    ensures c.similarity.None? && c.distance.None? && c.fusion.None? && c.rerank.None?
    ensures c.text == doc["text"].s
    ensures "text" !in c.metadata && "doc_id" !in c.metadata
    ensures forall k :: k in doc && k != "text" && k != "doc_id" ==> k in c.metadata && c.metadata[k] == doc[k]
  {
    Candidate(GetOr(doc, "doc_id", Str(IntToDecimal(hit.0))), doc["text"].s, doc - {"text", "doc_id"},
              None, None, Some(hit.1), None, None, Sparse)
  }

  /** `zip(bm25_results, bm25_docs)`: pairs up to the shorter list. */
  function SparseCandidates(hits: seq<Hit>, docs: seq<Record>): (cs: seq<Candidate>)
    requires forall p :: 0 <= p < |docs| ==> HasText(docs[p])
    ensures |cs| == if |hits| < |docs| then |hits| else |docs|
    ensures forall p :: 0 <= p < |cs| ==> cs[p] == SparseCandidate(hits[p], docs[p])
  {
    if |hits| == 0 || |docs| == 0 then []
    else
      var rest := SparseCandidates(hits[1..], docs[1..]);
      var cs := [SparseCandidate(hits[0], docs[0])] + rest;
      assert forall p :: 1 <= p < |cs| ==> cs[p] == rest[p - 1];
      cs
  }

  /** The index keeps chunk text out of the stored metadata. */
  predicate Wellformed(ix: Index) {
    Parallel(ix) && forall i :: 0 <= i < |ix.metadata| ==> "text" !in ix.metadata[i]
  }

  lemma BuildWellformed(ix: Index, chunks: seq<Record>)
    requires forall i :: 0 <= i < |chunks| ==> HasTextField(chunks[i])
    requires Build(ix, chunks).Ok?
    ensures Wellformed(Build(ix, chunks).value)
  {
  }

  /** The documents of a well-formed index carry their joined tokens as text. */
  lemma DocumentsHaveText(ix: Index, indices: seq<int>)
    requires Wellformed(ix)
    ensures forall p :: 0 <= p < |GetDocumentsByIndices(ix, indices)| ==> HasText(GetDocumentsByIndices(ix, indices)[p])
  {
  }

  /** The sparse leg of `_hybrid_retrieve`: BM25 search, document lookup,
      candidate construction. */
  function SparseLeg(ix: Index, query: string, topK: int,
                     scorer: (Corpus, seq<string>) -> seq<real>, order: seq<int>): (cs: seq<Candidate>)
    requires Wellformed(ix)
    requires ix.model.Some? ==> DescendingOrder(order, scorer(ix.model.value, Tokenize(query)))
    ensures forall p :: 0 <= p < |cs| ==> cs[p].origin == Sparse && cs[p].similarity.None? && cs[p].bm25.Some?
  {
    var hits := Search(ix, query, topK, scorer, order);
    var docs := GetDocumentsByIndices(ix, Indices(hits));
    DocumentsHaveText(ix, Indices(hits));
    SparseCandidates(hits, docs)
  }

  /** Against a consistent index every hit finds its document, so the `zip`
      pairs each hit with its own document. */
  lemma SparseLegAligned(ix: Index, query: string, topK: int,
                         scorer: (Corpus, seq<string>) -> seq<real>, order: seq<int>)
    requires Wellformed(ix) && Consistent(ix) && ix.model.Some?
    requires DescendingOrder(order, scorer(ix.model.value, Tokenize(query)))
    requires |scorer(ix.model.value, Tokenize(query))| == |ix.model.value|
    ensures var hits := Search(ix, query, topK, scorer, order);
      var cs := SparseLeg(ix, query, topK, scorer, order);
      |cs| == |hits|
      && (forall p :: 0 <= p < |cs| ==>
            cs[p].bm25 == Some(hits[p].1) && cs[p].text == Join(ix.documents[hits[p].0], " "))
  {
    var hits := Search(ix, query, topK, scorer, order);
    var ks := Indices(hits);
    SearchInRange(ix, query, topK, scorer, order);
    GetDocumentsAllInRange(ix, ks);
    var docs := GetDocumentsByIndices(ix, ks);
    forall p | 0 <= p < |hits|
      ensures docs[p]["text"] == Str(Join(ix.documents[hits[p].0], " "))
    {
      assert docs[p] == Document(ix, hits[p].0);
    }
  }

  // ---------------------------------------------------------------------------
  // The post-fusion threshold
  // ---------------------------------------------------------------------------

  /** The test of `_hybrid_retrieve` as written: similarity (`0` when absent)
      at least the threshold, or tagged `sparse`. */
  predicate KeepAsWritten(c: Candidate, threshold: real) {
    c.similarity.GetOr(0.0) >= threshold || c.origin == Sparse
  }

  /** The post-fusion filter as written: applied only for a positive threshold. */
  function PostFusionFilterAsWritten(cs: seq<Candidate>, threshold: real): (r: seq<Candidate>)
    ensures threshold <= 0.0 ==> r == cs
    ensures threshold > 0.0 ==> forall p :: 0 <= p < |r| ==> KeepAsWritten(r[p], threshold)
    ensures threshold > 0.0 ==> forall p :: 0 <= p < |cs| && KeepAsWritten(cs[p], threshold) ==> cs[p] in r
    ensures forall p :: 0 <= p < |r| ==> r[p] in cs
    ensures IsSubseq(r, cs)
  {
    if threshold > 0.0 then Filter(cs, c => KeepAsWritten(c, threshold))
    else SubseqRefl(cs); cs
  }

  /** The exemption never fires: fusion tags every record `hybrid`, so with a
      positive threshold each survivor has a similarity of at least the threshold. */
  lemma AsWrittenNeedsSimilarity(dense: seq<Candidate>, sparse: seq<Candidate>, alpha: real, threshold: real)
    requires threshold > 0.0
    ensures var r := PostFusionFilterAsWritten(Fuse(dense, sparse, alpha), threshold);
      forall p :: 0 <= p < |r| ==> r[p].similarity.Some? && r[p].similarity.value >= threshold
  {
    var f := Fuse(dense, sparse, alpha);
    var r := PostFusionFilterAsWritten(f, threshold);
    forall p | 0 <= p < |r|
      ensures r[p].similarity.Some? && r[p].similarity.value >= threshold
    {
      assert r[p] in f;
      var i :| 0 <= i < |f| && f[i] == r[p];
      FuseRecord(dense, sparse, alpha, i);
    }
  }

  /** A keyword-only hit: one sparse candidate and no dense ones, with a
      positive threshold, leaves nothing. */
  lemma AsWrittenDropsSparseOnly(c: Candidate, alpha: real, threshold: real)
    requires c.origin == Sparse && c.similarity.None?
    requires threshold > 0.0
    ensures |Fuse([], [c], alpha)| == 1
    ensures PostFusionFilterAsWritten(Fuse([], [c], alpha), threshold) == []
  {
    var f := Fuse([], [c], alpha);
    var k := FusionKey(c.text);
    assert AllKeys([], [c]) == [k];
    assert Dedup([k]) == [k] by {
      assert [k][..0] == [];
    }
    FuseLength([], [c], alpha);
    FuseRecord([], [c], alpha, 0);
    FuseSimilarity([], [c], alpha, 0);
    assert First([], [c], k) == c;
    assert !KeepAsWritten(f[0], threshold);
    assert f == [f[0]];
  }

  /** The evidently intended test: the threshold applies only to records that
      have a similarity. */
  predicate KeepIntended(c: Candidate, threshold: real) {
    c.similarity.None? || c.similarity.value >= threshold
  }

  /** The post-fusion filter with the exemption working as its comment says. */
  function PostFusionFilter(cs: seq<Candidate>, threshold: real): (r: seq<Candidate>)
    ensures threshold <= 0.0 ==> r == cs
    ensures threshold > 0.0 ==> forall p :: 0 <= p < |r| ==> KeepIntended(r[p], threshold)
    ensures threshold > 0.0 ==> forall p :: 0 <= p < |cs| && KeepIntended(cs[p], threshold) ==> cs[p] in r
    ensures forall p :: 0 <= p < |r| ==> r[p] in cs
    ensures IsSubseq(r, cs)
  {
    if threshold > 0.0 then Filter(cs, c => KeepIntended(c, threshold))
    else SubseqRefl(cs); cs
  }

  /** A key missing from the dense list is first carried by a sparse candidate. */
  lemma FirstOfSparseOnly(dense: seq<Candidate>, sparse: seq<Candidate>, k: string) returns (m: nat)
    requires k in AllKeys(dense, sparse) && !InDense(dense, k)
    ensures m < |sparse| && First(dense, sparse, k) == sparse[m]
  {
    var ks := AllKeys(dense, sparse);
    var n := FirstIndex(ks, k);
    assert forall q :: 0 <= q < |dense| ==> ks[q] != k;
    m := n - |dense|;
  }

  /** Every key has its fused record. */
  lemma FusedIndexOf(dense: seq<Candidate>, sparse: seq<Candidate>, alpha: real, k: string) returns (i: nat)
    requires k in AllKeys(dense, sparse)
    ensures i < |Fuse(dense, sparse, alpha)| && FusionKey(Fuse(dense, sparse, alpha)[i].text) == k
  {
    var f := Fuse(dense, sparse, alpha);
    var ks := AllKeys(dense, sparse);
    FuseKeys(dense, sparse, alpha);
    var q :| 0 <= q < |ks| && ks[q] == k;
    i :| 0 <= i < |f| && FusionKey(f[i].text) == ks[q];
  }

  /** The fused record of a key that only the sparse list brought has no similarity. */
  lemma SparseOnlyRecord(dense: seq<Candidate>, sparse: seq<Candidate>, alpha: real, j: nat) returns (i: nat)
    requires forall m :: 0 <= m < |dense| ==> dense[m].similarity.Some?
    requires forall m :: 0 <= m < |sparse| ==> sparse[m].similarity.None?
    requires j < |sparse| && !InDense(dense, FusionKey(sparse[j].text))
    ensures i < |Fuse(dense, sparse, alpha)|
    ensures FusionKey(Fuse(dense, sparse, alpha)[i].text) == FusionKey(sparse[j].text)
    ensures Fuse(dense, sparse, alpha)[i].similarity.None?
  {
    var k := FusionKey(sparse[j].text);
    assert k in AllKeys(dense, sparse) by {
      assert AllKeys(dense, sparse)[|dense| + j] == k;
    }
    i := FusedIndexOf(dense, sparse, alpha, k);
    var m := FirstOfSparseOnly(dense, sparse, k);
    FuseSimilarity(dense, sparse, alpha, i);
  }

  /** With the intended filter, a key that only the sparse list brought always
      survives. */
  lemma IntendedKeepsSparseOnly(dense: seq<Candidate>, sparse: seq<Candidate>, alpha: real, threshold: real, j: nat)
    requires forall i :: 0 <= i < |dense| ==> dense[i].similarity.Some?
    requires forall i :: 0 <= i < |sparse| ==> sparse[i].similarity.None?
    requires j < |sparse| && !InDense(dense, FusionKey(sparse[j].text))
    ensures exists p :: (0 <= p < |PostFusionFilter(Fuse(dense, sparse, alpha), threshold)|
      && FusionKey(PostFusionFilter(Fuse(dense, sparse, alpha), threshold)[p].text) == FusionKey(sparse[j].text))
  {
    var f := Fuse(dense, sparse, alpha);
    var i := SparseOnlyRecord(dense, sparse, alpha, j);
    var r := PostFusionFilter(f, threshold);
    assert f[i] in r;
    var p :| 0 <= p < |r| && r[p] == f[i];
  }

  /** Survivors of the intended filter with a similarity clear the threshold;
      records dropped had a similarity below it. */
  lemma IntendedFilterExact(cs: seq<Candidate>, threshold: real, c: Candidate)
    requires threshold > 0.0 && c in cs
    ensures c in PostFusionFilter(cs, threshold) <==> c.similarity.None? || c.similarity.value >= threshold
  {
    var r := PostFusionFilter(cs, threshold);
    var i :| 0 <= i < |cs| && cs[i] == c;
    if c in r {
      var p :| 0 <= p < |r| && r[p] == c;
    }
  }

  // ---------------------------------------------------------------------------
  // Reranking
  // ---------------------------------------------------------------------------

  /** The cross-encoder: a score per (query, text) pair. */
  type Predictor = seq<(string, string)> -> seq<real>

  function Pairs(query: string, cs: seq<Candidate>): (ps: seq<(string, string)>)
    ensures |ps| == |cs|
    ensures forall i :: 0 <= i < |cs| ==> ps[i] == (query, cs[i].text)
  {
    seq(|cs|, i requires 0 <= i < |cs| => (query, cs[i].text))
  }

  /** Each candidate with its `rerank_score` set from the matching score. */
  function WithRerank(cs: seq<Candidate>, scores: seq<real>): (r: seq<Candidate>)
    requires |scores| >= |cs|
    ensures |r| == |cs|
    ensures forall i :: 0 <= i < |cs| ==> r[i] == cs[i].(rerank := Some(scores[i]))
  {
    seq(|cs|, i requires 0 <= i < |cs| => cs[i].(rerank := Some(scores[i])))
  }

  function RerankKey(c: Candidate): real {
    c.rerank.GetOr(0.0)
  }

  /** `_rerank`. Empty input comes back as it is. Otherwise every candidate
      gets the score of its pair and the list is stably sorted by it, highest
      first. Fewer scores than candidates leaves some candidate without a
      `rerank_score`, and the sort fails on it. */
  function Rerank(query: string, cs: seq<Candidate>, predict: Predictor): (r: Result<seq<Candidate>, string>)
    ensures |cs| == 0 ==> r == Ok(cs)
    ensures r.Ok? <==> |cs| == 0 || |predict(Pairs(query, cs))| >= |cs|
    ensures r.Ok? ==> |r.value| == |cs| && forall i :: 0 <= i < |r.value| ==> r.value[i].rerank.Some?
  {
    if |cs| == 0 then Ok(cs)
    else
      var scores := predict(Pairs(query, cs));
      if |scores| < |cs| then Err("KeyError: 'rerank_score'")
      else
        var scored := WithRerank(cs, scores);
        SortDescCorrect(scored, RerankKey);
        var r := SortDesc(scored, RerankKey);
        forall i | 0 <= i < |r|
          ensures r[i].rerank.Some?
        {
          assert r[i] in multiset(scored);
        }
        Ok(r)
  }

  /** The reranked list is a permutation of the scored candidates, sorted by
      `rerank_score` highest first, with equal scores in their prior order;
      each entry is an input candidate carrying the score of its own pair. */
  lemma RerankCorrect(query: string, cs: seq<Candidate>, predict: Predictor)
    requires |cs| > 0 && |predict(Pairs(query, cs))| >= |cs|
    ensures var scores := predict(Pairs(query, cs));
      var r := Rerank(query, cs, predict).value;
      multiset(r) == multiset(WithRerank(cs, scores))
      && SortedDesc(r, RerankKey)
      && (forall v :: WithKey(r, RerankKey, v) == WithKey(WithRerank(cs, scores), RerankKey, v))
      && (forall p :: 0 <= p < |r| ==> exists i :: 0 <= i < |cs| && r[p] == cs[i].(rerank := Some(scores[i])))
  {
    var scores := predict(Pairs(query, cs));
    var scored := WithRerank(cs, scores);
    var r := Rerank(query, cs, predict).value;
    SortDescCorrect(scored, RerankKey);
    forall p | 0 <= p < |r|
      ensures exists i :: 0 <= i < |cs| && r[p] == cs[i].(rerank := Some(scores[i]))
    {
      assert r[p] in multiset(scored);
      var i :| 0 <= i < |scored| && scored[i] == r[p];
    }
  }

  /** Reranking a list the cross-encoder already scores in descending order
      only attaches the scores. */
  lemma RerankSortedInput(query: string, cs: seq<Candidate>, predict: Predictor)
    requires |cs| > 0 && |predict(Pairs(query, cs))| >= |cs|
    requires forall i, j :: 0 <= i < j < |cs| ==> predict(Pairs(query, cs))[i] >= predict(Pairs(query, cs))[j]
    ensures Rerank(query, cs, predict) == Ok(WithRerank(cs, predict(Pairs(query, cs))))
  {
    var scored := WithRerank(cs, predict(Pairs(query, cs)));
    SortDescOfSorted(scored, RerankKey);
  }

  // ---------------------------------------------------------------------------
  // The pipeline
  // ---------------------------------------------------------------------------

  /** `_hybrid_retrieve` as written: the dense leg without a threshold, the
      sparse leg, fusion, then the post-fusion threshold. Every fused record is
      tagged `hybrid`, so with a positive threshold only records carrying a
      similarity that reaches it come through. */
  function HybridRetrieve(hits: seq<DenseHit>, ix: Index, query: string, topK: int, threshold: real, alpha: real,
                          scorer: (Corpus, seq<string>) -> seq<real>, order: seq<int>): (r: seq<Candidate>)
    requires Wellformed(ix)
    requires ix.model.Some? ==> DescendingOrder(order, scorer(ix.model.value, Tokenize(query)))
    ensures forall p :: 0 <= p < |r| ==> r[p].origin == Hybrid && r[p].fusion.Some?
    ensures threshold > 0.0 ==> forall p :: 0 <= p < |r| ==> r[p].similarity.Some? && r[p].similarity.value >= threshold
    ensures threshold <= 0.0 ==> r == Fuse(DenseRetrieve(hits, 0.0), SparseLeg(ix, query, topK, scorer, order), alpha)
    ensures var fused := Fuse(DenseRetrieve(hits, 0.0), SparseLeg(ix, query, topK, scorer, order), alpha);
      threshold > 0.0 ==> forall p :: 0 <= p < |fused| && KeepAsWritten(fused[p], threshold) ==> fused[p] in r
  {
    var dense := DenseRetrieve(hits, 0.0);
    var sparse := SparseLeg(ix, query, topK, scorer, order);
    AsWrittenAfterFusion(dense, sparse, alpha, threshold);
    PostFusionFilterAsWritten(Fuse(dense, sparse, alpha), threshold)
  }

  /** What the written filter leaves of a fusion: tagged records, each with a
      similarity reaching a positive threshold, and all the fused records
      that pass the test. */
  lemma AsWrittenAfterFusion(dense: seq<Candidate>, sparse: seq<Candidate>, alpha: real, threshold: real)
    ensures var f := Fuse(dense, sparse, alpha);
      var r := PostFusionFilterAsWritten(f, threshold);
      && (forall p :: 0 <= p < |r| ==> r[p].origin == Hybrid && r[p].fusion.Some?)
      && (threshold > 0.0 ==> forall p :: 0 <= p < |r| ==> r[p].similarity.Some? && r[p].similarity.value >= threshold)
      && (threshold <= 0.0 ==> r == f)
      && (threshold > 0.0 ==> forall p :: 0 <= p < |f| && KeepAsWritten(f[p], threshold) ==> f[p] in r)
  {
    FuseTagged(dense, sparse, alpha);
    if threshold > 0.0 {
      AsWrittenNeedsSimilarity(dense, sparse, alpha, threshold);
    }
  }

  /** `_hybrid_retrieve` with the threshold exemption for BM25-only documents
      working as the comment beside it intends. */
  function HybridRetrieveIntended(hits: seq<DenseHit>, ix: Index, query: string, topK: int, threshold: real, alpha: real,
                                  scorer: (Corpus, seq<string>) -> seq<real>, order: seq<int>): (r: seq<Candidate>)
    requires Wellformed(ix)
    requires ix.model.Some? ==> DescendingOrder(order, scorer(ix.model.value, Tokenize(query)))
    ensures forall p :: 0 <= p < |r| ==> r[p].origin == Hybrid && r[p].fusion.Some?
    ensures threshold > 0.0 ==> forall p :: 0 <= p < |r| ==> KeepIntended(r[p], threshold)
    ensures threshold <= 0.0 ==> r == Fuse(DenseRetrieve(hits, 0.0), SparseLeg(ix, query, topK, scorer, order), alpha)
    ensures var fused := Fuse(DenseRetrieve(hits, 0.0), SparseLeg(ix, query, topK, scorer, order), alpha);
      threshold > 0.0 ==> forall p :: 0 <= p < |fused| && KeepIntended(fused[p], threshold) ==> fused[p] in r
  {
    var dense := DenseRetrieve(hits, 0.0);
    var sparse := SparseLeg(ix, query, topK, scorer, order);
    var fused := Fuse(dense, sparse, alpha);
    FuseTagged(dense, sparse, alpha);
    PostFusionFilter(fused, threshold)
  }

  /** The pipeline keeps the fused records in fusion order. */
  lemma HybridRetrieveOrder(hits: seq<DenseHit>, ix: Index, query: string, topK: int, threshold: real, alpha: real,
                            scorer: (Corpus, seq<string>) -> seq<real>, order: seq<int>)
    requires Wellformed(ix)
    requires ix.model.Some? ==> DescendingOrder(order, scorer(ix.model.value, Tokenize(query)))
    ensures IsSubseq(HybridRetrieve(hits, ix, query, topK, threshold, alpha, scorer, order),
                     Fuse(DenseRetrieve(hits, 0.0), SparseLeg(ix, query, topK, scorer, order), alpha))
  {
    var fused := Fuse(DenseRetrieve(hits, 0.0), SparseLeg(ix, query, topK, scorer, order), alpha);
    assert HybridRetrieve(hits, ix, query, topK, threshold, alpha, scorer, order) == PostFusionFilterAsWritten(fused, threshold);
  }

  /** So does the intended pipeline. */
  lemma HybridRetrieveIntendedOrder(hits: seq<DenseHit>, ix: Index, query: string, topK: int, threshold: real, alpha: real,
                                    scorer: (Corpus, seq<string>) -> seq<real>, order: seq<int>)
    requires Wellformed(ix)
    requires ix.model.Some? ==> DescendingOrder(order, scorer(ix.model.value, Tokenize(query)))
    ensures IsSubseq(HybridRetrieveIntended(hits, ix, query, topK, threshold, alpha, scorer, order),
                     Fuse(DenseRetrieve(hits, 0.0), SparseLeg(ix, query, topK, scorer, order), alpha))
  {
    var fused := Fuse(DenseRetrieve(hits, 0.0), SparseLeg(ix, query, topK, scorer, order), alpha);
    assert HybridRetrieveIntended(hits, ix, query, topK, threshold, alpha, scorer, order) == PostFusionFilter(fused, threshold);
  }

  /** Which optional stages are available: hybrid search with a BM25 index,
      and a reranker. */
  datatype Stages = Stages(hybrid: bool, index: Option<Index>, reranker: Option<Predictor>)

  /** The inputs the opaque components supply for one query. */
  datatype Inputs = Inputs(hits: seq<DenseHit>, scorer: (Corpus, seq<string>) -> seq<real>, order: seq<int>)

  predicate Ready(st: Stages, query: string, inp: Inputs) {
    st.hybrid && st.index.Some? ==>
      Wellformed(st.index.value)
      && (st.index.value.model.Some? ==> DescendingOrder(inp.order, inp.scorer(st.index.value.model.value, Tokenize(query))))
  }

  /** The first stage of `retrieve`: hybrid when enabled and an index exists,
      dense-only otherwise. */
  function FirstStage(st: Stages, query: string, inp: Inputs, topK: int, threshold: real, alpha: real): seq<Candidate>
    requires Ready(st, query, inp)
  {
    if st.hybrid && st.index.Some? then HybridRetrieve(inp.hits, st.index.value, query, topK, threshold, alpha, inp.scorer, inp.order)
    else DenseRetrieve(inp.hits, threshold)
  }

  /** The second stage of `retrieve`: reranking when a reranker is present
      and there is something to rerank. */
  function SecondStage(st: Stages, query: string, cs: seq<Candidate>): (r: Result<seq<Candidate>, string>)
    ensures r.Ok? ==> |r.value| == |cs|
  {
    if |cs| > 0 && st.reranker.Some? then Rerank(query, cs, st.reranker.value) else Ok(cs)
  }

  /** `retrieve`: no candidates gives `[]`; otherwise the candidates, reranked
      when a reranker is present, cut to `final_top_n` by a Python slice. */
  function Retrieve(st: Stages, query: string, inp: Inputs, topK: int, finalTopN: int, threshold: real, alpha: real)
    : (r: Result<seq<Candidate>, string>)
    requires Ready(st, query, inp)
    ensures var cs := FirstStage(st, query, inp, topK, threshold, alpha);
      (|cs| == 0 ==> r == Ok([]))
      && (r.Ok? <==> SecondStage(st, query, cs).Ok?)
      && (r.Ok? ==> IsPrefix(r.value, SecondStage(st, query, cs).value))
      && (r.Ok? && finalTopN >= 0 ==> |r.value| == if finalTopN < |cs| then finalTopN else |cs|)
  {
    var cs := FirstStage(st, query, inp, topK, threshold, alpha);
    if |cs| == 0 then Ok([])
    else
      match SecondStage(st, query, cs)
      case Err(e) => Err(e)
      case Ok(ss) => Ok(PyTake(ss, finalTopN))
  }

  predicate IsPrefix<T(==)>(a: seq<T>, b: seq<T>) {
    |a| <= |b| && a == b[..|a|]
  }

  /** Without hybrid search or reranking, `retrieve` is the thresholded dense
      leg cut to `final_top_n`. */
  lemma RetrieveDenseOnly(st: Stages, query: string, inp: Inputs, topK: int, finalTopN: int, threshold: real, alpha: real)
    requires !st.hybrid && st.reranker.None?
    ensures Retrieve(st, query, inp, topK, finalTopN, threshold, alpha) == Ok(PyTake(DenseRetrieve(inp.hits, threshold), finalTopN))
  {
  }

  /** The first `n` reranked candidates are the `n` best: sorted by
      `rerank_score`, and no candidate left out scores higher than one kept. */
  lemma RerankTop(query: string, cs: seq<Candidate>, predict: Predictor, n: nat)
    requires |cs| > 0 && |predict(Pairs(query, cs))| >= |cs|
    ensures var scored := WithRerank(cs, predict(Pairs(query, cs)));
      var r := PyTake(Rerank(query, cs, predict).value, n);
      SortedDesc(r, RerankKey)
      && multiset(r) <= multiset(scored)
      && (forall x, p :: x in scored && x !in r && 0 <= p < |r| ==> RerankKey(r[p]) >= RerankKey(x))
  {
    var rr := Rerank(query, cs, predict).value;
    var r := PyTake(rr, n);
    RerankCorrect(query, cs, predict);
    assert r == rr[..|r|];
    TopOfPermutation(rr, WithRerank(cs, predict(Pairs(query, cs))), RerankKey, |r|);
  }

  /** With reranking, `retrieve` returns the `final_top_n` best-reranked candidates. */
  lemma RetrieveReranked(st: Stages, query: string, inp: Inputs, topK: int, finalTopN: nat, threshold: real, alpha: real)
    requires Ready(st, query, inp) && st.reranker.Some?
    requires Retrieve(st, query, inp, topK, finalTopN, threshold, alpha).Ok?
    requires |FirstStage(st, query, inp, topK, threshold, alpha)| > 0
    ensures var r := Retrieve(st, query, inp, topK, finalTopN, threshold, alpha).value;
      var cs := FirstStage(st, query, inp, topK, threshold, alpha);
      var scored := WithRerank(cs, st.reranker.value(Pairs(query, cs)));
      SortedDesc(r, RerankKey)
      && multiset(r) <= multiset(scored)
      && (forall x, p :: x in scored && x !in r && 0 <= p < |r| ==> RerankKey(r[p]) >= RerankKey(x))
  {
    var cs := FirstStage(st, query, inp, topK, threshold, alpha);
    RerankTop(query, cs, st.reranker.value, finalTopN);
  }

  // ---------------------------------------------------------------------------
  // Context rendering
  // ---------------------------------------------------------------------------

  const NoContext: string := "No relevant context found."

  /** The block for the `i`-th chunk (1-based). */
  function Block(i: nat, c: Candidate): string {
    "[Source " + NatToDecimal(i) + ": " + Render(GetOr(c.metadata, "source_file", Str("Unknown")))
    + ", Page " + Render(GetOr(c.metadata, "page_num", Str("Unknown"))) + "]\n" + c.text + "\n"
  }

  function Blocks(cs: seq<Candidate>): (bs: seq<string>)
    ensures |bs| == |cs|
    ensures forall i :: 0 <= i < |cs| ==> bs[i] == Block(i + 1, cs[i])
  {
    seq(|cs|, i requires 0 <= i < |cs| => Block(i + 1, cs[i]))
  }

  /** `format_context`: a fixed sentence for no chunks, otherwise the
      numbered blocks joined by newlines. */
  function FormatContext(cs: seq<Candidate>): (r: string)
    ensures |cs| == 0 <==> r == NoContext
    ensures |cs| > 0 ==> |Block(1, cs[0])| <= |r| && r[..|Block(1, cs[0])|] == Block(1, cs[0])
  {
    if |cs| == 0 then NoContext
    else
      JoinStartsWithFirst(Blocks(cs), "\n");
      var r := Join(Blocks(cs), "\n");
      assert r[0] == '[' by { assert Block(1, cs[0])[0] == '['; }
      r
  }

  /** Rendering is incremental: one more chunk appends a newline and its block. */
  lemma FormatContextAppend(cs: seq<Candidate>, c: Candidate)
    requires |cs| > 0
    ensures FormatContext(cs + [c]) == FormatContext(cs) + "\n" + Block(|cs| + 1, c)
  {
    assert Blocks(cs + [c]) == Blocks(cs) + [Block(|cs| + 1, c)];
    JoinAppend(Blocks(cs), Block(|cs| + 1, c), "\n");
  }

  /** A single chunk renders as its block alone. */
  lemma FormatContextSingle(c: Candidate)
    ensures FormatContext([c]) == Block(1, c)
  {
  }
}

=== FILE: seqs.dfy ===
/** Sequence utilities shared by the model: Python slicing, filtering,
    first-occurrence de-duplication and a stable descending sort. */
module Seqs {

  // ---------------------------------------------------------------------------
  // Python slicing
  // ---------------------------------------------------------------------------

  /** Python's normalisation of a slice bound `i` against a length `n`:
      negative bounds count from the end, and everything is clipped to `[0, n]`. */
  function SliceBound(i: int, n: nat): (b: nat)
    ensures b <= n
  {
    if i < 0 then (if n + i < 0 then 0 else n + i) else if i > n then n else i
  }

  /** Python's `s[i:j]`. */
  function PySlice<T>(s: seq<T>, i: int, j: int): (r: seq<T>)
    ensures |r| <= |s|
  {
    var a := SliceBound(i, |s|);
    var b := SliceBound(j, |s|);
    if a <= b then s[a..b] else []
  }

  /** Python's `s[:j]`. */
  function PyTake<T>(s: seq<T>, j: int): (r: seq<T>)
    ensures |r| <= |s|
  {
    s[..SliceBound(j, |s|)]
  }

  /** Python's `s[i:]`. */
  function PyDrop<T>(s: seq<T>, i: int): (r: seq<T>)
    ensures |r| <= |s|
  {
    s[SliceBound(i, |s|)..]
  }

  /** `s[i:j]` with `0 <= i <= j` is the elements from `i` up to `j`, both
      clipped to the length. */
  lemma PySliceNonNegative<T>(s: seq<T>, i: nat, j: nat)
    requires i <= j
    ensures var a := if i < |s| then i else |s|;
      var b := if j < |s| then j else |s|;
      PySlice(s, i, j) == s[a..b]
  {
  }

  /** `s[:n]` with `n >= 0` keeps exactly the first `min(n, |s|)` elements. */
  lemma PyTakeNonNegative<T>(s: seq<T>, n: nat)
    ensures |PyTake(s, n)| == if n < |s| then n else |s|
    ensures PyTake(s, n) == s[..|PyTake(s, n)|]
  {
  }

  /** Every element of a prefix is a member of it. */
  lemma PrefixHas<T>(s: seq<T>, n: nat)
    requires n <= |s|
    ensures forall m :: 0 <= m < n ==> s[m] in s[..n]
  {
    forall m | 0 <= m < n
      ensures s[m] in s[..n]
    {
      assert s[..n][m] == s[m];
    }
  }

  /** The first `n` elements of a non-increasing sequence are its `n` largest. */
  lemma SortedPrefixTop<T>(s: seq<T>, key: T -> real, n: nat)
    requires SortedDesc(s, key) && n <= |s|
    ensures SortedDesc(s[..n], key)
    ensures forall x, p :: x in s && x !in s[..n] && 0 <= p < n ==> key(s[p]) >= key(x)
  {
    PrefixHas(s, n);
    forall x, p | x in s && x !in s[..n] && 0 <= p < n
      ensures key(s[p]) >= key(x)
    {
      var m :| 0 <= m < |s| && s[m] == x;
      assert m >= n;
    }
  }

  /** A prefix of a non-increasing rearrangement of `s` holds the largest
      elements of `s`. */
  lemma TopOfPermutation<T>(t: seq<T>, s: seq<T>, key: T -> real, n: nat)
    requires SortedDesc(t, key) && multiset(t) == multiset(s) && n <= |t|
    ensures SortedDesc(t[..n], key)
    ensures multiset(t[..n]) <= multiset(s)
    ensures forall x, p :: x in s && x !in t[..n] && 0 <= p < n ==> key(t[p]) >= key(x)
  {
    SortedPrefixTop(t, key, n);
    assert t == t[..n] + t[n..];
    forall x | x in s
      ensures x in t
    {
      assert x in multiset(t);
    }
  }

  /** The `s[-m:]` idiom: for `m > 0` it keeps the last `min(m, |s|)` elements,
      but for `m == 0` it is `s[0:]`, the whole sequence. */
  lemma PyDropNegated<T>(s: seq<T>, m: nat)
    ensures m == 0 ==> PyDrop(s, -(m as int)) == s
    ensures 0 < m <= |s| ==> PyDrop(s, -(m as int)) == s[|s| - m..]
    ensures m > |s| ==> PyDrop(s, -(m as int)) == s
  {
  }

  /** The last `min(n, |s|)` elements: what a bounded deque of capacity `n`
      keeps after all of `s` was appended to it. */
  function Last<T>(s: seq<T>, n: nat): (r: seq<T>)
    ensures |r| == if |s| < n then |s| else n
    ensures forall i :: 0 <= i < |r| ==> r[i] == s[|s| - |r| + i]
  {
    if |s| <= n then s else s[|s| - n..]
  }

  // ---------------------------------------------------------------------------
  // Filtering and sub-sequences
  // ---------------------------------------------------------------------------

  /** `a` can be obtained from `b` by deleting elements (order is kept). */
  predicate IsSubseq<T(==)>(a: seq<T>, b: seq<T>)
    decreases |b|
  {
    |a| == 0 || (|b| > 0 && if a[0] == b[0] then IsSubseq(a[1..], b[1..]) else IsSubseq(a, b[1..]))
  }

  lemma SubseqRefl<T>(a: seq<T>)
    ensures IsSubseq(a, a)
  {
  }

  /** A sub-sequence sits in its super-sequence at strictly increasing positions. */
  lemma {:induction false} SubseqMap<T>(a: seq<T>, b: seq<T>) returns (f: seq<nat>)
    requires IsSubseq(a, b)
    ensures |f| == |a|
    ensures forall p :: 0 <= p < |a| ==> f[p] < |b| && a[p] == b[f[p]]
    ensures forall p, q :: 0 <= p < q < |a| ==> f[p] < f[q]
    decreases |b|
  {
    if |a| == 0 {
      f := [];
    } else if a[0] == b[0] {
      var g := SubseqMap(a[1..], b[1..]);
      f := [0] + seq(|g|, i requires 0 <= i < |g| => g[i] + 1);
    } else {
      var g := SubseqMap(a, b[1..]);
      f := seq(|g|, i requires 0 <= i < |g| => g[i] + 1);
    }
  }

  /** Python's `[x for x in s if p(x)]`. */
  function Filter<T(==)>(s: seq<T>, p: T -> bool): (r: seq<T>)
    ensures |r| <= |s|
    ensures forall i :: 0 <= i < |r| ==> r[i] in s && p(r[i])
    ensures forall i :: 0 <= i < |s| && p(s[i]) ==> s[i] in r
    ensures IsSubseq(r, s)
  {
    if |s| == 0 then []
    else if p(s[0]) then [s[0]] + Filter(s[1..], p)
    else Filter(s[1..], p)
  }

  lemma FilterAll<T>(s: seq<T>, p: T -> bool)
    requires forall x :: x in s ==> p(x)
    ensures Filter(s, p) == s
  {
  }

  /** The filter keeps every copy of a passing element and no copy of a
      failing one. */
  lemma {:induction false} FilterCount<T>(s: seq<T>, p: T -> bool, x: T)
    ensures multiset(Filter(s, p))[x] == if p(x) then multiset(s)[x] else 0
  {
    if |s| > 0 {
      var rest := Filter(s[1..], p);
      FilterCount(s[1..], p, x);
      HeadCount(s, x);
      if p(s[0]) {
        var r := Filter(s, p);
        assert r == [s[0]] + rest;
        assert r[0] == s[0] && r[1..] == rest;
        HeadCount(r, x);
      } else {
        assert Filter(s, p) == rest;
      }
    }
  }

  /** The copies of `x` in a non-empty sequence: the head's and the tail's. */
  lemma HeadCount<T>(s: seq<T>, x: T)
    requires |s| > 0
    ensures multiset(s)[x] == (if s[0] == x then 1 else 0) + multiset(s[1..])[x]
  {
    assert s == [s[0]] + s[1..];
  }

  /** A sequence whose head is `d` and whose tail matches `r1` position by position. */
  lemma SeqCons<T>(r: seq<T>, d: T, r1: seq<T>)
    requires |r| == |r1| + 1 && r[0] == d
    requires forall p :: 1 <= p < |r| ==> r[p] == r1[p - 1]
    ensures r == [d] + r1
  {
  }

  /** `s` holds no element twice. */
  predicate NoDup<T(==)>(s: seq<T>) {
    forall i, j :: 0 <= i < j < |s| ==> s[i] != s[j]
  }

  /** The first occurrence of every element of `s`, in order of first appearance
      (the key order of a Python dict filled from `s`). */
  function Dedup<T(==)>(s: seq<T>): (r: seq<T>)
    ensures NoDup(r)
    ensures forall i :: 0 <= i < |r| ==> r[i] in s
    ensures forall i :: 0 <= i < |s| ==> s[i] in r
    ensures |r| <= |s|
  {
    if |s| == 0 then []
    else
      var d := Dedup(s[..|s| - 1]);
      if s[|s| - 1] in d then d else d + [s[|s| - 1]]
  }

  /** The position of the first occurrence of `x` in `s`. */
  function FirstIndex<T(==)>(s: seq<T>, x: T): (i: nat)
    requires x in s
    ensures i < |s| && s[i] == x
    ensures forall j :: 0 <= j < i ==> s[j] != x
  {
    if s[0] == x then 0 else 1 + FirstIndex(s[1..], x)
  }

  // ---------------------------------------------------------------------------
  // Stable descending sort by a real-valued key
  // ---------------------------------------------------------------------------

  /** `s` is non-increasing under `key`. */
  predicate SortedDesc<T>(s: seq<T>, key: T -> real) {
    forall i, j :: 0 <= i < j < |s| ==> key(s[i]) >= key(s[j])
  }

  /** The elements of `s` whose key equals `v`, in order. Stability of a sort
      means this sub-sequence is the same before and after sorting, for every `v`. */
  function WithKey<T>(s: seq<T>, key: T -> real, v: real): (r: seq<T>)
    ensures |r| <= |s|
  {
    if |s| == 0 then []
    else if key(s[0]) == v then [s[0]] + WithKey(s[1..], key, v)
    else WithKey(s[1..], key, v)
  }

  lemma WithKeyAppend<T>(a: seq<T>, b: seq<T>, key: T -> real, v: real)
    ensures WithKey(a + b, key, v) == WithKey(a, key, v) + WithKey(b, key, v)
  {
    if |a| == 0 {
      assert a + b == b;
    } else {
      assert (a + b)[1..] == a[1..] + b;
      WithKeyAppend(a[1..], b, key, v);
    }
  }

  lemma {:induction false} WithKeyNone<T>(s: seq<T>, key: T -> real, v: real)
    requires forall i :: 0 <= i < |s| ==> key(s[i]) < v
    ensures WithKey(s, key, v) == []
  {
    if |s| > 0 {
      WithKeyNone(s[1..], key, v);
    }
  }

  /** Inserts `x` just before the first element whose key is smaller than `x`'s,
      so it lands after every element with an equal key. */
  function InsertDesc<T>(x: T, s: seq<T>, key: T -> real): (r: seq<T>)
    ensures |r| == |s| + 1
  {
    if |s| == 0 then [x]
    else if key(s[0]) < key(x) then [x] + s
    else [s[0]] + InsertDesc(x, s[1..], key)
  }

  lemma {:induction false} InsertDescBound<T>(x: T, s: seq<T>, key: T -> real, b: real)
    requires forall i :: 0 <= i < |s| ==> key(s[i]) <= b
    requires key(x) <= b
    ensures forall i :: 0 <= i < |InsertDesc(x, s, key)| ==> key(InsertDesc(x, s, key)[i]) <= b
  {
    if |s| > 0 && key(s[0]) >= key(x) {
      InsertDescBound(x, s[1..], key, b);
    }
  }

  lemma {:induction false} InsertDescSorted<T>(x: T, s: seq<T>, key: T -> real)
    requires SortedDesc(s, key)
    ensures SortedDesc(InsertDesc(x, s, key), key)
  {
    if |s| > 0 && key(s[0]) >= key(x) {
      var t := InsertDesc(x, s[1..], key);
      InsertDescSorted(x, s[1..], key);
      InsertDescBound(x, s[1..], key, key(s[0]));
      assert InsertDesc(x, s, key) == [s[0]] + t;
    }
  }

  lemma {:induction false} InsertDescPerm<T>(x: T, s: seq<T>, key: T -> real)
    ensures multiset(InsertDesc(x, s, key)) == multiset(s) + multiset{x}
  {
    if |s| > 0 && key(s[0]) >= key(x) {
      InsertDescPerm(x, s[1..], key);
      assert s == [s[0]] + s[1..];
      assert InsertDesc(x, s, key) == [s[0]] + InsertDesc(x, s[1..], key);
    }
  }

  lemma {:induction false} InsertDescStable<T>(x: T, s: seq<T>, key: T -> real, v: real)
    requires SortedDesc(s, key)
    ensures WithKey(InsertDesc(x, s, key), key, v) == WithKey(s, key, v) + (if key(x) == v then [x] else [])
  {
    var r := InsertDesc(x, s, key);
    if |s| == 0 {
    } else if key(s[0]) < key(x) {
      assert r[1..] == s;
      if key(x) == v {
        WithKeyNone(s, key, v);
      }
    } else {
      InsertDescStable(x, s[1..], key, v);
      assert r[1..] == InsertDesc(x, s[1..], key);
    }
  }

  lemma InsertDescCorrect<T>(x: T, s: seq<T>, key: T -> real)
    requires SortedDesc(s, key)
    ensures SortedDesc(InsertDesc(x, s, key), key)
    ensures multiset(InsertDesc(x, s, key)) == multiset(s) + multiset{x}
    ensures forall v :: WithKey(InsertDesc(x, s, key), key, v)
                        == WithKey(s, key, v) + (if key(x) == v then [x] else [])
  {
    InsertDescSorted(x, s, key);
    InsertDescPerm(x, s, key);
    forall v
      ensures WithKey(InsertDesc(x, s, key), key, v) == WithKey(s, key, v) + (if key(x) == v then [x] else [])
    {
      InsertDescStable(x, s, key, v);
    }
  }

  /** Python's stable `list.sort(key=key, reverse=True)`, as an insertion sort. */
  function SortDesc<T>(s: seq<T>, key: T -> real): (r: seq<T>)
    ensures |r| == |s|
  {
    if |s| == 0 then [] else InsertDesc(s[|s| - 1], SortDesc(s[..|s| - 1], key), key)
  }

  /** The sort is a permutation, non-increasing, and stable: the elements sharing any
      one key value keep their relative order. */
  lemma SortDescCorrect<T>(s: seq<T>, key: T -> real)
    ensures SortedDesc(SortDesc(s, key), key)
    ensures multiset(SortDesc(s, key)) == multiset(s)
    ensures forall v :: WithKey(SortDesc(s, key), key, v) == WithKey(s, key, v)
  {
    SortDescSortedPerm(s, key);
    forall v
      ensures WithKey(SortDesc(s, key), key, v) == WithKey(s, key, v)
    {
      SortDescStable(s, key, v);
    }
  }

  lemma {:induction false} SortDescSortedPerm<T>(s: seq<T>, key: T -> real)
    ensures SortedDesc(SortDesc(s, key), key)
    ensures multiset(SortDesc(s, key)) == multiset(s)
  {
    SortDescSorted(s, key);
    SortDescPerm(s, key);
  }

  lemma {:induction false} SortDescSorted<T>(s: seq<T>, key: T -> real)
    ensures SortedDesc(SortDesc(s, key), key)
  {
    if |s| > 0 {
      SortDescSorted(s[..|s| - 1], key);
      InsertDescSorted(s[|s| - 1], SortDesc(s[..|s| - 1], key), key);
    }
  }

  lemma {:induction false} SortDescPerm<T>(s: seq<T>, key: T -> real)
    ensures multiset(SortDesc(s, key)) == multiset(s)
  {
    if |s| > 0 {
      var init := s[..|s| - 1];
      var x := s[|s| - 1];
      var sorted := SortDesc(init, key);
      SortDescPerm(init, key);
      InsertDescPerm(x, sorted, key);
      assert SortDesc(s, key) == InsertDesc(x, sorted, key);
      SnocCount(s);
    }
  }

  lemma {:induction false} SortDescStable<T>(s: seq<T>, key: T -> real, v: real)
    ensures WithKey(SortDesc(s, key), key, v) == WithKey(s, key, v)
  {
    if |s| > 0 {
      var init := s[..|s| - 1];
      var x := s[|s| - 1];
      SortDescStable(init, key, v);
      SortDescSorted(init, key);
      InsertDescStable(x, SortDesc(init, key), key, v);
      WithKeySnoc(s, key, v);
    }
  }

  lemma SnocCount<T>(s: seq<T>)
    requires |s| > 0
    ensures multiset(s) == multiset(s[..|s| - 1]) + multiset{s[|s| - 1]}
  {
    assert s == s[..|s| - 1] + [s[|s| - 1]];
  }

  /** The elements with key `v` of `s`: those of all but the last, then the
      last if its key is `v`. */
  lemma WithKeySnoc<T>(s: seq<T>, key: T -> real, v: real)
    requires |s| > 0
    ensures WithKey(s, key, v) == WithKey(s[..|s| - 1], key, v) + (if key(s[|s| - 1]) == v then [s[|s| - 1]] else [])
  {
    var init := s[..|s| - 1];
    assert s == init + [s[|s| - 1]];
    WithKeyAppend(init, [s[|s| - 1]], key, v);
    assert WithKey([s[|s| - 1]], key, v) == if key(s[|s| - 1]) == v then [s[|s| - 1]] else [];
  }

  /** Sorting a sequence that is already non-increasing changes nothing. */
  lemma {:induction false} SortDescOfSorted<T>(s: seq<T>, key: T -> real)
    requires SortedDesc(s, key)
    ensures SortDesc(s, key) == s
  {
    if |s| > 0 {
      var init := s[..|s| - 1];
      SortDescOfSorted(init, key);
      InsertAtEnd(s[|s| - 1], init, key);
      assert init + [s[|s| - 1]] == s;
    }
  }

  lemma {:induction false} InsertAtEnd<T>(x: T, s: seq<T>, key: T -> real)
    requires forall i :: 0 <= i < |s| ==> key(s[i]) >= key(x)
    ensures InsertDesc(x, s, key) == s + [x]
  {
    if |s| > 0 {
      InsertAtEnd(x, s[1..], key);
      assert [s[0]] + (s[1..] + [x]) == s + [x];
    }
  }

  /** `s` is ordered by `key`, most first, and elements with equal keys by
      increasing `rank`. */
  predicate TieOrdered<T>(s: seq<T>, key: T -> real, rank: T -> int) {
    forall i, j :: 0 <= i < j < |s| ==>
      key(s[i]) > key(s[j]) || (key(s[i]) == key(s[j]) && rank(s[i]) < rank(s[j]))
  }

  lemma InsertDescMember<T>(x: T, s: seq<T>, key: T -> real)
    ensures forall i :: 0 <= i < |InsertDesc(x, s, key)| ==>
              InsertDesc(x, s, key)[i] == x || InsertDesc(x, s, key)[i] in s
  {
    InsertDescPerm(x, s, key);
    forall i | 0 <= i < |InsertDesc(x, s, key)|
      ensures InsertDesc(x, s, key)[i] == x || InsertDesc(x, s, key)[i] in s
    {
      var y := InsertDesc(x, s, key)[i];
      assert y in multiset(InsertDesc(x, s, key));
    }
  }

  lemma {:induction false} InsertDescTies<T>(x: T, s: seq<T>, key: T -> real, rank: T -> int)
    requires TieOrdered(s, key, rank)
    requires forall i :: 0 <= i < |s| ==> rank(s[i]) < rank(x)
    ensures TieOrdered(InsertDesc(x, s, key), key, rank)
  {
    var r := InsertDesc(x, s, key);
    if |s| == 0 {
    } else if key(s[0]) < key(x) {
      assert r == [x] + s;
      forall j | 0 < j < |r|
        ensures key(r[0]) > key(r[j])
      {
        assert r[j] == s[j - 1];
      }
    } else {
      var t := InsertDesc(x, s[1..], key);
      InsertDescTies(x, s[1..], key, rank);
      InsertDescMember(x, s[1..], key);
      assert r == [s[0]] + t;
      forall j | 0 < j < |r|
        ensures key(r[0]) > key(r[j]) || (key(r[0]) == key(r[j]) && rank(r[0]) < rank(r[j]))
      {
        if r[j] != x {
          var m :| 0 <= m < |s[1..]| && s[1..][m] == r[j];
          assert s[m + 1] == r[j];
        }
      }
    }
  }

  /** When `s` is listed by strictly increasing `rank`, the stable sort orders equal
      keys by `rank`: ties keep their order of appearance. */
  lemma {:induction false} SortDescTies<T>(s: seq<T>, key: T -> real, rank: T -> int)
    requires forall i, j :: 0 <= i < j < |s| ==> rank(s[i]) < rank(s[j])
    ensures TieOrdered(SortDesc(s, key), key, rank)
  {
    if |s| > 0 {
      var init := s[..|s| - 1];
      var x := s[|s| - 1];
      var t := SortDesc(init, key);
      SortDescTies(init, key, rank);
      SortDescCorrect(init, key);
      forall i | 0 <= i < |t|
        ensures rank(t[i]) < rank(x)
      {
        assert t[i] in multiset(init);
        var m :| 0 <= m < |init| && init[m] == t[i];
      }
      InsertDescTies(x, t, key, rank);
    }
  }

  lemma DedupMember<T>(s: seq<T>, x: T)
    ensures x in Dedup(s) <==> x in s
  {
    if x in Dedup(s) {
      var i :| 0 <= i < |Dedup(s)| && Dedup(s)[i] == x;
    }
    if x in s {
      var i :| 0 <= i < |s| && s[i] == x;
    }
  }

  lemma {:induction false} FirstIndexAppend<T>(s: seq<T>, x: T, k: T)
    requires k in s
    ensures FirstIndex(s + [x], k) == FirstIndex(s, k)
  {
    if s[0] != k {
      assert (s + [x])[1..] == s[1..] + [x];
      FirstIndexAppend(s[1..], x, k);
    }
  }

  lemma FirstIndexAppendNew<T>(s: seq<T>, k: T)
    requires k !in s
    ensures FirstIndex(s + [k], k) == |s|
  {
  }

  /** `Dedup` lists elements by increasing position of first occurrence. */
  lemma {:induction false} DedupOrder<T>(s: seq<T>)
    ensures forall p, q :: 0 <= p < q < |Dedup(s)| ==>
              Dedup(s)[p] in s && Dedup(s)[q] in s && FirstIndex(s, Dedup(s)[p]) < FirstIndex(s, Dedup(s)[q])
  {
    if |s| > 0 {
      var init := s[..|s| - 1];
      var x := s[|s| - 1];
      var d := Dedup(init);
      DedupOrder(init);
      assert s == init + [x];
      forall p | 0 <= p < |d|
        ensures d[p] in init && FirstIndex(s, d[p]) == FirstIndex(init, d[p])
      {
        FirstIndexAppend(init, x, d[p]);
      }
      DedupMember(init, x);
      if x !in d {
        FirstIndexAppendNew(init, x);
        assert Dedup(s) == d + [x];
      } else {
        assert Dedup(s) == d;
      }
      var r := Dedup(s);
      forall p, q | 0 <= p < q < |r|
        ensures r[p] in s && r[q] in s && FirstIndex(s, r[p]) < FirstIndex(s, r[q])
      {
        assert r[p] == d[p];
        if q < |d| {
          assert r[q] == d[q];
        }
      }
    } else {
      assert Dedup(s) == [];
    }
  }
}

=== FILE: sparse_index.dfy ===
/** The sparse (BM25) index: tokenised documents, their positional ids and
    their metadata, kept in three parallel lists, plus the ranking model built
    over the token lists. The BM25 scoring itself belongs to a library outside
    the model and is a parameter; so is the order in which `argsort` lists
    equal scores. Persistence to disk is not modelled. */
module SparseIndex {
  import opened Wrappers
  import opened Seqs
  import opened Text
  import opened Values

  /** Token lists, one per document. */
  type Corpus = seq<seq<string>>

  /** The index. `model` is the corpus the ranking model was last built over,
      `None` while no model exists. */
  datatype Index = Index(model: Option<Corpus>, documents: Corpus, docIds: seq<string>, metadata: seq<Record>)

  /** The three lists run in parallel. */
  predicate Parallel(ix: Index) {
    |ix.documents| == |ix.docIds| == |ix.metadata|
  }

  /** The lists are parallel and the model, if any, ranks exactly the stored documents. */
  predicate Consistent(ix: Index) {
    Parallel(ix) && (ix.model.Some? ==> ix.model.value == ix.documents)
  }

  /** A fresh index with nothing saved on disk. */
  function Empty(): (ix: Index)
    ensures Consistent(ix) && ix.model.None? && |ix.documents| == 0
  {
    Index(None, [], [], [])
  }

  /** The index tokeniser: lower-case, then split on runs of whitespace. */
  function Tokenize(text: string): (ts: seq<string>)
    ensures forall i :: 0 <= i < |ts| ==> Token(ts[i]) && Lowered(ts[i])
  {
    LowerStrLowered(text);
    SplitWhitespaceLowered(LowerStr(text));
    SplitWhitespace(LowerStr(text))
  }

  /** Re-tokenising a document's tokens joined by spaces gives the same tokens:
      the text `GetDocumentsByIndices` reconstructs indexes exactly as the original. */
  lemma TokenizeJoin(text: string)
    ensures Tokenize(Join(Tokenize(text), " ")) == Tokenize(text)
  {
    var ts := Tokenize(text);
    JoinLowered(ts, " ");
    LoweredFixed(Join(ts, " "));
    SplitJoinTokens(ts);
  }

  /** A chunk's `text` entry, `''` when absent. */
  predicate HasTextField(chunk: Record) {
    "text" !in chunk || chunk["text"].Str?
  }

  function ChunkText(chunk: Record): string
    requires HasTextField(chunk)
  {
    if "text" in chunk then chunk["text"].s else ""
  }

  /** `build_index`. The lists are reset, then one document per chunk is
      stored with id `str(i)` and the chunk minus its text as metadata. The
      library's model cannot be built when no chunk has a single token (an
      empty corpus divides by the corpus size, a corpus of empty documents
      by the vocabulary size): the call then fails with the new lists
      already stored and the previous model in place, which `Err` carries. */
  function Build(ix: Index, chunks: seq<Record>): (r: Result<Index, Index>)
    requires forall i :: 0 <= i < |chunks| ==> HasTextField(chunks[i])
    ensures r.Ok? <==> exists i :: 0 <= i < |chunks| && Tokenize(ChunkText(chunks[i])) != []
    ensures r.Ok? ==> Consistent(r.value) && r.value.model.Some?
    ensures r.Err? ==> r.error.model == ix.model
    ensures var out := if r.Ok? then r.value else r.error;
      |out.documents| == |out.docIds| == |out.metadata| == |chunks|
      && forall i :: 0 <= i < |chunks| ==>
        out.documents[i] == Tokenize(ChunkText(chunks[i]))
        && out.docIds[i] == NatToDecimal(i)
        && out.metadata[i] == chunks[i] - {"text"}
  {
    var docs := seq(|chunks|, i requires 0 <= i < |chunks| => Tokenize(ChunkText(chunks[i])));
    var ids := seq(|chunks|, i requires 0 <= i < |chunks| => NatToDecimal(i));
    var meta := seq(|chunks|, i requires 0 <= i < |chunks| => chunks[i] - {"text"});
    if forall i | 0 <= i < |docs| :: docs[i] == [] then
      assert forall i :: 0 <= i < |chunks| ==> Tokenize(ChunkText(chunks[i])) == docs[i];
      Err(ix.(documents := docs, docIds := ids, metadata := meta))
    else Ok(Index(Some(docs), docs, ids, meta))
  }

  /** With no chunks, the failed build leaves the three lists empty. */
  lemma BuildEmpty(ix: Index)
    ensures Build(ix, []).Err?
    ensures Build(ix, []).error == ix.(documents := [], docIds := [], metadata := [])
  {
  }

  /** `clear_index`: no model and three empty lists. */
  function Clear(ix: Index): (r: Index)
    ensures r.model.None? && r.documents == [] && r.docIds == [] && r.metadata == []
    ensures Consistent(r)
  {
    Empty()
  }

  // ---------------------------------------------------------------------------
  // Search
  // ---------------------------------------------------------------------------

  /** A result: document index and score. */
  type Hit = (int, real)

  /** `order` is a valid `argsort(scores)[::-1]`: every index exactly once,
      scores non-increasing. Equal scores may come in any order. */
  predicate DescendingOrder(order: seq<int>, scores: seq<real>) {
    |order| == |scores|
    && (forall p :: 0 <= p < |order| ==> 0 <= order[p] < |scores|)
    && (forall i :: 0 <= i < |scores| ==> i in order)
    && (forall p, q :: 0 <= p < q < |order| ==> order[p] != order[q])
    && (forall p, q :: 0 <= p < q < |order| ==> scores[order[p]] >= scores[order[q]])
  }

  /** Each listed index paired with its score. */
  function Scored(top: seq<int>, scores: seq<real>): (r: seq<Hit>)
    requires forall p :: 0 <= p < |top| ==> 0 <= top[p] < |scores|
    ensures |r| == |top|
    ensures forall p :: 0 <= p < |top| ==> r[p] == (top[p], scores[top[p]])
  {
    seq(|top|, p requires 0 <= p < |top| => (top[p], scores[top[p]]))
  }

  /** The list comprehension of `search`: the listed indices whose score is
      positive, with their scores, in the listed order. */
  function Positive(top: seq<int>, scores: seq<real>): (r: seq<Hit>)
    requires forall p :: 0 <= p < |top| ==> 0 <= top[p] < |scores|
    ensures |r| <= |top|
    ensures forall p :: 0 <= p < |r| ==> r[p].0 in top && r[p].1 == scores[r[p].0] && r[p].1 > 0.0
    ensures forall p :: 0 <= p < |top| && scores[top[p]] > 0.0 ==> (top[p], scores[top[p]]) in r
    ensures IsSubseq(r, Scored(top, scores))
  {
    var pairs := Scored(top, scores);
    var r := Filter(pairs, (h: Hit) => h.1 > 0.0);
    assert forall p :: 0 <= p < |top| ==> pairs[p] == (top[p], scores[top[p]]);
    r
  }

  function Indices(hits: seq<Hit>): (r: seq<int>)
    ensures |r| == |hits|
    ensures forall p :: 0 <= p < |hits| ==> r[p] == hits[p].0
  {
    seq(|hits|, p requires 0 <= p < |hits| => hits[p].0)
  }

  /** `search`: nothing without a model; otherwise the model's scores for the
      tokenised query, the first `topK` indices of the descending order, and
      of those only the ones with a positive score. */
  function Search(ix: Index, query: string, topK: int,
                  scorer: (Corpus, seq<string>) -> seq<real>, order: seq<int>): (r: seq<Hit>)
    requires ix.model.Some? ==> DescendingOrder(order, scorer(ix.model.value, Tokenize(query)))
    ensures ix.model.None? ==> r == []
    ensures |r| <= |order|
  {
    if ix.model.None? then []
    else
      var scores := scorer(ix.model.value, Tokenize(query));
      Positive(PyTake(order, topK), scores)
  }

  /** The hits taken from a prefix of a descending order are distinct and
      come in non-increasing score order. */
  lemma PositiveOrdered(order: seq<int>, scores: seq<real>, n: nat)
    requires DescendingOrder(order, scores) && n <= |order|
    ensures var r := Positive(order[..n], scores);
      forall p, q :: 0 <= p < q < |r| ==> r[p].0 != r[q].0 && r[p].1 >= r[q].1
  {
    var top := order[..n];
    var r := Positive(top, scores);
    var pairs := Scored(top, scores);
    var f := SubseqMap(r, pairs);
    forall p, q | 0 <= p < q < |r|
      ensures r[p].0 != r[q].0 && r[p].1 >= r[q].1
    {
      assert r[p] == pairs[f[p]] && r[q] == pairs[f[q]];
      assert r[p].0 == order[f[p]] && r[q].0 == order[f[q]];
    }
  }

  /** Every positive-scoring index of the prefix is among the hits. */
  lemma PrefixHits(order: seq<int>, scores: seq<real>, n: nat)
    requires DescendingOrder(order, scores) && n <= |order|
    ensures forall m :: 0 <= m < n && scores[order[m]] > 0.0 ==> order[m] in Indices(Positive(order[..n], scores))
  {
    var top := order[..n];
    var r := Positive(top, scores);
    forall m | 0 <= m < n && scores[order[m]] > 0.0
      ensures order[m] in Indices(r)
    {
      assert top[m] == order[m];
      var p :| 0 <= p < |r| && r[p] == (top[m], scores[top[m]]);
      assert Indices(r)[p] == order[m];
    }
  }

  /** A positive-scoring index missing from the hits of a prefix scores no
      more than any hit. */
  lemma PositiveTop(order: seq<int>, scores: seq<real>, n: nat, i: int)
    requires DescendingOrder(order, scores) && n <= |order|
    requires 0 <= i < |scores| && scores[i] > 0.0 && i !in Indices(Positive(order[..n], scores))
    ensures forall p :: 0 <= p < |Positive(order[..n], scores)| ==> scores[i] <= Positive(order[..n], scores)[p].1
  {
    var top := order[..n];
    var r := Positive(top, scores);
    var pairs := Scored(top, scores);
    assert i in order;
    var m :| 0 <= m < |order| && order[m] == i;
    PrefixHits(order, scores, n);
    assert m >= n;
    var f := SubseqMap(r, pairs);
    forall p | 0 <= p < |r|
      ensures scores[i] <= r[p].1
    {
      assert r[p] == pairs[f[p]];
      assert r[p].0 == order[f[p]];
    }
  }

  /** Good hits: valid indices with their own positive scores, no index
      twice, scores non-increasing, and no positive-scoring index left out
      that outranks a returned one. */
  ghost predicate TopHits(r: seq<Hit>, scores: seq<real>) {
    (forall p :: 0 <= p < |r| ==> 0 <= r[p].0 < |scores| && r[p].1 == scores[r[p].0] && r[p].1 > 0.0)
    && (forall p, q :: 0 <= p < q < |r| ==> r[p].0 != r[q].0 && r[p].1 >= r[q].1)
    && (forall i :: 0 <= i < |scores| && scores[i] > 0.0 && i !in Indices(r) ==>
          forall p :: 0 <= p < |r| ==> scores[i] <= r[p].1)
  }

  lemma PositiveTopHits(order: seq<int>, scores: seq<real>, n: nat)
    requires DescendingOrder(order, scores) && n <= |order|
    ensures TopHits(Positive(order[..n], scores), scores)
  {
    PositiveOrdered(order, scores, n);
    forall i | 0 <= i < |scores| && scores[i] > 0.0 && i !in Indices(Positive(order[..n], scores))
      ensures forall p :: 0 <= p < |Positive(order[..n], scores)| ==> scores[i] <= Positive(order[..n], scores)[p].1
    {
      PositiveTop(order, scores, n, i);
    }
  }

  /** What `search` promises: at most `topK` hits, and they are the best ones. */
  lemma SearchCorrect(ix: Index, query: string, topK: int,
                      scorer: (Corpus, seq<string>) -> seq<real>, order: seq<int>)
    requires ix.model.Some?
    requires DescendingOrder(order, scorer(ix.model.value, Tokenize(query)))
    ensures topK >= 0 ==> |Search(ix, query, topK, scorer, order)| <= topK
    ensures TopHits(Search(ix, query, topK, scorer, order), scorer(ix.model.value, Tokenize(query)))
  {
    var scores := scorer(ix.model.value, Tokenize(query));
    var top := PyTake(order, topK);
    assert top == order[..|top|];
    PositiveTopHits(order, scores, |top|);
  }

  /** Against a consistent index every hit addresses a stored document. */
  lemma SearchInRange(ix: Index, query: string, topK: int,
                      scorer: (Corpus, seq<string>) -> seq<real>, order: seq<int>)
    requires Consistent(ix) && ix.model.Some?
    requires DescendingOrder(order, scorer(ix.model.value, Tokenize(query)))
    requires |scorer(ix.model.value, Tokenize(query))| == |ix.model.value|
    ensures forall p :: 0 <= p < |Search(ix, query, topK, scorer, order)| ==>
      0 <= Search(ix, query, topK, scorer, order)[p].0 < |ix.documents|
  {
  }

  // ---------------------------------------------------------------------------
  // Document reconstruction
  // ---------------------------------------------------------------------------

  /** The document dictionary for position `i`: the tokens joined by single
      spaces as `text`, the id as `doc_id`, then the stored metadata, whose
      keys win on a clash. */
  function Document(ix: Index, i: nat): Record
    requires Parallel(ix) && i < |ix.documents|
  {
    map["text" := Str(Join(ix.documents[i], " ")), "doc_id" := Str(ix.docIds[i])] + ix.metadata[i]
  }

  /** The in-range indices, in order. */
  function InRange(indices: seq<int>, n: nat): (r: seq<int>)
    ensures forall p :: 0 <= p < |r| ==> 0 <= r[p] < n
    ensures forall p :: 0 <= p < |indices| && 0 <= indices[p] < n ==> indices[p] in r
    ensures IsSubseq(r, indices)
  {
    Filter(indices, i => 0 <= i < n)
  }

  /** `get_documents_by_indices`: out-of-range indices are skipped; the rest
      give their documents in the order asked. */
  function GetDocumentsByIndices(ix: Index, indices: seq<int>): (r: seq<Record>)
    requires Parallel(ix)
    ensures |r| <= |indices|
    ensures forall i :: 0 <= i < |indices| && 0 <= indices[i] < |ix.documents| ==>
      Document(ix, indices[i]) in r
    ensures forall p :: 0 <= p < |r| ==>
      exists i :: 0 <= i < |indices| && 0 <= indices[i] < |ix.documents| && r[p] == Document(ix, indices[i])
  {
    var ks := InRange(indices, |ix.documents|);
    var r := seq(|ks|, p requires 0 <= p < |ks| => Document(ix, ks[p]));
    assert forall p :: 0 <= p < |ks| ==> ks[p] in indices;
    forall i | 0 <= i < |indices| && 0 <= indices[i] < |ix.documents|
      ensures Document(ix, indices[i]) in r
    {
      var p :| 0 <= p < |ks| && ks[p] == indices[i];
      assert r[p] == Document(ix, indices[i]);
    }
    r
  }

  /** The documents come back in the order their indices were asked for. */
  lemma GetDocumentsOrder(ix: Index, indices: seq<int>) returns (f: seq<nat>)
    requires Parallel(ix)
    ensures |f| == |GetDocumentsByIndices(ix, indices)|
    ensures forall p :: 0 <= p < |f| ==>
      (f[p] < |indices| && 0 <= indices[f[p]] < |ix.documents|
       && GetDocumentsByIndices(ix, indices)[p] == Document(ix, indices[f[p]]))
    ensures forall p, q :: 0 <= p < q < |f| ==> f[p] < f[q]
  {
    var ks := InRange(indices, |ix.documents|);
    f := SubseqMap(ks, indices);
  }

  /** Index by index: an in-range head yields its document in front of the
      rest, an out-of-range head yields nothing, so repeated indices give
      repeated documents. */
  lemma GetDocumentsCons(ix: Index, indices: seq<int>)
    requires Parallel(ix) && |indices| > 0
    ensures GetDocumentsByIndices(ix, indices)
      == (if 0 <= indices[0] < |ix.documents| then [Document(ix, indices[0])] else [])
         + GetDocumentsByIndices(ix, indices[1..])
  {
    var n := |ix.documents|;
    var ks := InRange(indices, n);
    var rest := InRange(indices[1..], n);
    var r := GetDocumentsByIndices(ix, indices);
    var r1 := GetDocumentsByIndices(ix, indices[1..]);
    DocumentsAt(ix, indices);
    DocumentsAt(ix, indices[1..]);
    if 0 <= indices[0] < n {
      InRangeKeep(indices, n);
      forall p | 1 <= p < |r|
        ensures r[p] == r1[p - 1]
      {
        assert ks[p] == rest[p - 1];
      }
      SeqCons(r, Document(ix, indices[0]), r1);
    } else {
      InRangeSkip(indices, n);
      assert r == r1;
    }
  }

  lemma InRangeKeep(indices: seq<int>, n: nat)
    requires |indices| > 0 && 0 <= indices[0] < n
    ensures InRange(indices, n) == [indices[0]] + InRange(indices[1..], n)
  {
  }

  lemma InRangeSkip(indices: seq<int>, n: nat)
    requires |indices| > 0 && !(0 <= indices[0] < n)
    ensures InRange(indices, n) == InRange(indices[1..], n)
  {
  }

  /** The fetched documents are those of the in-range indices, position by position. */
  lemma DocumentsAt(ix: Index, indices: seq<int>)
    requires Parallel(ix)
    ensures var ks := InRange(indices, |ix.documents|);
      |GetDocumentsByIndices(ix, indices)| == |ks|
      && forall p :: 0 <= p < |ks| ==> GetDocumentsByIndices(ix, indices)[p] == Document(ix, ks[p])
  {
  }

  /** When every index is in range, each index yields its own document. */
  lemma GetDocumentsAllInRange(ix: Index, indices: seq<int>)
    requires Parallel(ix)
    requires forall p :: 0 <= p < |indices| ==> 0 <= indices[p] < |ix.documents|
    ensures |GetDocumentsByIndices(ix, indices)| == |indices|
    ensures forall p :: 0 <= p < |indices| ==> GetDocumentsByIndices(ix, indices)[p] == Document(ix, indices[p])
  {
    FilterAll(indices, i => 0 <= i < |ix.documents|);
    assert InRange(indices, |ix.documents|) == indices;
  }

  /** Building and fetching round-trips a chunk: the text re-tokenises to the
      stored tokens, the id is the position, and every other field of the
      chunk is returned unchanged. */
  lemma BuildThenFetch(ix: Index, chunks: seq<Record>, i: nat)
    requires forall j :: 0 <= j < |chunks| ==> HasTextField(chunks[j])
    requires exists j :: 0 <= j < |chunks| && Tokenize(ChunkText(chunks[j])) != []
    requires i < |chunks|
    ensures Build(ix, chunks).Ok?
    ensures var built := Build(ix, chunks).value;
      var d := GetDocumentsByIndices(built, [i]);
      |d| == 1
      && d[0]["text"].Str? && Tokenize(d[0]["text"].s) == Tokenize(ChunkText(chunks[i]))
      && (forall k :: k in chunks[i] && k != "text" ==> k in d[0] && d[0][k] == chunks[i][k])
      && ("doc_id" !in chunks[i] ==> d[0]["doc_id"] == Str(NatToDecimal(i)))
  {
    var r := Build(ix, chunks);
    assert r.Ok?;
    var built := r.value;
    var meta := built.metadata[i];
    assert meta == chunks[i] - {"text"};
    FetchOne(built, i);
    DocumentFields(built, i);
    TokenizeJoin(ChunkText(chunks[i]));
  }

  /** A rebuilt document: the joined tokens under `text`, the stored metadata,
      and the id under `doc_id` unless the metadata has its own. */
  lemma DocumentFields(ix: Index, i: nat)
    requires Parallel(ix) && i < |ix.documents| && "text" !in ix.metadata[i]
    ensures var d := Document(ix, i);
      d["text"] == Str(Join(ix.documents[i], " "))
      && (forall k :: k in ix.metadata[i] ==> k in d && d[k] == ix.metadata[i][k])
      && ("doc_id" !in ix.metadata[i] ==> d["doc_id"] == Str(ix.docIds[i]))
  {
  }

  /** Asking for one in-range index gives exactly its document. */
  lemma FetchOne(ix: Index, i: nat)
    requires Parallel(ix) && i < |ix.documents|
    ensures GetDocumentsByIndices(ix, [i]) == [Document(ix, i)]
  {
    var ks := InRange([i], |ix.documents|);
    assert ks == [i];
  }
}

=== FILE: suggested_questions.dfy ===
/** Post-processing of the suggested follow-up questions: what the first
    retrieved chunks contribute, how the language model's reply is parsed,
    and how the list is padded and cut to the requested count. */
module SuggestedQuestions {
  import opened Wrappers
  import opened Seqs
  import opened Text
  import opened Values

  /** How many chunks, and how many characters of each chunk's content,
      the generator reads. */
  const ChunksConsulted: nat := 5
  const ExcerptLength: nat := 300

  /** The response text quoted in the prompt is cut to this many characters. */
  const ResponseExcerptLength: nat := 500

  /** A cleaned reply line is kept only when it is longer than this. */
  const MinLength: nat := 20

  /** Leading numbering removed from each reply line: digits, `.`, `-`, `)` and space. */
  const NumberingChars: set<char> := {'0', '1', '2', '3', '4', '5', '6', '7', '8', '9', '.', '-', ')', ' '}

  /** The openings of the topic-based fallback questions, used in turn. */
  const FallbackPrompts: seq<string> := [
    "What specific details about",
    "Can you explain more about",
    "What are the requirements for",
    "How does the process work for",
    "What should visitors know about"
  ]

  /** The fallback question when the chunks name no topic. */
  const GenericFallback: string := "Can you provide more information about the topics mentioned above?"

  /** The list returned when anything raises. */
  const ErrorQuestions: seq<string> := [
    "What are the specific requirements and restrictions for this service?",
    "Can you provide more details about the process and availability?",
    "What additional features or options are available?"
  ]

  // ---------------------------------------------------------------------------
  // Reading the chunks
  // ---------------------------------------------------------------------------

  /** `content[:300]`: strings and lists slice, anything else raises (`None`). */
  function Excerpt(content: Value): (r: Option<Value>)
    ensures content.Str? ==> r == Some(Str(PyTake(content.s, ExcerptLength)))
    ensures content.List? ==> r == Some(List(PyTake(content.items, ExcerptLength)))
    ensures r.None? <==> !content.Str? && !content.List?
  {
    match content
    case Str(s) => Some(Str(PyTake(s, ExcerptLength)))
    case List(items) => Some(List(PyTake(items, ExcerptLength)))
    case _ => None
  }

  /** `if key in metadata: chunk_topics.add(metadata[key])`: the values added
      to the topic set (none or one), or `None` when Python raises. A
      dictionary is looked up; a list or a string answers `in` by element or
      substring and then cannot be indexed by a string; other values do not
      support `in`; lists and dictionaries cannot enter a set. */
  function Added(metadata: Value, key: string): (r: Option<seq<Value>>)
    ensures metadata.Dict? && key !in metadata.entries ==> r == Some([])
    ensures metadata.Dict? && key in metadata.entries ==>
      r == (if Hashable(metadata.entries[key]) then Some([metadata.entries[key]]) else None)
    ensures r.Some? ==> |r.value| <= 1 && forall i :: 0 <= i < |r.value| ==> Hashable(r.value[i])
  {
    match metadata
    case Dict(m) =>
      if key !in m then Some([])
      else if Hashable(m[key]) then Some([m[key]])
      else None
    case List(items) => if Str(key) in items then None else Some([])
    case Str(s) => if Contains(s, key) then None else Some([])
    case _ => None
  }

  /** What one chunk contributes: its content excerpt and the topics it adds
      (`topic` before `title`). */
  datatype View = View(excerpt: Value, added: seq<Value>)

  /** One iteration of the chunk loop, or `None` when it raises. */
  function ReadChunk(chunk: Record): (r: Option<View>)
    ensures r.Some? ==> |r.value.added| <= 2
    ensures r.Some? <==> (Excerpt(GetOr(chunk, "content", Str(""))).Some?
                          && Added(GetOr(chunk, "metadata", Dict(map[])), "topic").Some?
                          && Added(GetOr(chunk, "metadata", Dict(map[])), "title").Some?)
  {
    var metadata := GetOr(chunk, "metadata", Dict(map[]));
    match (Excerpt(GetOr(chunk, "content", Str(""))), Added(metadata, "topic"), Added(metadata, "title"))
    case (Some(e), Some(t1), Some(t2)) => Some(View(e, t1 + t2))
    case _ => None
  }

  /** The excerpts and the topic additions of a run of chunks, in order. */
  datatype Gathered = Gathered(excerpts: seq<Value>, added: seq<Value>)

  /** The chunk loop over `cs`, stopping at the first chunk that raises. */
  function Gather(cs: seq<Record>): (r: Option<Gathered>)
    ensures r.Some? <==> forall i :: 0 <= i < |cs| ==> ReadChunk(cs[i]).Some?
    ensures r.Some? ==> |r.value.excerpts| == |cs|
  {
    if |cs| == 0 then Some(Gathered([], []))
    else
      match (ReadChunk(cs[0]), Gather(cs[1..]))
      case (Some(v), Some(g)) => Some(Gathered([v.excerpt] + g.excerpts, v.added + g.added))
      case (None, _) => None
      case (_, None) =>
        assert forall i :: 1 <= i < |cs| ==> cs[i] == cs[1..][i - 1];
        None
  }

  /** The chunks the generator reads: the first five. */
  function Consulted(chunks: seq<Record>): (r: seq<Record>)
    ensures |r| == if |chunks| < ChunksConsulted then |chunks| else ChunksConsulted
    ensures r == chunks[..|r|]
  {
    PyTake(chunks, ChunksConsulted)
  }

  /** `order` lists each distinct topic the consulted chunks add exactly once:
      the iteration order of Python's `set`, which the program does not fix. */
  predicate OrderFor(chunks: seq<Record>, order: seq<Value>) {
    match Gather(Consulted(chunks))
    case None => true
    case Some(g) => NoDup(order) && (forall v | v in order :: v in g.added) && (forall v | v in g.added :: v in order)
  }

  // ---------------------------------------------------------------------------
  // Parsing the reply
  // ---------------------------------------------------------------------------

  /** `line.strip().lstrip('0123456789.-) ')`. */
  function Clean(line: string): (r: string)
    ensures |r| <= |line|
    ensures |r| > 0 ==> r[0] !in NumberingChars && !IsSpace(r[|r| - 1])
  {
    var stripped := Strip(line);
    var r := LStrip(stripped, NumberingChars);
    assert |r| > 0 ==> r[|r| - 1] == stripped[|stripped| - 1];
    r
  }

  /** Every line cleaned. */
  function CleanAll(lines: seq<string>): (r: seq<string>)
    ensures |r| == |lines|
    ensures forall i :: 0 <= i < |r| ==> r[i] == Clean(lines[i])
  {
    if |lines| == 0 then [] else [Clean(lines[0])] + CleanAll(lines[1..])
  }

  /** The lines longer than the minimum, in order. */
  function Keep(lines: seq<string>): (r: seq<string>)
    ensures |r| <= |lines|
    ensures forall i :: 0 <= i < |r| ==> |r[i]| > MinLength
  {
    if |lines| == 0 then []
    else (if |lines[0]| > MinLength then [lines[0]] else []) + Keep(lines[1..])
  }

  /** Exactly the long lines are kept. */
  lemma {:induction false} KeepMember(lines: seq<string>, q: string)
    ensures q in Keep(lines) <==> q in lines && |q| > MinLength
  {
    if |lines| > 0 {
      KeepMember(lines[1..], q);
      assert lines == [lines[0]] + lines[1..];
    }
  }

  /** Keeping commutes with concatenation, so kept lines stay in reply order. */
  lemma {:induction false} KeepAppend(a: seq<string>, b: seq<string>)
    ensures Keep(a + b) == Keep(a) + Keep(b)
  {
    if |a| > 0 {
      KeepAppend(a[1..], b);
      assert (a + b)[1..] == a[1..] + b;
    } else {
      assert a + b == b;
    }
  }

  /** The lines of a reply: `questions_response.strip().split('\n')`. */
  function ReplyLines(reply: string): (r: seq<string>)
    ensures |r| >= 1
    ensures forall i :: 0 <= i < |r| ==> '\n' !in r[i]
  {
    var lines := SplitOn(Strip(reply), '\n');
    forall i | 0 <= i < |lines|
      ensures '\n' !in lines[i]
    {
      SplitOnPart(Strip(reply), '\n', i);
    }
    lines
  }

  /** The parsed questions: each reply line cleaned, kept when long enough. */
  function ParseReply(reply: string): (r: seq<string>)
    ensures forall i :: 0 <= i < |r| ==> |r[i]| > MinLength
    ensures forall q :: q in r <==> |q| > MinLength && exists i :: 0 <= i < |ReplyLines(reply)| && Clean(ReplyLines(reply)[i]) == q
  {
    var lines := ReplyLines(reply);
    var cleaned := CleanAll(lines);
    forall q
      ensures q in Keep(cleaned) <==> |q| > MinLength && exists i :: 0 <= i < |lines| && Clean(lines[i]) == q
    {
      KeepMember(cleaned, q);
      if q in cleaned {
        var i :| 0 <= i < |cleaned| && cleaned[i] == q;
        assert Clean(lines[i]) == q;
      }
      if exists i :: 0 <= i < |lines| && Clean(lines[i]) == q {
        var i :| 0 <= i < |lines| && Clean(lines[i]) == q;
        assert cleaned[i] == q;
      }
    }
    Keep(cleaned)
  }

  /** No part of a split holds the separator. */
  lemma {:induction false} SplitOnPart(s: string, c: char, k: nat)
    requires k < |SplitOn(s, c)|
    ensures c !in SplitOn(s, c)[k]
  {
    if |s| > 0 {
      var rest := SplitOn(s[1..], c);
      if s[0] == c {
        if k > 0 {
          SplitOnPart(s[1..], c, k - 1);
        }
      } else if k == 0 {
        SplitOnPart(s[1..], c, 0);
      } else {
        SplitOnPart(s[1..], c, k);
      }
    }
  }

  /** A well-formed question: one line, already clean, long enough. */
  predicate WellFormed(q: string) {
    '\n' !in q && Clean(q) == q && |q| > MinLength
  }

  /** A reply listing well-formed questions one per line parses back to
      exactly those questions. */
  lemma ParseReplyJoin(qs: seq<string>)
    requires |qs| > 0
    requires forall i :: 0 <= i < |qs| ==> WellFormed(qs[i])
    ensures ParseReply(Join(qs, "\n")) == qs
  {
    ReplyLinesJoin(qs);
    CleanAllWellFormed(qs);
    KeepWellFormed(qs);
  }

  /** The lines of such a reply are the questions. */
  lemma ReplyLinesJoin(qs: seq<string>)
    requires |qs| > 0
    requires forall i :: 0 <= i < |qs| ==> WellFormed(qs[i])
    ensures ReplyLines(Join(qs, "\n")) == qs
  {
    JoinStripUnchanged(qs);
    SplitOnJoin(qs, '\n');
  }

  /** Such a reply has no surrounding whitespace to strip. */
  lemma JoinStripUnchanged(qs: seq<string>)
    requires |qs| > 0
    requires forall i :: 0 <= i < |qs| ==> WellFormed(qs[i])
    ensures Strip(Join(qs, "\n")) == Join(qs, "\n")
  {
    WellFormedEnds(qs[0]);
    WellFormedEnds(qs[|qs| - 1]);
    JoinEndsStrip(qs);
  }

  lemma JoinEndsStrip(qs: seq<string>)
    requires |qs| > 0 && |qs[0]| > 0 && |qs[|qs| - 1]| > 0
    requires !IsSpace(qs[0][0]) && !IsSpace(qs[|qs| - 1][|qs[|qs| - 1]| - 1])
    ensures Strip(Join(qs, "\n")) == Join(qs, "\n")
  {
    JoinEnds(qs);
    StripUnchanged(Join(qs, "\n"));
  }

  /** A reply whose first line starts and whose last line ends with a
      non-whitespace character neither starts nor ends with whitespace. */
  lemma JoinEnds(qs: seq<string>)
    requires |qs| > 0 && |qs[0]| > 0 && |qs[|qs| - 1]| > 0
    requires !IsSpace(qs[0][0]) && !IsSpace(qs[|qs| - 1][|qs[|qs| - 1]| - 1])
    ensures var s := Join(qs, "\n");
      |s| > 0 && !IsSpace(s[0]) && !IsSpace(s[|s| - 1])
  {
    var s := Join(qs, "\n");
    var first := qs[0];
    var last := qs[|qs| - 1];
    JoinStartsWithFirst(qs, "\n");
    JoinEndsWithLast(qs, "\n");
    assert s[0] == s[..|first|][0] == first[0];
    assert s[|s| - 1] == s[|s| - |last|..][|last| - 1] == last[|last| - 1];
  }

  lemma WellFormedEnds(q: string)
    requires WellFormed(q)
    ensures |q| > 0 && !IsSpace(q[0]) && !IsSpace(q[|q| - 1])
  {
    StripEnds(q);
  }

  /** A clean, non-empty line neither starts nor ends with whitespace. */
  lemma StripEnds(q: string)
    requires Clean(q) == q && |q| > 0
    ensures !IsSpace(q[0]) && !IsSpace(q[|q| - 1])
  {
    var stripped := Strip(q);
    var l := LStripSpace(q);
    assert |LStrip(stripped, NumberingChars)| <= |stripped| <= |l| <= |q|;
    assert |l| == |q|;
  }

  /** Stripping a string whose ends are not whitespace changes nothing. */
  lemma StripUnchanged(s: string)
    requires |s| > 0 && !IsSpace(s[0]) && !IsSpace(s[|s| - 1])
    ensures Strip(s) == s
  {
  }

  lemma CleanAllWellFormed(qs: seq<string>)
    requires forall i :: 0 <= i < |qs| ==> WellFormed(qs[i])
    ensures CleanAll(qs) == qs
  {
  }

  lemma {:induction false} KeepWellFormed(qs: seq<string>)
    requires forall i :: 0 <= i < |qs| ==> |qs[i]| > MinLength
    ensures Keep(qs) == qs
  {
    if |qs| > 0 {
      KeepWellFormed(qs[1..]);
    }
  }

  // ---------------------------------------------------------------------------
  // Padding and truncation
  // ---------------------------------------------------------------------------

  /** Fallback question `i`, with `order` the topics in set order. */
  function Fallback(i: nat, order: seq<Value>): string {
    if |order| == 0 then GenericFallback
    else FallbackPrompts[i % |FallbackPrompts|] + " " + Render(order[i % |order|]) + "?"
  }

  /** `[f(i) for i in range(from, to)]`. */
  function Tabulate(from: nat, to: int, f: nat -> string): (r: seq<string>)
    decreases to - from
    ensures |r| == if to <= from then 0 else to - from
    ensures forall k :: 0 <= k < |r| ==> r[k] == f(from + k)
  {
    if to <= from then [] else [f(from)] + Tabulate(from + 1, to, f)
  }

  /** Pad with fallbacks up to `n`, then `questions[:n]`. */
  function Pad(questions: seq<string>, n: int, order: seq<Value>): (r: seq<string>)
    ensures n >= 0 ==> |r| == n
    ensures forall i :: 0 <= i < |r| && i < |questions| ==> r[i] == questions[i]
    ensures forall i :: |questions| <= i < |r| ==> r[i] == Fallback(i, order)
    ensures n < 0 ==> r == PyTake(questions, n)
  {
    var padded := if |questions| < n then questions + Tabulate(|questions|, n, (i: nat) => Fallback(i, order)) else questions;
    PyTake(padded, n)
  }

  /** Padding an already padded list changes nothing. */
  lemma PadIdempotent(questions: seq<string>, n: nat, order: seq<Value>)
    ensures Pad(Pad(questions, n, order), n, order) == Pad(questions, n, order)
  {
  }

  /** With no topic every fallback is the generic question; otherwise fallback
      `i` pairs the `i mod 5`-th opening with the `i mod t`-th topic. */
  lemma FallbackText(i: nat, order: seq<Value>)
    ensures |order| == 0 ==> Fallback(i, order) == GenericFallback
    ensures |order| > 0 ==>
      exists t :: t in order && Fallback(i, order) == FallbackPrompts[i % 5] + " " + Render(t) + "?"
  {
    if |order| > 0 {
      var t := order[i % |order|];
      assert t in order;
    }
  }

  // ---------------------------------------------------------------------------
  // generate_suggested_questions
  // ---------------------------------------------------------------------------

  /** What the prompt is built from: the response excerpt, the chunk excerpts
      and the requested count. The wording of the prompt is left out. */
  datatype Prompt = Prompt(response: string, excerpts: seq<Value>, count: int)

  /** `generate_suggested_questions`, with the language model as `llm`: a
      reply, or `None` when the model call raises. */
  function Suggest(chunks: seq<Record>, response: string, n: int, llm: Prompt -> Option<string>,
                   order: seq<Value>): (r: seq<string>)
    requires OrderFor(chunks, order)
    ensures Gather(Consulted(chunks)).None? ==> r == ErrorQuestions
    ensures Gather(Consulted(chunks)).Some?
      && llm(Prompt(PyTake(response, ResponseExcerptLength), Gather(Consulted(chunks)).value.excerpts, n)).None?
      ==> r == ErrorQuestions
    ensures r != ErrorQuestions && n >= 0 ==> |r| == n
  {
    match Gather(Consulted(chunks))
    case None => ErrorQuestions
    case Some(g) =>
      match llm(Prompt(PyTake(response, ResponseExcerptLength), g.excerpts, n))
      case None => ErrorQuestions
      case Some(reply) => Pad(ParseReply(reply), n, order)
  }

  /** When nothing raises, the parsed questions come first, in reply order,
      then the fallbacks, and the list has exactly `n` entries. */
  lemma SuggestShape(chunks: seq<Record>, response: string, n: nat, llm: Prompt -> Option<string>,
                     order: seq<Value>)
    requires OrderFor(chunks, order)
    requires Gather(Consulted(chunks)).Some?
    ensures var g := Gather(Consulted(chunks)).value;
      var reply := llm(Prompt(PyTake(response, ResponseExcerptLength), g.excerpts, n));
      reply.Some? ==>
        var r := Suggest(chunks, response, n, llm, order);
        var parsed := ParseReply(reply.value);
        && |r| == n
        && (forall i :: 0 <= i < n && i < |parsed| ==> r[i] == parsed[i])
        && (forall i :: |parsed| <= i < n ==> r[i] == Fallback(i, order))
  {
  }

  /** Chunks after the fifth are never read. */
  lemma LaterChunksIgnored(chunks: seq<Record>, more: seq<Record>, response: string, n: int,
                           llm: Prompt -> Option<string>, order: seq<Value>)
    requires |chunks| >= ChunksConsulted
    requires OrderFor(chunks, order)
    ensures OrderFor(chunks + more, order)
    ensures Suggest(chunks + more, response, n, llm, order) == Suggest(chunks, response, n, llm, order)
  {
    assert Consulted(chunks + more) == Consulted(chunks);
  }

  /** Content past the first 300 characters is never read. */
  lemma LongContentIgnored(chunk: Record, s: string, t: string)
    requires |s| >= ExcerptLength
    ensures ReadChunk(chunk["content" := Str(s + t)]) == ReadChunk(chunk["content" := Str(s)])
  {
    assert PyTake(s + t, ExcerptLength) == PyTake(s, ExcerptLength);
  }
}

=== FILE: text.dfy ===
/** Python string operations the system relies on, over `string = seq<char>`:
    lower-casing, whitespace, `str.split`, `str.join`, `str.strip`, regex word
    boundaries (`\b`), substring search, `str(int)` and string ordering. */
module Text {

  // ---------------------------------------------------------------------------
  // Characters
  // ---------------------------------------------------------------------------

  /** `str.lower` on one character (ASCII letters only). */
  function Lower(c: char): char {
    if 'A' <= c <= 'Z' then (c as int + 32) as char else c
  }

  function LowerStr(s: string): (r: string)
    ensures |r| == |s|
    ensures forall i :: 0 <= i < |s| ==> r[i] == Lower(s[i])
  {
    if |s| == 0 then [] else [Lower(s[0])] + LowerStr(s[1..])
  }

  lemma LowerIdempotent(s: string)
    ensures LowerStr(LowerStr(s)) == LowerStr(s)
  {
  }

  /** Python's `str.isspace` on one character. */
  predicate IsSpace(c: char) {
    c == ' ' || '\t' <= c <= '\r' || '\U{1C}' <= c <= '\U{1F}' || c == '\U{85}' || c == '\U{A0}'
    || c == '\U{1680}' || '\U{2000}' <= c <= '\U{200A}' || c == '\U{2028}' || c == '\U{2029}'
    || c == '\U{202F}' || c == '\U{205F}' || c == '\U{3000}'
  }

  /** A regex word character (`\w`): letters, digits and underscore. */
  predicate IsWordChar(c: char) {
    'a' <= c <= 'z' || 'A' <= c <= 'Z' || '0' <= c <= '9' || c == '_'
  }

  lemma LowerKeepsWordChar(c: char)
    ensures IsWordChar(Lower(c)) == IsWordChar(c)
  {
  }

  // ---------------------------------------------------------------------------
  // Substrings and word matches
  // ---------------------------------------------------------------------------

  /** Python's `sub in s`. */
  predicate Contains(s: string, sub: string) {
    exists i :: 0 <= i <= |s| - |sub| && OccursAt(s, i, sub)
  }

  /** `sub` occurs in `s` starting at position `i`. */
  predicate OccursAt(s: string, i: int, sub: string) {
    0 <= i && i + |sub| <= |s| && s[i..i + |sub|] == sub
  }

  /** Whether position `i` of `s` has a word character (`false` outside `s`). */
  predicate WordCharAt(s: string, i: int) {
    0 <= i < |s| && IsWordChar(s[i])
  }

  /** The regex assertion `\b` at position `i` of `s`. */
  predicate Boundary(s: string, i: int) {
    WordCharAt(s, i - 1) != WordCharAt(s, i)
  }

  /** The pattern `\b<w>\b` matches at position `i` of `s`, ignoring case. */
  predicate WordAt(s: string, i: int, w: string) {
    0 <= i && i + |w| <= |s| && LowerStr(s[i..i + |w|]) == LowerStr(w)
    && Boundary(s, i) && Boundary(s, i + |w|)
  }

  /** `re.search(r'\b' + re.escape(w) + r'\b', s, re.IGNORECASE)` succeeds. */
  predicate ContainsWord(s: string, w: string) {
    exists i :: 0 <= i <= |s| - |w| && WordAt(s, i, w)
  }

  /** `re.sub(r'\b' + re.escape(w) + r'\b', rep, s[i:], flags=re.IGNORECASE)`,
      reading the boundaries in the whole of `s`: matches are replaced left to
      right and do not overlap. */
  function ReplaceWordFrom(s: string, w: string, rep: string, i: nat): (r: string)
    requires |w| > 0
    decreases |s| - i
  {
    if i >= |s| then []
    else if WordAt(s, i, w) then rep + ReplaceWordFrom(s, w, rep, i + |w|)
    else [s[i]] + ReplaceWordFrom(s, w, rep, i + 1)
  }

  function ReplaceWord(s: string, w: string, rep: string): string
    requires |w| > 0
  {
    ReplaceWordFrom(s, w, rep, 0)
  }

  /** Where `w` does not occur as a whole word, substitution leaves the text as it is. */
  lemma {:induction false} ReplaceWordFromNoMatch(s: string, w: string, rep: string, i: nat)
    requires |w| > 0
    requires i <= |s|
    requires forall j :: i <= j < |s| ==> !WordAt(s, j, w)
    ensures ReplaceWordFrom(s, w, rep, i) == s[i..]
    decreases |s| - i
  {
    if i < |s| {
      ReplaceWordFromNoMatch(s, w, rep, i + 1);
    }
  }

  lemma ReplaceWordNoMatch(s: string, w: string, rep: string)
    requires |w| > 0
    requires !ContainsWord(s, w)
    ensures ReplaceWord(s, w, rep) == s
  {
    forall j | 0 <= j < |s|
      ensures !WordAt(s, j, w)
    {
    }
    ReplaceWordFromNoMatch(s, w, rep, 0);
  }

  lemma AppendAssoc(a: string, b: string, c: string)
    ensures a + (b + c) == (a + b) + c
  {
  }

  /** Text before the next whole-word match is copied unchanged. */
  lemma {:induction false} ReplaceWordFromSkip(s: string, w: string, rep: string, i: nat, j: nat)
    requires |w| > 0 && i <= j <= |s|
    requires forall k :: i <= k < j ==> !WordAt(s, k, w)
    ensures ReplaceWordFrom(s, w, rep, i) == s[i..j] + ReplaceWordFrom(s, w, rep, j)
    decreases j - i
  {
    if i < j {
      assert !WordAt(s, i, w);
      ReplaceWordFromSkip(s, w, rep, i + 1, j);
      AppendAssoc([s[i]], s[i + 1..j], ReplaceWordFrom(s, w, rep, j));
      assert s[i..j] == [s[i]] + s[i + 1..j];
    }
  }

  /** The first whole-word match is replaced by `rep`, with the text before it
      kept and the substitution resuming right after the match. */
  lemma ReplaceWordFirst(s: string, w: string, rep: string, i: nat)
    requires |w| > 0 && WordAt(s, i, w)
    requires forall k :: 0 <= k < i ==> !WordAt(s, k, w)
    ensures ReplaceWord(s, w, rep) == s[..i] + rep + ReplaceWordFrom(s, w, rep, i + |w|)
  {
    ReplaceWordFromSkip(s, w, rep, 0, i);
    assert s[0..i] == s[..i];
    AppendAssoc(s[..i], rep, ReplaceWordFrom(s, w, rep, i + |w|));
  }

  /** A single whole-word occurrence: it is replaced, and every other
      character is kept in place. */
  lemma ReplaceWordOnce(s: string, w: string, rep: string, i: nat)
    requires |w| > 0 && WordAt(s, i, w)
    requires forall k :: 0 <= k < |s| && k != i ==> !WordAt(s, k, w)
    ensures ReplaceWord(s, w, rep) == s[..i] + rep + s[i + |w|..]
  {
    ReplaceWordFirst(s, w, rep, i);
    ReplaceWordFromNoMatch(s, w, rep, i + |w|);
  }

  /** Lower-casing the text does not move any whole-word match. */
  lemma WordAtLower(s: string, i: int, w: string)
    ensures WordAt(LowerStr(s), i, w) == WordAt(s, i, w)
  {
    var l := LowerStr(s);
    forall k | 0 <= k < |s|
      ensures WordCharAt(l, k) == WordCharAt(s, k)
    {
      LowerKeepsWordChar(s[k]);
    }
    if 0 <= i && i + |w| <= |s| {
      assert l[i..i + |w|] == LowerStr(s[i..i + |w|]);
      LowerIdempotent(s[i..i + |w|]);
    }
  }

  // ---------------------------------------------------------------------------
  // Splitting, joining and stripping
  // ---------------------------------------------------------------------------

  /** Python's `sep.join(parts)`. */
  function Join(parts: seq<string>, sep: string): (r: string)
    ensures |parts| == 1 ==> r == parts[0]
    ensures |parts| == 0 ==> r == ""
  {
    if |parts| == 0 then ""
    else if |parts| == 1 then parts[0]
    else parts[0] + sep + Join(parts[1..], sep)
  }

  /** The first part leads the joined string. */
  lemma {:induction false} JoinStartsWithFirst(parts: seq<string>, sep: string)
    requires |parts| > 0
    ensures |parts[0]| <= |Join(parts, sep)|
    ensures Join(parts, sep)[..|parts[0]|] == parts[0]
  {
    if |parts| > 1 {
      assert Join(parts, sep) == parts[0] + (sep + Join(parts[1..], sep));
    }
  }

  /** The last part ends the joined string. */
  lemma {:induction false} JoinEndsWithLast(parts: seq<string>, sep: string)
    requires |parts| > 0
    ensures |parts[|parts| - 1]| <= |Join(parts, sep)|
    ensures Join(parts, sep)[|Join(parts, sep)| - |parts[|parts| - 1]|..] == parts[|parts| - 1]
  {
    if |parts| > 1 {
      JoinEndsWithLast(parts[1..], sep);
      assert parts[1..][|parts[1..]| - 1] == parts[|parts| - 1];
      var tail := Join(parts[1..], sep);
      assert Join(parts, sep) == (parts[0] + sep) + tail;
    }
  }

  lemma {:induction false} JoinAppend(parts: seq<string>, p: string, sep: string)
    requires |parts| > 0
    ensures Join(parts + [p], sep) == Join(parts, sep) + sep + p
  {
    if |parts| == 1 {
      assert (parts + [p])[1..] == [p];
    } else {
      assert (parts + [p])[1..] == parts[1..] + [p];
      JoinAppend(parts[1..], p, sep);
    }
  }

  /** Python's `s.split(c)` for a one-character separator: never empty, and
      no part holds the separator. */
  function SplitOn(s: string, c: char): (r: seq<string>)
    ensures |r| >= 1
    ensures forall i :: 0 <= i < |r| ==> c !in r[i]
  {
    if |s| == 0 then [""]
    else
      var rest := SplitOn(s[1..], c);
      if s[0] == c then [""] + rest else [[s[0]] + rest[0]] + rest[1..]
  }

  /** Splitting on `c` and joining with `c` gives the string back. */
  lemma {:induction false} JoinSplitOn(s: string, c: char)
    ensures Join(SplitOn(s, c), [c]) == s
  {
    if |s| > 0 {
      var rest := SplitOn(s[1..], c);
      JoinSplitOn(s[1..], c);
      if s[0] == c {
        assert SplitOn(s, c)[1..] == rest;
      } else {
        var r := SplitOn(s, c);
        if |rest| == 1 {
          assert r == [[s[0]] + rest[0]];
        } else {
          assert r[1..] == rest[1..];
          assert Join(rest, [c]) == rest[0] + [c] + Join(rest[1..], [c]);
        }
      }
    }
  }

  /** Joining parts free of `c` with `c` and splitting again recovers the parts. */
  lemma {:induction false} SplitOnJoin(parts: seq<string>, c: char)
    requires |parts| >= 1
    requires forall i :: 0 <= i < |parts| ==> c !in parts[i]
    ensures SplitOn(Join(parts, [c]), c) == parts
  {
    if |parts| == 1 {
      SplitOnFree(parts[0], c);
    } else {
      SplitOnJoin(parts[1..], c);
      SplitOnPrefix(parts[0], Join(parts[1..], [c]), c);
      assert [parts[0]] + parts[1..] == parts;
    }
  }

  lemma {:induction false} SplitOnFree(s: string, c: char)
    requires c !in s
    ensures SplitOn(s, c) == [s]
  {
    if |s| > 0 {
      SplitOnFree(s[1..], c);
      assert [s[0]] + s[1..] == s;
    }
  }

  lemma {:induction false} SplitOnPrefix(p: string, rest: string, c: char)
    requires c !in p
    ensures SplitOn(p + [c] + rest, c) == [p] + SplitOn(rest, c)
  {
    if |p| == 0 {
      assert p + [c] + rest == [c] + rest;
      assert ([c] + rest)[1..] == rest;
    } else {
      assert (p + [c] + rest)[1..] == p[1..] + [c] + rest;
      SplitOnPrefix(p[1..], rest, c);
      assert [p[0]] + p[1..] == p;
    }
  }

  /** Length of the leading run of non-whitespace characters. */
  function WordRun(s: string): (n: nat)
    ensures n <= |s|
    ensures forall i :: 0 <= i < n ==> !IsSpace(s[i])
    ensures n < |s| ==> IsSpace(s[n])
  {
    if |s| == 0 || IsSpace(s[0]) then 0 else 1 + WordRun(s[1..])
  }

  /** Python's `s.split()`: the maximal runs of non-whitespace characters. */
  function SplitWhitespace(s: string): (r: seq<string>)
    ensures forall i :: 0 <= i < |r| ==> Token(r[i])
    decreases |s|
  {
    if |s| == 0 then []
    else if IsSpace(s[0]) then SplitWhitespace(s[1..])
    else
      var n := WordRun(s);
      [s[..n]] + SplitWhitespace(s[n..])
  }

  /** A token produced by `str.split()`: non-empty, without whitespace. */
  predicate Token(t: string) {
    |t| > 0 && forall i :: 0 <= i < |t| ==> !IsSpace(t[i])
  }

  lemma {:induction false} SplitWhitespaceToken(t: string, rest: string)
    requires Token(t)
    requires |rest| == 0 || IsSpace(rest[0])
    ensures SplitWhitespace(t + rest) == [t] + SplitWhitespace(rest)
  {
    WordRunToken(t, rest);
    assert (t + rest)[..|t|] == t;
    assert (t + rest)[|t|..] == rest;
  }

  lemma {:induction false} WordRunToken(t: string, rest: string)
    requires forall i :: 0 <= i < |t| ==> !IsSpace(t[i])
    requires |rest| == 0 || IsSpace(rest[0])
    ensures WordRun(t + rest) == |t|
  {
    if |t| > 0 {
      assert (t + rest)[1..] == t[1..] + rest;
      WordRunToken(t[1..], rest);
    }
  }

  /** Re-tokenising tokens joined by single spaces gives the same tokens: the
      text a sparse index reconstructs tokenises exactly as the stored document. */
  lemma {:induction false} SplitJoinTokens(ts: seq<string>)
    requires forall i :: 0 <= i < |ts| ==> Token(ts[i])
    ensures SplitWhitespace(Join(ts, " ")) == ts
  {
    if |ts| == 1 {
      SplitWhitespaceToken(ts[0], "");
      assert ts[0] + "" == ts[0];
    } else if |ts| > 1 {
      var rest := Join(ts[1..], " ");
      SplitJoinTokens(ts[1..]);
      SplitWhitespaceToken(ts[0], " " + rest);
      assert Join(ts, " ") == ts[0] + (" " + rest);
      assert (" " + rest)[1..] == rest;
      assert [ts[0]] + ts[1..] == ts;
    }
  }

  /** Every character is already lower case. */
  predicate Lowered(s: string) {
    forall i :: 0 <= i < |s| ==> Lower(s[i]) == s[i]
  }

  lemma LoweredFixed(s: string)
    requires Lowered(s)
    ensures LowerStr(s) == s
  {
  }

  lemma LowerStrLowered(s: string)
    ensures Lowered(LowerStr(s))
  {
  }

  /** The tokens of a lower-case string are lower case. */
  lemma {:induction false} SplitWhitespaceLowered(s: string)
    requires Lowered(s)
    ensures forall i :: 0 <= i < |SplitWhitespace(s)| ==> Lowered(SplitWhitespace(s)[i])
    decreases |s|
  {
    if |s| > 0 {
      if IsSpace(s[0]) {
        SplitWhitespaceLowered(s[1..]);
      } else {
        var n := WordRun(s);
        SplitWhitespaceLowered(s[n..]);
        assert SplitWhitespace(s) == [s[..n]] + SplitWhitespace(s[n..]);
      }
    }
  }

  /** Lower-case parts joined by a lower-case separator stay lower case. */
  lemma {:induction false} JoinLowered(parts: seq<string>, sep: string)
    requires Lowered(sep)
    requires forall i :: 0 <= i < |parts| ==> Lowered(parts[i])
    ensures Lowered(Join(parts, sep))
  {
    if |parts| > 1 {
      JoinLowered(parts[1..], sep);
      var rest := Join(parts[1..], sep);
      var r := parts[0] + sep + rest;
      assert Join(parts, sep) == r;
      forall i | 0 <= i < |r|
        ensures Lower(r[i]) == r[i]
      {
        if i < |parts[0]| {
          assert r[i] == parts[0][i];
        } else if i < |parts[0]| + |sep| {
          assert r[i] == sep[i - |parts[0]|];
        } else {
          assert r[i] == rest[i - |parts[0]| - |sep|];
        }
      }
    }
  }

  /** Python's `s.lstrip(chars)`. */
  function LStrip(s: string, chars: set<char>): (r: string)
    ensures |r| <= |s|
    ensures r == s[|s| - |r|..]
    ensures |r| > 0 ==> r[0] !in chars
    ensures forall i :: 0 <= i < |s| - |r| ==> s[i] in chars
  {
    if |s| > 0 && s[0] in chars then LStrip(s[1..], chars) else s
  }

  /** Python's `s.strip()` side by side: leading whitespace removed. */
  function LStripSpace(s: string): (r: string)
    ensures |r| <= |s|
    ensures r == s[|s| - |r|..]
    ensures |r| > 0 ==> !IsSpace(r[0])
    ensures forall i :: 0 <= i < |s| - |r| ==> IsSpace(s[i])
  {
    if |s| > 0 && IsSpace(s[0]) then LStripSpace(s[1..]) else s
  }

  /** Trailing whitespace removed. */
  function RStripSpace(s: string): (r: string)
    ensures |r| <= |s|
    ensures r == s[..|r|]
    ensures |r| > 0 ==> !IsSpace(r[|r| - 1])
    ensures forall i :: |r| <= i < |s| ==> IsSpace(s[i])
  {
    if |s| > 0 && IsSpace(s[|s| - 1]) then RStripSpace(s[..|s| - 1]) else s
  }

  /** Python's `s.strip()`: the text between a whitespace prefix and a
      whitespace suffix, neither end of it whitespace. */
  function Strip(s: string): (r: string)
    ensures |r| <= |s|
    ensures |r| > 0 ==> !IsSpace(r[0]) && !IsSpace(r[|r| - 1])
    ensures exists a :: StrippedAt(s, r, a)
  {
    var l := LStripSpace(s);
    var r := RStripSpace(l);
    assert StrippedAt(s, r, |s| - |l|) by {
      assert l[..|r|] == s[|s| - |l|..|s| - |l| + |r|];
      forall i | |s| - |l| + |r| <= i < |s|
        ensures IsSpace(s[i])
      {
        assert s[i] == l[i - (|s| - |l|)];
      }
    }
    r
  }

  /** `r` is `s` with the whitespace before position `a` and the whitespace
      after `r` removed. */
  predicate StrippedAt(s: string, r: string, a: int) {
    && 0 <= a && a + |r| <= |s| && s[a..a + |r|] == r
    && (forall i :: 0 <= i < a ==> IsSpace(s[i]))
    && (forall i :: a + |r| <= i < |s| ==> IsSpace(s[i]))
  }

  // ---------------------------------------------------------------------------
  // Numbers and ordering
  // ---------------------------------------------------------------------------

  function Digit(d: nat): (c: char)
    requires d < 10
  {
    ('0' as int + d) as char
  }

  /** Python's `str(n)` for a non-negative integer. */
  function NatToDecimal(n: nat): (r: string)
    ensures |r| > 0
    ensures forall i :: 0 <= i < |r| ==> '0' <= r[i] <= '9'
  {
    if n < 10 then [Digit(n)] else NatToDecimal(n / 10) + [Digit(n % 10)]
  }

  /** Python's `str(n)`. */
  function IntToDecimal(n: int): (r: string)
    ensures |r| > 0
  {
    if n < 0 then "-" + NatToDecimal(-n) else NatToDecimal(n)
  }

  /** Reads a string of decimal digits back as a number. */
  function ParseDecimal(s: string): nat
    requires forall i :: 0 <= i < |s| ==> '0' <= s[i] <= '9'
  {
    if |s| == 0 then 0
    else 10 * ParseDecimal(s[..|s| - 1]) + (s[|s| - 1] as int - '0' as int)
  }

  /** The decimal rendering of a number reads back as that number. */
  lemma {:induction false} DecimalRoundTrip(n: nat)
    ensures ParseDecimal(NatToDecimal(n)) == n
  {
    if n >= 10 {
      DecimalRoundTrip(n / 10);
      var r := NatToDecimal(n);
      assert r[..|r| - 1] == NatToDecimal(n / 10);
    }
  }

  /** Python's `a < b` on strings: lexicographic by code point. */
  predicate StrLess(a: string, b: string) {
    (|a| == 0 && |b| > 0)
    || (|a| > 0 && |b| > 0 && (a[0] < b[0] || (a[0] == b[0] && StrLess(a[1..], b[1..]))))
  }

  lemma {:induction false} StrLessIrreflexive(a: string)
    ensures !StrLess(a, a)
  {
    if |a| > 0 {
      StrLessIrreflexive(a[1..]);
    }
  }

  lemma {:induction false} StrLessTransitive(a: string, b: string, c: string)
    requires StrLess(a, b) && StrLess(b, c)
    ensures StrLess(a, c)
  {
    if |a| > 0 && a[0] == b[0] && b[0] == c[0] {
      StrLessTransitive(a[1..], b[1..], c[1..]);
    }
  }

  lemma {:induction false} StrLessTotal(a: string, b: string)
    requires a != b
    ensures StrLess(a, b) || StrLess(b, a)
  {
    if |a| > 0 && |b| > 0 && a[0] == b[0] {
      assert a == [a[0]] + a[1..];
      assert b == [b[0]] + b[1..];
      StrLessTotal(a[1..], b[1..]);
    }
  }

  /** Strictly increasing under `StrLess`: sorted and free of duplicates. */
  predicate StrictlySorted(s: seq<string>) {
    forall i, j :: 0 <= i < j < |s| ==> StrLess(s[i], s[j])
  }

  /** Inserts `x` into a strictly sorted sequence unless it is already there. */
  function InsertSorted(x: string, s: seq<string>): (r: seq<string>)
    requires StrictlySorted(s)
    ensures StrictlySorted(r)
    ensures forall y :: y in r <==> y in s || y == x
  {
    if |s| == 0 then [x]
    else if x == s[0] then s
    else if StrLess(x, s[0]) then
      assert forall j :: 0 < j < |s| ==> StrLess(s[0], s[j]);
      forall j | 0 <= j < |s|
        ensures StrLess(x, s[j])
      {
        if j > 0 {
          StrLessTransitive(x, s[0], s[j]);
        }
      }
      [x] + s
    else
      StrLessTotal(x, s[0]);
      var t := InsertSorted(x, s[1..]);
      forall j | 0 <= j < |t|
        ensures StrLess(s[0], t[j])
      {
        if t[j] != x {
          assert t[j] in s[1..];
          var k :| 1 <= k < |s| && s[k] == t[j];
        }
      }
      [s[0]] + t
  }

  /** Python's `sorted(list(set(s)))`: the distinct elements of `s`, ascending. */
  function SortedSet(s: seq<string>): (r: seq<string>)
    ensures StrictlySorted(r)
    ensures forall y :: y in r <==> y in s
  {
    if |s| == 0 then [] else InsertSorted(s[|s| - 1], SortedSet(s[..|s| - 1]))
  }

  lemma StrLessAsymmetric(a: string, b: string)
    requires StrLess(a, b)
    ensures !StrLess(b, a)
  {
    if StrLess(b, a) {
      StrLessTransitive(a, b, a);
      StrLessIrreflexive(a);
      assert false;
    }
  }

  /** A strictly sorted sequence is fixed by its elements: `sorted(set(...))` has one answer. */
  lemma {:induction false} StrictlySortedUnique(a: seq<string>, b: seq<string>)
    requires StrictlySorted(a) && StrictlySorted(b)
    requires forall y :: y in a <==> y in b
    ensures a == b
  {
    if |b| > 0 {
      assert b[0] in a;
    }
    if |a| > 0 {
      assert a[0] in b;
      var k :| 0 <= k < |b| && b[k] == a[0];
      assert b[0] in a;
      var m :| 0 <= m < |a| && a[m] == b[0];
      if a[0] != b[0] {
        StrLessAsymmetric(b[0], a[0]);
        assert false;
      }
      StrLessIrreflexive(a[0]);
      forall y
        ensures y in a[1..] <==> y in b[1..]
      {
        if y in a[1..] {
          var i :| 1 <= i < |a| && a[i] == y;
          assert y in b;
        }
        if y in b[1..] {
          var i :| 1 <= i < |b| && b[i] == y;
          assert y in a;
        }
      }
      StrictlySortedUnique(a[1..], b[1..]);
      assert a == [a[0]] + a[1..];
      assert b == [b[0]] + b[1..];
    }
  }
}

=== FILE: values.dfy ===
/** The dynamically typed values that flow through the system: YAML
    configuration trees, chunk and candidate metadata, topics. */
module Values {
  import opened Text

  datatype Value =
    | Null
    | Bool(b: bool)
    | Int(i: int)
    | Str(s: string)
    | List(items: seq<Value>)
    | Dict(entries: map<string, Value>)

  /** A metadata record: Python's `Dict[str, Any]`. */
  type Record = map<string, Value>

  /** Python's `d.get(k, default)` on a record. */
  function GetOr(m: Record, k: string, default: Value): (v: Value)
    ensures k in m ==> v == m[k]
    ensures k !in m ==> v == default
  {
    if k in m then m[k] else default
  }

  /** Python's `str(v)`, as an f-string renders it. */
  function Render(v: Value): string {
    match v
    case Null => "None"
    case Bool(b) => if b then "True" else "False"
    case Int(i) => IntToDecimal(i)
    case Str(s) => s
    case List(items) => "[" + Join(RenderItems(items), ", ") + "]"
    case Dict(m) => if |m| == 0 then "{}" else "{...}"
  }

  /** Python's `repr` of each element of a list: `repr` and `str` agree on
      everything but strings. */
  function RenderItems(items: seq<Value>): (r: seq<string>)
    ensures |r| == |items|
    ensures forall i :: 0 <= i < |items| && items[i].Str? ==> r[i] == Repr(items[i].s)
    decreases items, 1
  {
    if |items| == 0 then []
    else [if items[0].Str? then Repr(items[0].s) else Render(items[0])] + RenderItems(items[1..])
  }

  // ---------------------------------------------------------------------------
  // Python's `repr` of a string
  // ---------------------------------------------------------------------------

  /** The quote `repr` puts around a string: `"` when the string holds a `'`
      and no `"`, otherwise `'`. */
  function QuoteFor(s: string): (q: char)
    ensures q == '\'' || q == '"'
    ensures q == '"' ==> q !in s
  {
    if '\'' in s && '"' !in s then '"' else '\''
  }

  /** The characters below U+0100 that `str.isprintable` rejects and that
      `repr` therefore writes as `\xNN`: the C0 and C1 controls, DEL, U+00A0
      and U+00AD (tab, newline and carriage return have escapes of their own). */
  predicate HexEscaped(c: char) {
    c as int < 0x20 || 0x7f <= c as int <= 0xa0 || c as int == 0xad
  }

  function HexDigit(d: nat): (c: char)
    requires d < 16
    ensures HexValue(c) == d
  {
    if d < 10 then ('0' as int + d) as char else ('a' as int + d - 10) as char
  }

  /** The value of a lower-case hexadecimal digit (0 for any other character). */
  function HexValue(c: char): (d: nat)
    ensures d < 16
  {
    if '0' <= c <= '9' then c as int - '0' as int
    else if 'a' <= c <= 'f' then c as int - 'a' as int + 10
    else 0
  }

  /** How `repr` writes one character inside the quote `q`. */
  function EscapeChar(c: char, q: char): (r: string)
    ensures |r| > 0
    ensures r == [c] <==> c != '\\' && c != q && c != '\t' && c != '\n' && c != '\r' && !HexEscaped(c)
    ensures r != [c] ==> r[0] == '\\'
  {
    if c == '\\' then ['\\', '\\']
    else if c == q then ['\\', q]
    else if c == '\t' then ['\\', 't']
    else if c == '\n' then ['\\', 'n']
    else if c == '\r' then ['\\', 'r']
    else if HexEscaped(c) then ['\\', 'x', HexDigit(c as int / 16), HexDigit(c as int % 16)]
    else [c]
  }

  /** A character `repr` writes as itself inside the quote `q`. */
  predicate AsIs(c: char, q: char) {
    EscapeChar(c, q) == [c]
  }

  function Escape(s: string, q: char): (r: string)
    ensures |r| >= |s|
  {
    if |s| == 0 then [] else EscapeChar(s[0], q) + Escape(s[1..], q)
  }

  /** A string of plain characters is written as itself. */
  lemma {:induction false} EscapePlain(s: string, q: char)
    requires forall i :: 0 <= i < |s| ==> AsIs(s[i], q)
    ensures Escape(s, q) == s
  {
    if |s| > 0 {
      EscapePlain(s[1..], q);
      assert s == [s[0]] + s[1..];
    }
  }

  /** Python's `repr` of a string. */
  function Repr(s: string): (r: string)
    ensures |r| >= |s| + 2
    ensures r[0] == r[|r| - 1] == QuoteFor(s)
  {
    var q := QuoteFor(s);
    [q] + Escape(s, q) + [q]
  }

  /** A string of plain characters appears between the quotes unchanged. */
  lemma ReprPlain(s: string)
    requires forall i :: 0 <= i < |s| ==> AsIs(s[i], QuoteFor(s))
    ensures Repr(s) == [QuoteFor(s)] + s + [QuoteFor(s)]
  {
    EscapePlain(s, QuoteFor(s));
  }

  /** Reads back the escapes `repr` writes: `\\`, `\'`, `\"`, `\t`, `\n`,
      `\r` and `\xNN`. */
  function Unescape(t: string): (r: string)
    decreases |t|
  {
    if |t| >= 4 && t[0] == '\\' && t[1] == 'x' then [(HexValue(t[2]) * 16 + HexValue(t[3])) as char] + Unescape(t[4..])
    else if |t| >= 2 && t[0] == '\\' then [Unletter(t[1])] + Unescape(t[2..])
    else if |t| > 0 then [t[0]] + Unescape(t[1..])
    else []
  }

  function Unletter(c: char): char {
    if c == 't' then '\t' else if c == 'n' then '\n' else if c == 'r' then '\r' else c
  }

  lemma UnescapeChar(c: char, q: char, rest: string)
    requires q == '\'' || q == '"'
    ensures Unescape(EscapeChar(c, q) + rest) == [c] + Unescape(rest)
  {
    var e := EscapeChar(c, q);
    var t := e + rest;
    if HexEscaped(c) && c != '\\' && c != q && c != '\t' && c != '\n' && c != '\r' {
      assert t[0] == '\\' && t[1] == 'x' && t[4..] == rest;
      assert HexValue(t[2]) * 16 + HexValue(t[3]) == c as int;
    } else if |e| == 2 {
      assert t[0] == '\\' && t[1] != 'x' && t[2..] == rest;
    } else {
      assert t[0] == c && t[1..] == rest;
    }
  }

  /** Reading the escapes back gives the string. */
  lemma {:induction false} UnescapeEscape(s: string, q: char)
    requires q == '\'' || q == '"'
    ensures Unescape(Escape(s, q)) == s
  {
    if |s| > 0 {
      UnescapeEscape(s[1..], q);
      UnescapeChar(s[0], q, Escape(s[1..], q));
      assert s == [s[0]] + s[1..];
    }
  }

  /** The text between the quotes of `repr(s)` reads back as `s`. */
  lemma ReprRoundTrip(s: string)
    ensures var r := Repr(s); Unescape(r[1..|r| - 1]) == s
  {
    var r := Repr(s);
    assert r[1..|r| - 1] == Escape(s, QuoteFor(s));
    UnescapeEscape(s, QuoteFor(s));
  }

  /** A string holding `'` and no `"` is quoted with `"`. */
  lemma ReprDoubleQuoted()
    ensures Repr("it's") == "\"it's\""
  {
    var s := "it's";
    assert s[2] == '\'' && QuoteFor(s) == '"';
    assert Escape(s[3..], '"') == "s";
    assert Escape(s[2..], '"') == "'s";
    assert Escape(s[1..], '"') == "t's";
  }

  /** A string holding both quotes is quoted with `'`, which is escaped. */
  lemma ReprBothQuotes()
    ensures Repr("a'b\"") == "'a\\'b\"'"
  {
    var s := "a'b\"";
    assert s[3] == '"' && QuoteFor(s) == '\'';
    assert Escape(s[3..], '\'') == "\"";
    assert Escape(s[2..], '\'') == "b\"";
    assert Escape(s[1..], '\'') == "\\'b\"";
  }

  /** Backslashes and newlines are escaped. */
  lemma ReprEscapes()
    ensures Repr("a\\\n") == "'a\\\\\\n'"
  {
    var s := "a\\\n";
    assert QuoteFor(s) == '\'';
    assert Escape(s[2..], '\'') == "\\n";
    assert Escape(s[1..], '\'') == "\\\\\\n";
  }

  /** Values Python can put into a `set` (lists and dicts are unhashable). */
  predicate Hashable(v: Value) {
    !v.List? && !v.Dict?
  }
}

=== FILE: wrappers.dfy ===
/** Failure-carrying values: `Option` for a lookup that may find nothing and
    `Result` for a computation that Python would abort with an exception. */
module Wrappers {

  datatype Option<+T> = None | Some(value: T) {
    /** The wrapped value, or `default` when there is none (Python's `d.get(k, default)`). */
    function GetOr(default: T): T {
      match this
      case Some(v) => v
      case None => default
    }
  }

  datatype Result<+R, +E> = Ok(value: R) | Err(error: E) {
    function ToOption(): Option<R> {
      match this
      case Ok(v) => Some(v)
      case Err(_) => None
    }
  }
}
